=== FILE: README.md ===
# Generator.Bind registry compiler, modelled in Dafny

This project models the front half of OpenTK's binding generator
(`src/Generators/Generator.Bind`). That part reads the Khronos OpenGL XML
API registry (`gl.xml`) and resolves it to one API and profile. It also
projects the commands' type text into parsed types and maps those types
through a type table. The model covers these stages:

- **Registry reader** (`GLXmlReader`, module `GLXmlReader`). It turns an
  element tree into the registry model (`GLXmlDefinitions`). It covers:
  - the enum collision rule;
  - hexadecimal and decimal value parsing;
  - group member sets;
  - command and parameter type text;
  - feature filtering by API and profile.
- **Feature resolution** (`PruneEnumsAndFunctions`). It sorts features by
  version, keeping ties stable. Each feature adds names if absent and then
  removes names if present.
- **Group pruning** (`PruneGroups`). Each group keeps only the members that
  are surviving enums, and groups left empty are dropped.
- **Function type projection** (`ParseFunctionTypes`). An array counts as
  one more pointer level. Flow direction is chosen by the `\wconst\w` test.
- **Type-map reader** (`ParsedTypemapReader`). It reads a two-column table,
  one row per line, with `#` comments.
- **Low-type mapper** (`MapLowTypes`). Pointer levels add across a mapping,
  and types with no entry pass through unchanged.
- **Pipeline** (module `Pipeline`). This is the order in which `Program`
  runs the stages: read, then prune enums and commands, then prune groups.

## How the code is modelled

- **Value types.** The value structs of the source are Dafny datatypes:
  - in `GLXmlDefinitions`, `EnumValueDefinition`, `GroupDefinition`,
    `GroupedType`, `FunctionParameter`, `FunctionDefinition`,
    `FeatureElement`, `FeatureElementType` and `Definitions`;
  - in `ParsedTypes`, `ParsedType`, `ParsedGroupedType`,
    `ParsedFunctionParameter`, `FlowDirection` and
    `ParsedFunctionDefinition`.

  A constructor therefore stores its arguments unchanged. `Deconstruct`
  and `ToString` are functions whose contracts give the fields back, or
  read the text back.
- **Loops become methods.** Each stage that fills a dictionary, set or
  list in a loop is a `method` with the same loop:
  - `ParseEnumValues`, `ParseGroups`, `ParseFunctions`, `ParseFeatures`
    and `ProcessFeatureList`;
  - `PruneEnumsAndFunctions.Prune` and `PruneGroups.Prune`;
  - `ParsedTypemapReader.Parse`.

  Each method is proved equal to a function that states the whole
  computation. Lemmas then characterise that function: when it fails,
  which keys the result has, and what each entry holds.
- **Exceptions are results.** An exception is an `Err` of
  `Wrappers.Error`, named after the .NET exception: `FileNotFound`,
  `MissingAttribute`, `MissingElement`, `DuplicateKey`, `KeyNotFound`,
  `Argument`, `ArgumentOutOfRange`, `InvalidData`, `Format` and
  `Overflow`.
- **XML is an element tree.** `Xml.Element` has a local name, attributes
  and mixed content. `Value` is the concatenated descendant text. A
  document that could not be found is `None`.
- **Numbers and versions.** `Numbers.Long` is the 64-bit range. Hexadecimal
  parsing reads a 64-bit pattern as two's complement, and a value out of
  range gives `Overflow`. `Versions.Version` has two to four components,
  with -1 for an absent build or revision, ordered as `System.Version`
  orders them. Version text with the wrong number of parts gives
  `Argument`, and a negative component gives `ArgumentOutOfRange`.

Behaviour worth noting:

- **Enum collisions.** A later declaration overwrites an earlier one. The
  one exception is that a declaration without an `api` attribute never
  replaces a stored API-specific entry. The `api` value itself is never
  compared with the configured API (`GLXmlReader.Winner`).
- **The flow test.** It is the regular expression `\wconst\w`, which needs
  a word character on both sides of `const`, not a word-boundary test. A
  leading C `const`, as in `const GLubyte *`, is therefore classified `In`
  (`ParseFunctionTypes.FlowExamples`).
- **Unknown additions.** A feature that adds an enum or command missing
  from the registry's tables fails with `KeyNotFound`.
- **Duplicate type-map rows.** A repeated source name fails with
  `DuplicateKey`; a later row never overwrites an earlier one.
- **API and profile filtering.** The `api`/`profile` filter applies to
  whole `<require>`/`<remove>` blocks, never to their children.
- **Argument count.** `Program.cs:123` passes two arguments to
  `PruneGroups.Prune`, which takes one (`PruneGroups.cs:13`). The pipeline
  models the call with the registry alone.

## Model

| member | source | states |
|---|---|---|
| GLXmlDefinitions.EnumValueDefinition.ToString | src/Generators/Generator.Bind/XML/Signatures/GLXmlDefinitions.cs:43-46 | the text is `Value: ` followed by a number that reads back as the stored 64-bit value |
| GLXmlDefinitions.GroupedType.ToString | src/Generators/Generator.Bind/XML/Signatures/GLXmlDefinitions.cs:116-124 | with no group the text is the type name; with a group it is `(` group `) ` followed by the type name |
| GLXmlDefinitions.GroupedTypeToStringShowsGroup | src/Generators/Generator.Bind/XML/Signatures/GLXmlDefinitions.cs:116-124 | for a type name not starting with `(`, the text starts with `(` exactly when a group is attached |
| GLXmlDefinitions.GroupedType.Deconstruct | src/Generators/Generator.Bind/XML/Signatures/GLXmlDefinitions.cs:126-130 | constructing from the two parts it yields gives back the same grouped type |
| GLXmlDefinitions.FunctionParameter.Deconstruct | src/Generators/Generator.Bind/XML/Signatures/GLXmlDefinitions.cs:84-99 | yields (type, name), and constructing from (name, type) gives back the same parameter |
| GLXmlDefinitions.FunctionParameter.ToString | src/Generators/Generator.Bind/XML/Signatures/GLXmlDefinitions.cs:90-93 | the type's text, a space, then the parameter name |
| GLXmlDefinitions.FunctionDefinition.ToString | src/Generators/Generator.Bind/XML/Signatures/GLXmlDefinitions.cs:73-76 | the return type's text, a space, then the command name |
| GLXmlDefinitions.FeatureElementType.ToString | src/Generators/Generator.Bind/XML/Signatures/GLXmlDefinitions.cs:169-173 | the two kinds are told apart by their names `Enum` and `Function` |
| GLXmlDefinitions.FeatureElement.ToString | src/Generators/Generator.Bind/XML/Signatures/GLXmlDefinitions.cs:163-166 | the kind's name, a space, then the element name |
| GLXmlDefinitions.FeatureDefinition.ToString | src/Generators/Generator.Bind/XML/Signatures/GLXmlDefinitions.cs:146-149 | the version's text, which parses back to the same version |
| ParsedTypes.ParsedGroupedType.Deconstruct | src/Generators/Generator.Bind/ParsedGroupedType.cs:17-21 | yields exactly the (type, group) pair the value was built from |
| GLXmlReader.ParseXmlRegistry | src/Generators/Generator.Bind/XML/Signatures/GLXmlReader.cs:22-46 | a missing file fails with `FileNotFound`; otherwise the result is the enums, groups, commands and features read in that order, and the first failure wins |
| GLXmlReader.RegistryCharacterization | src/Generators/Generator.Bind/XML/Signatures/GLXmlReader.cs:40-45 | reading succeeds exactly when the enums, groups, commands and features each read well; then there is one enum per declared name and one group per `<group>`, every command is under its own name, and every feature has a well-formed version |
| GLXmlReader.ParseEnumValues | src/Generators/Generator.Bind/XML/Signatures/GLXmlReader.cs:168-205 | the loop computes the enum table of the declarations in document order, failing at the first bad declaration |
| GLXmlReader.EnumTableCharacterization | src/Generators/Generator.Bind/XML/Signatures/GLXmlReader.cs:176-200 | the table reads exactly when every declaration has a name and, unless it is skipped, a parsable value; its keys are the declared names; each name holds the value of its winner (the last API-specific declaration, or the last declaration when none is API-specific) |
| GLXmlReader.EnumDefinitions | src/Generators/Generator.Bind/XML/Signatures/GLXmlReader.cs:202-204 | the final dictionary has the same keys and keeps each value, dropping the API flag |
| GLXmlReader.ParseValueSpellings | src/Generators/Generator.Bind/XML/Signatures/GLXmlReader.cs:188-197 | every non-negative 64-bit value reads the same in its `0x` hexadecimal and its decimal spelling |
| GLXmlReader.ParseValueSixteen | src/Generators/Generator.Bind/XML/Signatures/GLXmlReader.cs:190-197 | `0x10` and `16` both read as 16 |
| GLXmlReader.ParseValueHexPattern | src/Generators/Generator.Bind/XML/Signatures/GLXmlReader.cs:190-192 | every 64-bit value, negative ones included, is reached by the `0x` spelling of its two's complement bit pattern |
| GLXmlReader.ParseGroups | src/Generators/Generator.Bind/XML/Signatures/GLXmlReader.cs:145-166 | the loop computes the group table of the `<group>` elements in document order |
| GLXmlReader.GroupsCharacterization | src/Generators/Generator.Bind/XML/Signatures/GLXmlReader.cs:149-160 | the groups read exactly when every group and member has a name and no group name repeats; the keys are the group names, and each group holds the set of its members' names, so duplicates collapse |
| GLXmlReader.GroupEntryMeaning | src/Generators/Generator.Bind/XML/Signatures/GLXmlReader.cs:151-160 | a group is keyed by its name and reads well exactly when all its members are named; its set is their names |
| GLXmlReader.MembersCharacterization | src/Generators/Generator.Bind/XML/Signatures/GLXmlReader.cs:156-160 | the members read exactly when each has a name, and the set is exactly those names |
| GLXmlReader.ParseFunctions | src/Generators/Generator.Bind/XML/Signatures/GLXmlReader.cs:120-143 | the loop computes the command table of the `<command>` elements in document order |
| GLXmlReader.FunctionsKeyedByName | src/Generators/Generator.Bind/XML/Signatures/GLXmlReader.cs:123-139 | the commands read exactly when each one is well formed and no two share a name; every key holds the command of that name, and every command is stored under its name |
| GLXmlReader.ParseParameters | src/Generators/Generator.Bind/XML/Signatures/GLXmlReader.cs:130-136 | the inner loop reads the `<param>` children one by one, failing at the first without a `name` child |
| GLXmlReader.ParameterOf | src/Generators/Generator.Bind/XML/Signatures/GLXmlReader.cs:133-135 | a parameter reads exactly when it has a `name` child; its name is that child's text and its type is the element's type text |
| GLXmlReader.ParametersInOrder | src/Generators/Generator.Bind/XML/Signatures/GLXmlReader.cs:130-136 | the parameters read exactly when every `<param>` has a name, and then there is one parameter per element, in document order |
| GLXmlReader.ParseType | src/Generators/Generator.Bind/XML/Signatures/GLXmlReader.cs:229-249 | reading a type fails exactly when the `name` child is missing, and the `group` attribute passes through unchanged |
| GLXmlReader.ParseTypeText | src/Generators/Generator.Bind/XML/Signatures/GLXmlReader.cs:242-248 | the type text is the element's text before the last occurrence of the name's text, trimmed |
| GLXmlReader.ParseTypeOfTextAndName | src/Generators/Generator.Bind/XML/Signatures/GLXmlReader.cs:242-248 | for an element holding some text and then its name, the type is that text, trimmed, with the element's group |
| GLXmlReader.ParseFeatures | src/Generators/Generator.Bind/XML/Signatures/GLXmlReader.cs:48-69 | the loop collects the features of the configured API, in document order |
| GLXmlReader.FeaturesCharacterization | src/Generators/Generator.Bind/XML/Signatures/GLXmlReader.cs:54-65 | the features read exactly when every `<feature>` reads well; the result keeps those of the configured API in document order, each with a well-formed version |
| GLXmlReader.FeatureOfMeaning | src/Generators/Generator.Bind/XML/Signatures/GLXmlReader.cs:56-65 | a missing `api` fails; another API gives nothing; a kept feature has the configured API, the parsed `number` as its version, the `<require>` list as additions and the `<remove>` list as removals |
| GLXmlReader.ProcessFeatureList | src/Generators/Generator.Bind/XML/Signatures/GLXmlReader.cs:71-100 | the loop lists the references among the children of the matching blocks, failing at the first bad child |
| GLXmlReader.FeatureListCharacterization | src/Generators/Generator.Bind/XML/Signatures/GLXmlReader.cs:75-98 | the list reads exactly when every child of a matching block is a named type, enum or command; it holds one reference per enum or command child, in order, and nothing for types |
| GLXmlReader.FeatureReferenceMeaning | src/Generators/Generator.Bind/XML/Signatures/GLXmlReader.cs:79-95 | the name is required first; `type` gives nothing, `enum` an enum reference, `command` a command reference, and any other element `InvalidData` |
| GLXmlReader.MatchingChildren | src/Generators/Generator.Bind/XML/Signatures/GLXmlReader.cs:75-77 | an element is listed exactly when it is a child of a block whose `api` and `profile` are absent or equal to the settings |
| PruneEnumsAndFunctions.Prune | src/Generators/Generator.Bind/Stages/PruneEnumsAndFunctions.cs:17-66 | the nested loops compute the resolution of the version-sorted features, applying each feature's additions and then its removals |
| PruneEnumsAndFunctions.PruneCharacterization | src/Generators/Generator.Bind/Stages/PruneEnumsAndFunctions.cs:24-65 | pruning succeeds exactly when every addition names a registry entry, and otherwise reports such a name; groups and features pass through; kept entries are the registry's own; a name is kept exactly when some feature adds it and neither it nor a later one in version order removes it |
| PruneEnumsAndFunctions.SortByVersionCorrect | src/Generators/Generator.Bind/Stages/PruneEnumsAndFunctions.cs:24 | the order is ascending by version and a permutation of the features, and features of equal version keep their document order |
| Versions.LessIsStrictTotalOrder | src/Generators/Generator.Bind/Stages/PruneEnumsAndFunctions.cs:24 | the version order is irreflexive, transitive, asymmetric and total |
| Versions.ParseVersion | src/Generators/Generator.Bind/XML/Signatures/GLXmlReader.cs:61 | fewer than two or more than four dot-separated parts fail with `Argument`, and nothing else does; a version that parses is well formed |
| Versions.SignedComponent | src/Generators/Generator.Bind/XML/Signatures/GLXmlReader.cs:61 | a component with a `+` sign reads as its digits; `-0` reads as zero; any other negative component fails with `ArgumentOutOfRange` |
| Versions.ParseToString | src/Generators/Generator.Bind/XML/Signatures/GLXmlReader.cs:61 | a well-formed version, written out and parsed back, is the same version |
| PruneEnumsAndFunctions.Admit | src/Generators/Generator.Bind/Stages/PruneEnumsAndFunctions.cs:28-46 | an addition succeeds exactly when the name is present or in the registry; a present name leaves the tables unchanged; an absent, known name is added with the registry's entry, while every other entry and the other kind's table stay as they were; a failure names the missing key |
| PruneEnumsAndFunctions.Withdraw | src/Generators/Generator.Bind/Stages/PruneEnumsAndFunctions.cs:51-61 | a removal takes the name out of its kind's table, and removing an absent name changes nothing |
| PruneEnumsAndFunctions.ResolveCharacterization | src/Generators/Generator.Bind/Stages/PruneEnumsAndFunctions.cs:24-63 | for features in any order, resolution succeeds exactly when all additions are known; the tables are drawn from the registry and hold exactly the surviving names |
| PruneEnumsAndFunctions.RemovedUnlessReadded | src/Generators/Generator.Bind/Stages/PruneEnumsAndFunctions.cs:26-62 | a name a feature removes is absent unless a later feature adds it again, so a name added and removed by the same feature ends up absent |
| PruneEnumsAndFunctions.KindsIndependent | src/Generators/Generator.Bind/Stages/PruneEnumsAndFunctions.cs:28-60 | the enums resolved are those resolved from the enum elements alone, and the commands those from the command elements alone |
| PruneGroups.Prune | src/Generators/Generator.Bind/Stages/PruneGroups.cs:13-39 | the loop leaves exactly the pruned groups, and the enums, commands and features pass through unchanged |
| PruneGroups.RemoveUndefined | src/Generators/Generator.Bind/Stages/PruneGroups.cs:24-30 | the inner loop leaves exactly the original members that are defined enums |
| PruneGroups.PrunedGroups | src/Generators/Generator.Bind/Stages/PruneGroups.cs:15-35 | surviving names are a subset of the original ones; a group survives exactly when it shares a member with the enum keys; its members are exactly that intersection |
| PruneGroups.PrunedGroupsClosed | src/Generators/Generator.Bind/Stages/PruneGroups.cs:24-35 | no surviving group is empty, and every member is a defined enum |
| PruneGroups.PrunedGroupsIdempotent | src/Generators/Generator.Bind/Stages/PruneGroups.cs:24-35 | pruning an already pruned table changes nothing |
| ParseFunctionTypes.ParseType | src/Generators/Generator.Bind/Stages/ParseFunctionTypes.cs:54-74 | the base name is the signature's name; the pointer level is the indirection level plus one exactly when an array suffix is present; it is non-negative whenever the indirection level is |
| ParseFunctionTypes.ParseGroupedType | src/Generators/Generator.Bind/Stages/ParseFunctionTypes.cs:47-52 | the type text is parsed and the group passes through unchanged |
| ParseFunctionTypes.ConstSpecifierMatch | src/Generators/Generator.Bind/Stages/ParseFunctionTypes.cs:15 | the test holds exactly when `const` occurs with a word character immediately before and after it |
| ParseFunctionTypes.ParseParameter | src/Generators/Generator.Bind/Stages/ParseFunctionTypes.cs:30-45 | the name is kept and the type parsed; the flow is `Out` exactly when the raw type text matches `\wconst\w` |
| ParseFunctionTypes.FlowExamples | src/Generators/Generator.Bind/Stages/ParseFunctionTypes.cs:15 | `const GLubyte *` is classified `In`, while `const` glued inside a word is classified `Out` |
| ParseFunctionTypes.ParseFunction | src/Generators/Generator.Bind/Stages/ParseFunctionTypes.cs:22-27 | the command's name is kept, its return type is parsed, and its parameters are parsed one for one, in order |
| ParseFunctionTypes.Parse | src/Generators/Generator.Bind/Stages/ParseFunctionTypes.cs:17-28 | the projection succeeds exactly when no two commands share a name, and otherwise fails with `DuplicateKey`; the keys are the command names, each holding that command projected |
| ParseFunctionTypes.ParseKeepsKeys | src/Generators/Generator.Bind/Stages/ParseFunctionTypes.cs:17-28 | for a table keyed by command name, as the reader builds it, the projection succeeds with the same keys |
| ParsedTypemapReader.Parse | src/Generators/Generator.Bind/Typemap/ParsedTypemapReader.cs:11-51 | the loop builds the table from the lines in order, failing at the first malformed line or repeated source name |
| ParsedTypemapReader.BuildCharacterization | src/Generators/Generator.Bind/Typemap/ParsedTypemapReader.cs:15-48 | reading succeeds exactly when no line is malformed and no source name repeats; the keys are then the rows' source names, each holding its row's target |
| ParsedTypemapReader.Uncommented | src/Generators/Generator.Bind/Typemap/ParsedTypemapReader.cs:28-32 | what is left holds no `#` (unless the line starts with one), and what was cut starts with `#` |
| ParsedTypemapReader.ClassifyColumns | src/Generators/Generator.Bind/Typemap/ParsedTypemapReader.cs:34-45 | any piece count other than two is malformed; two pieces are never ignored: a source with pointer levels is skipped, and otherwise the row maps the trimmed source's base name to the trimmed, parsed target |
| ParsedTypemapReader.CommentAndBlankLinesIgnored | src/Generators/Generator.Bind/Typemap/ParsedTypemapReader.cs:23-26 | a comment line or a blank line inserted at any position among the lines leaves the result, table or failure, unchanged |
| ParsedTypemapReader.TrailingCommentIgnored | src/Generators/Generator.Bind/Typemap/ParsedTypemapReader.cs:28-32 | a `#` comment after the columns changes nothing |
| ParsedTypemapReader.ThreeColumnsMalformed | src/Generators/Generator.Bind/Typemap/ParsedTypemapReader.cs:34-38 | `a,b,c` is malformed |
| ParsedTypemapReader.EmptyColumnDropped | src/Generators/Generator.Bind/Typemap/ParsedTypemapReader.cs:34-38 | `a,,b` reads like `a,b` and is accepted |
| MapLowTypes.MapType | src/Generators/Generator.Bind/Stages/MapLowTypes.cs:32-41 | a type with an entry takes the entry's name and the sum of both pointer levels; any other type passes through unchanged |
| MapLowTypes.MapGroupedType | src/Generators/Generator.Bind/Stages/MapLowTypes.cs:25-30 | only the inner type is mapped, and the group passes through |
| MapLowTypes.MapFunction | src/Generators/Generator.Bind/Stages/MapLowTypes.cs:17-22 | the name is kept and the return type mapped; the parameters keep their count, order, names and flows, with their types mapped |
| MapLowTypes.Map | src/Generators/Generator.Bind/Stages/MapLowTypes.cs:12-23 | one output per input function, in input order |
| MapLowTypes.ZeroLevelTableKeepsLevels | src/Generators/Generator.Bind/Stages/MapLowTypes.cs:12-41 | with a table whose entries have no pointer levels, every mapped return and parameter type keeps its pointer level, so mapping only renames |
| MapLowTypes.MapTypeAddsLevels | src/Generators/Generator.Bind/Stages/MapLowTypes.cs:40 | adding pointer levels before mapping is the same as adding them after |
| MapLowTypes.MapNeverLowersLevels | src/Generators/Generator.Bind/Stages/MapLowTypes.cs:12-41 | with a table whose entries have non-negative levels, no mapped return or parameter type has a lower pointer level than before, so non-negative levels stay non-negative |
| MapLowTypes.EmptyTableIsIdentity | src/Generators/Generator.Bind/Stages/MapLowTypes.cs:34-38 | with an empty table every function passes through unchanged |
| Pipeline.GenerateBindings | src/Generators/Generator.Bind/Program.cs:113-123 | the three stages run in order, and the first failure is the result |
| Pipeline.PrunedIntegrity | src/Generators/Generator.Bind/Program.cs:113-123 | after the stages, every group is non-empty and holds only defined enums; every enum and command is the registry's own; commands sit under their own names; every feature has a well-formed version |

## Left out

- Writing the bindings (`Writer2`, the profile writers) and `Program`'s
  command line, console output and caches are not part of this model.
- Loading XML (`XDocument.Load`) is not modelled. The reader starts from an
  element tree. A missing file is a `None` document, and malformed XML is
  not represented.
- `GetRequiredAttribute` and `GetRequiredElement` are not part of this
  model. They are modelled as lookups that fail with `MissingAttribute` or
  `MissingElement`.
- `ParsingHelpers.ParseTypeSignature` is not part of this model. Every
  operation that uses it takes it as a function parameter returning the
  name, the array flag and the indirection level.
- `long.Parse` is modelled for ASCII white space, an optional sign
  (decimal only) and ASCII digits. Culture-specific forms, other Unicode
  white space and other digits are not modelled.
- `new Version(string)` is modelled with `int.Parse` rules for each
  component: ASCII white space around it, an optional `+` or `-` sign, and
  ASCII digits. The trailing NUL characters that .NET number parsing also
  accepts are not modelled.
- `\w` in the flow test, and white space in `Trim` and
  `IsNullOrWhiteSpace`, are restricted to ASCII.
- ParseFunctionTypes.ParseType: the pointer level is an unbounded integer,
  so a 32-bit overflow of the sum is not modelled.
- MapLowTypes.MapType: the sum of pointer levels is an unbounded integer,
  so a 32-bit overflow is not modelled. The console message for an
  unmapped type is not modelled either.
- Text.LastIndexOf: for an empty name it returns the text's length, as
  .NET 5 and later do, so the type text is the whole element text, trimmed.
  .NET Core 3.1 and earlier return the length minus one for a non-empty
  text, which makes `Remove` drop the text's last character; that behaviour
  is not modelled.
- ParsedTypemapReader.Parse: the table is a sequence of lines in place of
  `TextReader.ReadLine`. Splitting the text on `\r`, `\n` and `\r\n` is not
  modelled, and a line of the model may itself hold a line break.
- ParsedTypemapReader.ClassifyLine: `line.StartsWith("#")` is a
  culture-sensitive comparison in .NET, and the model compares ordinally. A
  line whose `#` follows characters the culture ignores, such as a leading
  soft hyphen (U+00AD), is skipped by the source but classified by its
  columns in the model, where it is malformed.
- ParseFunctionTypes.Parse: the `ToDictionary` duplicate failure is
  `DuplicateKey` without the key.
- **Dictionary iteration order.** `PruneGroups.Prune` visits groups in an
  arbitrary order, and its result does not depend on the order.
- **HashSet copies.** The copied groups are values, so the input groups
  are never modified.
- **The unreachable `default` case.** The `ArgumentOutOfRangeException`
  branch of `PruneEnumsAndFunctions.Prune` is absent, because
  `FeatureElementType` has exactly two cases.
- **Unused settings.** `PruneEnumsAndFunctions.Prune`'s settings argument
  is unused by the source and is not a parameter.
- **Factored inner loops.** These are separate methods, each with its own
  specification:
  - the parameter loop of `ParseFunctions` is `GLXmlReader.ParseParameters`;
  - the member loop of `PruneGroups.Prune` is `PruneGroups.RemoveUndefined`.
- `PruneGroups.Prune`: an emptied group is never stored; the pruned set
  replaces the group only when it is non-empty. Either way, the dictionary
  ends up holding the same groups as the source's.

=== FILE: gl_xml_definitions.dfy ===
/** The registry model the reader produces and the pruning passes rewrite. */
module GLXmlDefinitions {
  import opened Wrappers
  import opened Text
  import opened Numbers
  import opened Versions

  /** An enum token's value: a 64-bit signed integer. */
  datatype EnumValueDefinition = EnumValueDefinition(value: Long) {
    /** `"Value: {Value}"`; the number reads back as the stored value. */
    function ToString(): (s: string)
      ensures StartsWith(s, "Value: ") && ParseLong(s[7..]) == Ok(value)
    {
      ParseFormatLong(value);
      var s := "Value: " + FormatLong(value);
      assert s[7..] == FormatLong(value);
      s
    }
  }

  /** A group: the set of enum names it classifies. */
  datatype GroupDefinition = GroupDefinition(enums: set<string>)

  /** A type as written in the registry, with the group it is drawn from, if any. */
  datatype GroupedType = GroupedType(typeName: string, groupName: Option<string>) {
    /** `"({GroupName}) {TypeName}"` when there is a group, else the type name. */
    function ToString(): (s: string)
      ensures groupName.None? ==> s == typeName
      ensures groupName.Some? ==> StartsWith(s, "(" + groupName.value + ") ")
                                  && s[|groupName.value| + 3..] == typeName
    {
      match groupName
      case None => typeName
      case Some(g) =>
        var s := "(" + g + ") " + typeName;
        assert s[..|g| + 3] == "(" + g + ") ";
        s
    }

    /** `Deconstruct(out typeName, out groupName)`: gives back both fields. */
    function Deconstruct(): (r: (string, Option<string>))
      ensures GroupedType(r.0, r.1) == this
    {
      (typeName, groupName)
    }
  }

  /** For a type name that does not itself start with a parenthesis, the text
      form tells whether a group is attached. */
  lemma GroupedTypeToStringShowsGroup(t: GroupedType)
    requires t.typeName == [] || t.typeName[0] != '('
    ensures StartsWith(t.ToString(), "(") <==> t.groupName.Some?
  {
  }

  /** A parameter: constructed from (name, type), deconstructed as (type, name). */
  datatype FunctionParameter = FunctionParameter(name: string, paramType: GroupedType) {
    /** `Deconstruct(out type, out name)`. */
    function Deconstruct(): (r: (GroupedType, string))
      ensures FunctionParameter(r.1, r.0) == this
    {
      (paramType, name)
    }

    /** `"{Type} {Name}"`. */
    function ToString(): (s: string)
      ensures StartsWith(s, paramType.ToString() + " ")
      ensures s[|paramType.ToString()| + 1..] == name
    {
      var s := paramType.ToString() + " " + name;
      assert s[..|paramType.ToString()| + 1] == paramType.ToString() + " ";
      s
    }
  }

  /** A command: its name, return type and parameters in declaration order. */
  datatype FunctionDefinition = FunctionDefinition(name: string, returnType: GroupedType, parameters: seq<FunctionParameter>) {
    /** `"{ReturnType} {Name}"`. */
    function ToString(): (s: string)
      ensures StartsWith(s, returnType.ToString() + " ")
      ensures s[|returnType.ToString()| + 1..] == name
    {
      var s := returnType.ToString() + " " + name;
      assert s[..|returnType.ToString()| + 1] == returnType.ToString() + " ";
      s
    }
  }

  /** What a feature element refers to: exactly an enum or a command. */
  datatype FeatureElementType = Enum | Function {
    function ToString(): (s: string)
      ensures s == "Enum" <==> this == Enum
      ensures s == "Function" <==> this == Function
    {
      match this
      case Enum => "Enum"
      case Function => "Function"
    }
  }

  /** A reference by name to an enum or a command. */
  datatype FeatureElement = FeatureElement(name: string, elementType: FeatureElementType) {
    /** `"{Type} {Name}"`. */
    function ToString(): (s: string)
      ensures StartsWith(s, elementType.ToString() + " ")
      ensures s[|elementType.ToString()| + 1..] == name
    {
      var s := elementType.ToString() + " " + name;
      assert s[..|elementType.ToString()| + 1] == elementType.ToString() + " ";
      s
    }
  }

  /** A feature: its version, and the elements it requires and removes, in order. */
  datatype FeatureDefinition = FeatureDefinition(version: Version, additions: seq<FeatureElement>, removals: seq<FeatureElement>) {
    /** The version's text; it reads back as the feature's version. */
    function ToString(): (s: string)
      requires version.Valid()
      ensures ParseVersion(s) == Ok(version)
    {
      ParseToString(version);
      version.ToString()
    }
  }

  /** `GLXmlDefinitions`: the four collections, as given to the constructor. */
  datatype Definitions = Definitions(
    enumValues: map<string, EnumValueDefinition>,
    groups: map<string, GroupDefinition>,
    functions: map<string, FunctionDefinition>,
    features: seq<FeatureDefinition>)
}

=== FILE: gl_xml_reader.dfy ===
/** `GLXmlReader`: reads the registry's element tree into the registry model,
    resolving enum collisions and keeping the features of one API. */
module GLXmlReader {
  import opened Wrappers
  import opened Text
  import opened Numbers
  import opened Versions
  import opened Xml
  import opened Tables
  import opened GLXmlDefinitions

  /** The two generator settings the reader consults. */
  datatype GeneratorSettings = GeneratorSettings(apiName: string, apiProfile: string)

  /** `ApiProfileMatch`: an absent `api` or `profile` attribute matches
      anything; a present one must equal the setting. */
  predicate ApiProfileMatch(settings: GeneratorSettings, e: Element) {
    (Attribute(e, "api").None? || Attribute(e, "api") == Some(settings.apiName))
    && (Attribute(e, "profile").None? || Attribute(e, "profile") == Some(settings.apiProfile))
  }

  // ---------------------------------------------------------------- types

  /** `ParseType(XElement)`: the element's text up to the last occurrence of
      the text of its `name` child, trimmed, with the `group` attribute. */
  function ParseType(e: Element): (r: Result<GroupedType>)
    ensures r.Ok? <==> FirstElement(e, "name").Some?
    ensures r.Err? ==> r.error == MissingElement("name")
    ensures r.Ok? ==> r.value.groupName == Attribute(e, "group")
  {
    var proto := Value(e);
    match RequiredElement(e, "name")
    case Err(err) => Err(err)
    case Ok(nameElement) =>
      var name := Value(nameElement);
      var group := Attribute(e, "group");
      ChildValueOccurs(e, nameElement);
      var i := LastIndexOf(proto, name);
      Ok(GroupedType(Trim(proto[..i]), group))
  }

  /** The type text is the element's text before the last occurrence of the
      name's text, trimmed. */
  lemma ParseTypeText(e: Element)
    requires FirstElement(e, "name").Some?
    ensures exists i :: OccursAt(Value(e), Value(FirstElement(e, "name").value), i)
              && (forall k :: i < k ==> !OccursAt(Value(e), Value(FirstElement(e, "name").value), k))
              && ParseType(e).value.typeName == Trim(Value(e)[..i])
  {
    var nameElement := FirstElement(e, "name").value;
    ChildValueOccurs(e, nameElement);
    var i := LastIndexOf(Value(e), Value(nameElement));
    assert OccursAt(Value(e), Value(nameElement), i);
  }

  /** For an element holding some text and then its name, the type text is
      that text, trimmed. */
  lemma ParseTypeOfTextAndName(e: Element, t: string, n: Element)
    requires e.content == [Text(t), Child(n)] && n.name == "name" && Value(n) != []
    ensures ParseType(e) == Ok(GroupedType(Trim(t), Attribute(e, "group")))
  {
    NameAfterText(e, t, n);
    TextThenName(e, t, n);
    LastIndexAfterPrefix(t, Value(n));
    assert (t + Value(n))[..|t|] == t;
  }

  lemma NameAfterText(e: Element, t: string, n: Element)
    requires e.content == [Text(t), Child(n)] && n.name == "name"
    ensures FirstElement(e, "name") == Some(n)
  {
    var rest := e.content[1..];
    assert rest == [Child(n)] && rest[1..] == [];
    assert ElementsFrom(rest) == [n] + ElementsFrom([]);
    assert ElementsFrom(e.content) == [] + ElementsFrom(rest);
  }

  lemma TextThenName(e: Element, t: string, n: Element)
    requires e.content == [Text(t), Child(n)]
    ensures Value(e) == t + Value(n)
  {
    assert ValueFrom(e, 2) == "";
    assert NodeValue(e, 1) == Value(n);
    assert NodeValue(e, 0) == t;
    assert ValueFrom(e, 0) == t + (Value(n) + "");
  }

  /** The last occurrence of a non-empty suffix is where it starts. */
  lemma LastIndexAfterPrefix(t: string, w: string)
    requires w != []
    ensures LastIndexOf(t + w, w) == |t|
  {
    assert OccursAt(t + w, w, |t|);
  }

  // ---------------------------------------------------------------- enums

  /** An enum's value text: hexadecimal after a `0x` prefix, else decimal. */
  function ParseValue(text: string): Result<Long> {
    if StartsWith(text, "0x") then ParseHexLong(text[2..]) else ParseLong(text)
  }

  /** A non-negative value reads the same in both spellings. */
  lemma ParseValueSpellings(n: nat)
    requires n <= MaxLong
    ensures ParseValue("0x" + FormatHexNat(n)) == Ok(n)
    ensures ParseValue(FormatNat(n)) == Ok(n)
  {
    ParseValueHex(n);
    ParseValueDecimal(n);
  }

  lemma ParseValueHex(n: nat)
    requires n <= MaxLong
    ensures ParseValue("0x" + FormatHexNat(n)) == Ok(n)
  {
    var ds := FormatHexNat(n);
    HexAndDecimalAgree(n);
    assert ("0x" + ds)[..2] == "0x";
    assert ("0x" + ds)[2..] == ds;
  }

  lemma ParseValueDecimal(n: nat)
    requires n <= MaxLong
    ensures ParseValue(FormatNat(n)) == Ok(n)
  {
    HexAndDecimalAgree(n);
    NoHexPrefix(FormatNat(n));
  }

  /** Decimal digits do not start with the hexadecimal prefix. */
  lemma NoHexPrefix(ds: string)
    requires AllDigits(ds)
    ensures !StartsWith(ds, "0x")
  {
    if |ds| >= 2 {
      assert ds[..2][1] == ds[1];
    }
  }

  /** `"0x10"` and `"16"` both read as 16. The two spellings are parameters
      fixed by the precondition, not literals in the ensures: the verifier
      would otherwise unfold the recursive digit functions on the literal
      strings without bound. The proof goes through `ParseValueSpellings`
      instead. */
  lemma ParseValueSixteen(hex: string, decimal: string)
    requires hex == "0x10" && decimal == "16"
    ensures ParseValue(hex) == Ok(16)
    ensures ParseValue(decimal) == Ok(16)
  {
    ParseValueSpellings(16);
    HexSixteen();
    DecimalSixteen();
    assert hex == "0x" + FormatHexNat(16);
  }

  lemma HexSixteen()
    ensures FormatHexNat(16) == "10"
  {
    assert FormatHexNat(1) == "1";
  }

  lemma DecimalSixteen()
    ensures FormatNat(16) == "16"
  {
    assert FormatNat(1) == "1";
  }

  /** The hexadecimal spelling reaches every 64-bit value, negative ones by
      their two's complement pattern. */
  lemma ParseValueHexPattern(v: Long)
    ensures ParseValue("0x" + FormatHexNat(BitPattern(v))) == Ok(v)
  {
    ParseHexTwosComplement(v);
    assert ("0x" + FormatHexNat(BitPattern(v)))[2..] == FormatHexNat(BitPattern(v));
  }

  /** A stored enum: its value and whether its declaration named an API. */
  datatype EnumEntry = EnumEntry(value: Long, isApiSpecific: bool)

  /** One `<enum>` declaration processed against the table so far: a declaration
      without `api` never replaces a stored API-specific entry; otherwise it
      overwrites. */
  function Declare(m: map<string, EnumEntry>, e: Element): Result<map<string, EnumEntry>> {
    match RequiredAttribute(e, "name")
    case Err(err) => Err(err)
    case Ok(name) =>
      var api := Attribute(e, "api");
      if name in m && m[name].isApiSpecific && api.None? then Ok(m)
      else
        match RequiredAttribute(e, "value")
        case Err(err) => Err(err)
        case Ok(text) =>
          match ParseValue(text)
          case Err(err) => Err(err)
          case Ok(v) => Ok(m[name := EnumEntry(v, api.Some?)])
  }

  /** The `<enum>` children of every `<enums>` child of the root. */
  function EnumDeclarations(root: Element): seq<Element> {
    ElementsNamedAll(ElementsNamed(root, "enums"), "enum")
  }

  function EnumTable(ds: seq<Element>): Result<map<string, EnumEntry>> {
    Fold(Declare, map[], ds)
  }

  /** The table as `ToDictionary` returns it: the values without their flags. */
  function EnumDefinitions(t: map<string, EnumEntry>): (r: map<string, EnumValueDefinition>)
    ensures r.Keys == t.Keys
    ensures forall k :: k in t ==> r[k].value == t[k].value
  {
    map k | k in t :: EnumValueDefinition(t[k].value)
  }

  /** The enum table of a registry. */
  function EnumValuesOf(root: Element): Result<map<string, EnumValueDefinition>> {
    match EnumTable(EnumDeclarations(root))
    case Err(err) => Err(err)
    case Ok(t) => Ok(EnumDefinitions(t))
  }

  /** `ParseEnumValues`. */
  method ParseEnumValues(root: Element) returns (r: Result<map<string, EnumValueDefinition>>)
    ensures r == EnumValuesOf(root)
  {
    var enumerations := EnumDeclarations(root);
    var enumValues: map<string, EnumEntry> := map[];
    var n := 0;
    while n < |enumerations|
      invariant 0 <= n <= |enumerations|
      invariant EnumTable(enumerations[..n]) == Ok(enumValues)
    {
      var e := enumerations[n];
      FoldNext(Declare, map[], enumerations, n, enumValues);
      n := n + 1;
      var name := RequiredAttribute(e, "name");
      if name.Err? {
        FoldFailureStays(Declare, map[], enumerations, n);
        return Err(name.error);
      }
      var api := Attribute(e, "api");
      if name.value in enumValues && enumValues[name.value].isApiSpecific && api.None? {
        continue;
      }
      var value := RequiredAttribute(e, "value");
      if value.Err? {
        FoldFailureStays(Declare, map[], enumerations, n);
        return Err(value.error);
      }
      var parsedValue := ParseValue(value.value);
      if parsedValue.Err? {
        FoldFailureStays(Declare, map[], enumerations, n);
        return Err(parsedValue.error);
      }
      enumValues := enumValues[name.value := EnumEntry(parsedValue.value, api.Some?)];
    }
    assert enumerations[..n] == enumerations;
    return Ok(EnumDefinitions(enumValues));
  }

  // The collision rule, stated over the declarations in document order.

  predicate HasName(e: Element) { "name" in e.attributes }

  function NameOf(e: Element): string
    requires HasName(e)
  {
    e.attributes["name"]
  }

  predicate IsApiSpecific(e: Element) { "api" in e.attributes }

  /** Declaration `i` is skipped: it names no API and an earlier declaration
      of the same name does. */
  predicate Shadowed(ds: seq<Element>, i: int)
    requires 0 <= i < |ds|
  {
    HasName(ds[i]) && !IsApiSpecific(ds[i])
    && exists j :: 0 <= j < i && HasName(ds[j]) && NameOf(ds[j]) == NameOf(ds[i]) && IsApiSpecific(ds[j])
  }

  /** Declaration `i` is processed without failure: it has a name, and unless
      it is skipped, a value that parses. */
  predicate Accepted(ds: seq<Element>, i: int)
    requires 0 <= i < |ds|
  {
    HasName(ds[i]) && (Shadowed(ds, i) || ("value" in ds[i].attributes && ParseValue(ds[i].attributes["value"]).Ok?))
  }

  predicate AllAccepted(ds: seq<Element>) {
    forall i :: 0 <= i < |ds| ==> Accepted(ds, i)
  }

  /** Declaration `i` is the one whose value the table keeps for its name: the
      last API-specific declaration of that name, or, when no declaration of
      the name is API-specific, the last declaration of it. */
  predicate Winner(ds: seq<Element>, i: int) {
    0 <= i < |ds| && HasName(ds[i])
    && (forall j :: i < j < |ds| && HasName(ds[j]) && NameOf(ds[j]) == NameOf(ds[i]) ==>
          IsApiSpecific(ds[i]) && !IsApiSpecific(ds[j]))
    && (!IsApiSpecific(ds[i]) ==>
          forall j :: 0 <= j < i && HasName(ds[j]) && NameOf(ds[j]) == NameOf(ds[i]) ==> !IsApiSpecific(ds[j]))
  }

  /** Some declaration of name `n` is API-specific. */
  predicate ApiDeclared(ds: seq<Element>, n: string) {
    exists j :: 0 <= j < |ds| && HasName(ds[j]) && NameOf(ds[j]) == n && IsApiSpecific(ds[j])
  }

  function Names(ds: seq<Element>): set<string> {
    set i | 0 <= i < |ds| && HasName(ds[i]) :: NameOf(ds[i])
  }

  /** What the table holds after declaration `e` is stored. */
  function StoredEntry(e: Element): EnumEntry
    requires "value" in e.attributes && ParseValue(e.attributes["value"]).Ok?
  {
    EnumEntry(ParseValue(e.attributes["value"]).value, IsApiSpecific(e))
  }

  /** The table after the declarations `ds`, all accepted: its keys are the
      declared names, an entry is flagged API-specific exactly when some
      declaration of its name is, and every entry holds its winner's value. */
  ghost predicate TableInvariant(ds: seq<Element>, m: map<string, EnumEntry>) {
    AllAccepted(ds) && m.Keys == Names(ds) && FlagsAgree(ds, m) && WinnersStored(ds, m) && WinnersCover(ds, m)
  }

  ghost predicate FlagsAgree(ds: seq<Element>, m: map<string, EnumEntry>) {
    forall n :: n in m ==> (m[n].isApiSpecific <==> ApiDeclared(ds, n))
  }

  ghost predicate WinnersStored(ds: seq<Element>, m: map<string, EnumEntry>) {
    forall i :: Winner(ds, i) ==> !Shadowed(ds, i) && Accepted(ds, i) && NameOf(ds[i]) in m && m[NameOf(ds[i])] == StoredEntry(ds[i])
  }

  ghost predicate WinnersCover(ds: seq<Element>, m: map<string, EnumEntry>) {
    forall n :: n in m ==> exists i :: Winner(ds, i) && NameOf(ds[i]) == n
  }

  /** Reading the enums succeeds exactly when every declaration is accepted;
      the table then has one entry per declared name, holding the value of the
      name's winning declaration. */
  lemma {:induction false} EnumTableCharacterization(ds: seq<Element>)
    ensures EnumTable(ds).Ok? <==> AllAccepted(ds)
    ensures EnumTable(ds).Ok? ==> EnumTable(ds).value.Keys == Names(ds)
    ensures EnumTable(ds).Ok? ==> forall i :: Winner(ds, i) ==>
              !Shadowed(ds, i) && Accepted(ds, i) && EnumTable(ds).value[NameOf(ds[i])] == StoredEntry(ds[i])
    ensures EnumTable(ds).Ok? ==> forall n :: n in EnumTable(ds).value ==> exists i :: Winner(ds, i) && NameOf(ds[i]) == n
  {
    EnumTableInvariant(ds);
  }

  lemma {:induction false} EnumTableInvariant(ds: seq<Element>)
    ensures EnumTable(ds).Ok? <==> AllAccepted(ds)
    ensures EnumTable(ds).Ok? ==> TableInvariant(ds, EnumTable(ds).value)
    decreases |ds|
  {
    if ds == [] {
      assert Names(ds) == {};
    } else {
      var init := ds[..|ds| - 1];
      var e := ds[|ds| - 1];
      assert ds == init + [e];
      EnumTableInvariant(init);
      assert EnumTable(ds) == match EnumTable(init) case Err(err) => Err(err) case Ok(m) => Declare(m, e);
      if EnumTable(init).Ok? {
        DeclareStep(init, e, EnumTable(init).value);
      } else {
        var i :| 0 <= i < |init| && !Accepted(init, i);
        PrefixAccepted(init, e, i);
      }
    }
  }

  /** Whether a declaration is skipped or accepted depends only on the
      declarations before it. */
  lemma PrefixAccepted(ds: seq<Element>, e: Element, i: int)
    requires 0 <= i < |ds|
    ensures Shadowed(ds + [e], i) == Shadowed(ds, i)
    ensures Accepted(ds + [e], i) == Accepted(ds, i)
  {
    var ds' := ds + [e];
    assert forall j :: 0 <= j < |ds| ==> ds'[j] == ds[j];
  }

  /** One declaration more keeps the table invariant. */
  lemma DeclareStep(ds: seq<Element>, e: Element, m: map<string, EnumEntry>)
    requires TableInvariant(ds, m)
    ensures Declare(m, e).Ok? <==> Accepted(ds + [e], |ds|)
    ensures Declare(m, e).Ok? ==> TableInvariant(ds + [e], Declare(m, e).value)
  {
    var ds' := ds + [e];
    var last := |ds|;
    assert forall j :: 0 <= j < |ds| ==> ds'[j] == ds[j];
    forall i | 0 <= i < |ds| ensures Accepted(ds', i) { PrefixAccepted(ds, e, i); }
    if HasName(e) {
      var n := NameOf(e);
      assert Shadowed(ds', last) <==> !IsApiSpecific(e) && ApiDeclared(ds, n) by {
        if !IsApiSpecific(e) && ApiDeclared(ds, n) {
          var j :| 0 <= j < |ds| && HasName(ds[j]) && NameOf(ds[j]) == n && IsApiSpecific(ds[j]);
          assert ds'[j] == ds[j];
        }
      }
      assert ApiDeclared(ds, n) ==> n in m by {
        if ApiDeclared(ds, n) {
          var j :| 0 <= j < |ds| && HasName(ds[j]) && NameOf(ds[j]) == n && IsApiSpecific(ds[j]);
          assert n in Names(ds);
        }
      }
      if Shadowed(ds', last) {
        assert Declare(m, e) == Ok(m);
        ShadowedStep(ds, e, m);
      } else if "value" in e.attributes && ParseValue(e.attributes["value"]).Ok? {
        StoreStep(ds, e, m);
      }
    }
  }

  lemma ShadowedStep(ds: seq<Element>, e: Element, m: map<string, EnumEntry>)
    requires TableInvariant(ds, m)
    requires HasName(e) && Shadowed(ds + [e], |ds|)
    ensures TableInvariant(ds + [e], m)
  {
    var n := NameOf(e);
    ShadowedMeansApiDeclared(ds, e);
    AcceptedAppend(ds, e);
    NamesAppend(ds, e);
    ShadowedFlags(ds, e, m);
    ShadowedWinnersStored(ds, e, m);
    ShadowedWinnersCover(ds, e, m);
  }

  lemma ShadowedFlags(ds: seq<Element>, e: Element, m: map<string, EnumEntry>)
    requires FlagsAgree(ds, m) && !IsApiSpecific(e)
    ensures FlagsAgree(ds + [e], m)
  {
    forall n' ensures ApiDeclared(ds + [e], n') == ApiDeclared(ds, n') { ApiDeclaredAppend(ds, e, n'); }
  }

  lemma ShadowedWinnersStored(ds: seq<Element>, e: Element, m: map<string, EnumEntry>)
    requires WinnersStored(ds, m) && HasName(e) && Shadowed(ds + [e], |ds|)
    ensures WinnersStored(ds + [e], m)
  {
    var ds' := ds + [e];
    forall i | Winner(ds', i)
      ensures !Shadowed(ds', i) && Accepted(ds', i) && NameOf(ds'[i]) in m && m[NameOf(ds'[i])] == StoredEntry(ds'[i])
    {
      WinnerPrefix(ds, e, i);
      PrefixAccepted(ds, e, i);
    }
  }

  lemma ShadowedWinnersCover(ds: seq<Element>, e: Element, m: map<string, EnumEntry>)
    requires WinnersCover(ds, m) && HasName(e) && !IsApiSpecific(e) && ApiDeclared(ds, NameOf(e))
    ensures WinnersCover(ds + [e], m)
  {
    forall n' | n' in m ensures exists i :: Winner(ds + [e], i) && NameOf((ds + [e])[i]) == n' {
      var i :| Winner(ds, i) && NameOf(ds[i]) == n';
      if n' == NameOf(e) && !IsApiSpecific(ds[i]) {
        NonApiWinnerExcludesApi(ds, i);
        assert false;
      }
      WinnerExtend(ds, e, i);
    }
  }

  /** An enum not held back by an API-specific one is stored with its value. */
  lemma DeclareStores(m: map<string, EnumEntry>, e: Element)
    requires HasName(e) && "value" in e.attributes && ParseValue(e.attributes["value"]).Ok?
    requires !(NameOf(e) in m && m[NameOf(e)].isApiSpecific && !IsApiSpecific(e))
    ensures Declare(m, e) == Ok(m[NameOf(e) := StoredEntry(e)])
  {
  }

  lemma StoreStep(ds: seq<Element>, e: Element, m: map<string, EnumEntry>)
    requires TableInvariant(ds, m)
    requires HasName(e) && !Shadowed(ds + [e], |ds|)
    requires "value" in e.attributes && ParseValue(e.attributes["value"]).Ok?
    requires !IsApiSpecific(e) ==> !ApiDeclared(ds, NameOf(e))
    ensures Declare(m, e) == Ok(m[NameOf(e) := StoredEntry(e)])
    ensures TableInvariant(ds + [e], m[NameOf(e) := StoredEntry(e)])
  {
    var n := NameOf(e);
    assert !(n in m && m[n].isApiSpecific && !IsApiSpecific(e));
    DeclareStores(m, e);
    AcceptedAppend(ds, e);
    NamesAppend(ds, e);
    StoreFlags(ds, e, m);
    StoreWinnersStored(ds, e, m);
    StoreWinnersCover(ds, e, m);
  }

  lemma StoreFlags(ds: seq<Element>, e: Element, m: map<string, EnumEntry>)
    requires FlagsAgree(ds, m) && m.Keys == Names(ds) && HasName(e)
    requires "value" in e.attributes && ParseValue(e.attributes["value"]).Ok?
    requires !IsApiSpecific(e) ==> !ApiDeclared(ds, NameOf(e))
    ensures FlagsAgree(ds + [e], m[NameOf(e) := StoredEntry(e)])
  {
    var m' := m[NameOf(e) := StoredEntry(e)];
    forall n' | n' in m' ensures (m'[n'].isApiSpecific <==> ApiDeclared(ds + [e], n')) {
      ApiDeclaredAppend(ds, e, n');
    }
  }

  lemma StoreWinnersStored(ds: seq<Element>, e: Element, m: map<string, EnumEntry>)
    requires WinnersStored(ds, m) && HasName(e) && !Shadowed(ds + [e], |ds|)
    requires "value" in e.attributes && ParseValue(e.attributes["value"]).Ok?
    requires !IsApiSpecific(e) ==> !ApiDeclared(ds, NameOf(e))
    ensures WinnersStored(ds + [e], m[NameOf(e) := StoredEntry(e)])
  {
    var ds' := ds + [e];
    var m' := m[NameOf(e) := StoredEntry(e)];
    forall i | Winner(ds', i)
      ensures !Shadowed(ds', i) && Accepted(ds', i) && NameOf(ds'[i]) in m' && m'[NameOf(ds'[i])] == StoredEntry(ds'[i])
    {
      if i < |ds| {
        WinnerPrefix(ds, e, i);
        PrefixAccepted(ds, e, i);
        if IsApiSpecific(ds[i]) {
          ApiWitness(ds, i);
        }
      } else {
        assert ds'[i] == e;
      }
    }
  }

  lemma StoreWinnersCover(ds: seq<Element>, e: Element, m: map<string, EnumEntry>)
    requires WinnersCover(ds, m) && HasName(e)
    requires "value" in e.attributes && ParseValue(e.attributes["value"]).Ok?
    requires !IsApiSpecific(e) ==> !ApiDeclared(ds, NameOf(e))
    ensures WinnersCover(ds + [e], m[NameOf(e) := StoredEntry(e)])
  {
    var m' := m[NameOf(e) := StoredEntry(e)];
    forall n' | n' in m' ensures exists i :: Winner(ds + [e], i) && NameOf((ds + [e])[i]) == n' {
      if n' == NameOf(e) {
        WinnerLast(ds, e);
        assert (ds + [e])[|ds|] == e;
      } else {
        var i :| Winner(ds, i) && NameOf(ds[i]) == n';
        WinnerExtend(ds, e, i);
      }
    }
  }

  lemma AcceptedAppend(ds: seq<Element>, e: Element)
    requires AllAccepted(ds) && Accepted(ds + [e], |ds|)
    ensures AllAccepted(ds + [e])
  {
    forall i | 0 <= i < |ds| ensures Accepted(ds + [e], i) { PrefixAccepted(ds, e, i); }
  }

  lemma ShadowedMeansApiDeclared(ds: seq<Element>, e: Element)
    requires Shadowed(ds + [e], |ds|)
    ensures ApiDeclared(ds, NameOf(e))
  {
    var ds' := ds + [e];
    var j :| 0 <= j < |ds| && HasName(ds'[j]) && NameOf(ds'[j]) == NameOf(e) && IsApiSpecific(ds'[j]);
    assert ds'[j] == ds[j];
  }

  lemma NamesAppend(ds: seq<Element>, e: Element)
    requires HasName(e)
    ensures Names(ds + [e]) == Names(ds) + {NameOf(e)}
  {
    var ds' := ds + [e];
    assert forall j :: 0 <= j < |ds| ==> ds'[j] == ds[j];
    assert ds'[|ds|] == e;
  }

  lemma ApiDeclaredAppend(ds: seq<Element>, e: Element, n: string)
    ensures ApiDeclared(ds + [e], n) <==> ApiDeclared(ds, n) || (HasName(e) && NameOf(e) == n && IsApiSpecific(e))
  {
    var ds' := ds + [e];
    if ApiDeclared(ds', n) {
      var j :| 0 <= j < |ds'| && HasName(ds'[j]) && NameOf(ds'[j]) == n && IsApiSpecific(ds'[j]);
      if j < |ds| { assert ds'[j] == ds[j]; }
    }
    if ApiDeclared(ds, n) {
      var j :| 0 <= j < |ds| && HasName(ds[j]) && NameOf(ds[j]) == n && IsApiSpecific(ds[j]);
      assert ds'[j] == ds[j];
    }
    assert ds'[|ds|] == e;
  }

  /** A winner among more declarations was a winner among fewer, and a later
      declaration of its name can only be one it shadows. */
  lemma WinnerPrefix(ds: seq<Element>, e: Element, i: int)
    requires Winner(ds + [e], i) && i < |ds|
    ensures Winner(ds, i)
    ensures HasName(e) && NameOf(e) == NameOf(ds[i]) ==> IsApiSpecific(ds[i]) && !IsApiSpecific(e)
  {
    var ds' := ds + [e];
    assert forall j :: 0 <= j < |ds| ==> ds'[j] == ds[j];
    assert ds'[|ds|] == e;
  }

  lemma WinnerExtend(ds: seq<Element>, e: Element, i: int)
    requires Winner(ds, i)
    requires HasName(e) && NameOf(e) == NameOf(ds[i]) ==> IsApiSpecific(ds[i]) && !IsApiSpecific(e)
    ensures Winner(ds + [e], i)
  {
    var ds' := ds + [e];
    assert forall j :: 0 <= j < |ds| ==> ds'[j] == ds[j];
    assert ds'[|ds|] == e;
  }

  lemma WinnerLast(ds: seq<Element>, e: Element)
    requires HasName(e) && (IsApiSpecific(e) || !ApiDeclared(ds, NameOf(e)))
    ensures Winner(ds + [e], |ds|)
  {
    var ds' := ds + [e];
    assert forall j :: 0 <= j < |ds| ==> ds'[j] == ds[j];
    assert ds'[|ds|] == e;
    if !IsApiSpecific(e) {
      forall j | 0 <= j < |ds| && HasName(ds'[j]) && NameOf(ds'[j]) == NameOf(e)
        ensures !IsApiSpecific(ds'[j])
      {
        assert ds'[j] == ds[j];
      }
    }
  }

  lemma ApiWitness(ds: seq<Element>, j: int)
    requires 0 <= j < |ds| && HasName(ds[j]) && IsApiSpecific(ds[j])
    ensures ApiDeclared(ds, NameOf(ds[j]))
  {
  }

  /** A winner that names no API leaves no API-specific declaration of its name. */
  lemma NonApiWinnerExcludesApi(ds: seq<Element>, i: int)
    requires Winner(ds, i) && !IsApiSpecific(ds[i])
    ensures !ApiDeclared(ds, NameOf(ds[i]))
  {
  }

  // ---------------------------------------------------------------- groups

  /** The `<group>` children of every `<groups>` child of the root. */
  function GroupElements(root: Element): seq<Element> {
    ElementsNamedAll(ElementsNamed(root, "groups"), "group")
  }

  /** `set.Add` of one member's required `name` attribute. */
  function AddMember(members: set<string>, c: Element): Result<set<string>> {
    match RequiredAttribute(c, "name")
    case Err(err) => Err(err)
    case Ok(name) => Ok(members + {name})
  }

  /** A group's definition: the set of its children's names. */
  function GroupOf(g: Element): Result<GroupDefinition> {
    match Fold(AddMember, {}, Elements(g))
    case Err(err) => Err(err)
    case Ok(members) => Ok(GroupDefinition(members))
  }

  /** A group keyed by its required `name`; the name is added before the
      members are read. */
  function GroupEntry(g: Element): Entry<GroupDefinition> {
    match RequiredAttribute(g, "name")
    case Err(err) => Failed(err)
    case Ok(name) => Keyed(name, GroupOf(g))
  }

  function GroupEntries(gs: seq<Element>): (es: seq<Entry<GroupDefinition>>)
    ensures |es| == |gs| && forall i :: 0 <= i < |gs| ==> es[i] == GroupEntry(gs[i])
  {
    seq(|gs|, i requires 0 <= i < |gs| => GroupEntry(gs[i]))
  }

  function GroupsOf(root: Element): Result<map<string, GroupDefinition>> {
    AddAll(GroupEntries(GroupElements(root)))
  }

  /** `ParseGroups`. */
  method ParseGroups(root: Element) returns (r: Result<map<string, GroupDefinition>>)
    ensures r == GroupsOf(root)
  {
    var gs := GroupElements(root);
    var entries := GroupEntries(gs);
    var groups: map<string, GroupDefinition> := map[];
    var n := 0;
    while n < |gs|
      invariant 0 <= n <= |gs|
      invariant AddAll(entries[..n]) == Ok(groups)
    {
      var group := gs[n];
      FoldNext(Add, map[], entries, n, groups);
      n := n + 1;
      var groupName := RequiredAttribute(group, "name");
      if groupName.Err? {
        FoldFailureStays(Add, map[], entries, n);
        return Err(groupName.error);
      }
      if groupName.value in groups {
        FoldFailureStays(Add, map[], entries, n);
        return Err(DuplicateKey);
      }
      // The set is registered under the name and then filled.
      var members := Elements(group);
      var memberSet: set<string> := {};
      var k := 0;
      while k < |members|
        invariant 0 <= k <= |members|
        invariant Fold(AddMember, {}, members[..k]) == Ok(memberSet)
      {
        FoldNext(AddMember, {}, members, k, memberSet);
        var value := RequiredAttribute(members[k], "name");
        k := k + 1;
        if value.Err? {
          FoldFailureStays(AddMember, {}, members, k);
          FoldFailureStays(Add, map[], entries, n);
          return Err(value.error);
        }
        memberSet := memberSet + {value.value};
      }
      assert members[..k] == members;
      groups := groups[groupName.value := GroupDefinition(memberSet)];
    }
    assert entries[..n] == entries;
    return Ok(groups);
  }

  /** Every element of `cs` has a `name` attribute. */
  predicate AllNamed(cs: seq<Element>) {
    forall i :: 0 <= i < |cs| ==> HasName(cs[i])
  }

  /** The members of a group are read exactly when every child has a name, and
      they are the set of those names: repeated names collapse. */
  lemma {:induction false} MembersCharacterization(cs: seq<Element>)
    ensures Fold(AddMember, {}, cs).Ok? <==> AllNamed(cs)
    ensures Fold(AddMember, {}, cs).Ok? ==> Fold(AddMember, {}, cs).value == Names(cs)
    decreases |cs|
  {
    if cs != [] {
      var init := cs[..|cs| - 1];
      var c := cs[|cs| - 1];
      assert cs == init + [c];
      MembersCharacterization(init);
      assert forall i :: 0 <= i < |init| ==> init[i] == cs[i];
      if Fold(AddMember, {}, init).Ok? {
        if HasName(c) {
          NamesAppend(init, c);
        }
      } else {
        var i :| 0 <= i < |init| && !HasName(init[i]);
        assert !HasName(cs[i]);
      }
    }
  }

  /** One group's entry: present exactly when the group and all its members
      have names. */
  lemma GroupEntryMeaning(g: Element)
    ensures GroupEntry(g).Keyed? && GroupEntry(g).value.Ok? <==> HasName(g) && AllNamed(Elements(g))
    ensures GroupEntry(g).Keyed? ==> GroupEntry(g).key == NameOf(g)
    ensures GroupEntry(g).Keyed? && GroupEntry(g).value.Ok? ==> GroupEntry(g).value.value.enums == Names(Elements(g))
  {
    MembersCharacterization(Elements(g));
  }

  /** Every group and every member has a name. */
  predicate GroupsWellFormed(gs: seq<Element>) {
    forall i :: 0 <= i < |gs| ==> HasName(gs[i]) && AllNamed(Elements(gs[i]))
  }

  /** No two elements share a name. */
  predicate DistinctNames(gs: seq<Element>) {
    forall i, j :: 0 <= i < j < |gs| && HasName(gs[i]) && HasName(gs[j]) ==> NameOf(gs[i]) != NameOf(gs[j])
  }

  /** Reading the groups succeeds exactly when every group and member has a
      name and no group name repeats; each group then maps to the set of its
      members' names. */
  lemma GroupsCharacterization(root: Element)
    ensures GroupsOf(root).Ok? <==> GroupsWellFormed(GroupElements(root)) && DistinctNames(GroupElements(root))
    ensures GroupsOf(root).Ok? ==> GroupsOf(root).value.Keys == Names(GroupElements(root))
    ensures GroupsOf(root).Ok? ==> forall i :: 0 <= i < |GroupElements(root)| ==>
              GroupsOf(root).value[NameOf(GroupElements(root)[i])].enums == Names(Elements(GroupElements(root)[i]))
  {
    GroupTableCharacterization(GroupElements(root));
  }

  lemma GroupTableCharacterization(gs: seq<Element>)
    ensures AddAll(GroupEntries(gs)).Ok? <==> GroupsWellFormed(gs) && DistinctNames(gs)
    ensures AddAll(GroupEntries(gs)).Ok? ==> AddAll(GroupEntries(gs)).value.Keys == Names(gs)
    ensures AddAll(GroupEntries(gs)).Ok? ==> forall i :: 0 <= i < |gs| ==>
              AddAll(GroupEntries(gs)).value[NameOf(gs[i])].enums == Names(Elements(gs[i]))
  {
    var es := GroupEntries(gs);
    AddAllCharacterization(es);
    forall i | 0 <= i < |gs|
      ensures es[i].Keyed? && es[i].value.Ok? <==> HasName(gs[i]) && AllNamed(Elements(gs[i]))
      ensures es[i].Keyed? ==> es[i].key == NameOf(gs[i])
      ensures es[i].Keyed? && es[i].value.Ok? ==> es[i].value.value.enums == Names(Elements(gs[i]))
    {
      GroupEntryMeaning(gs[i]);
    }
    assert AllKeyed(es) <==> GroupsWellFormed(gs);
    if GroupsWellFormed(gs) {
      assert DistinctKeys(es) <==> DistinctNames(gs);
      assert Keys(es) == Names(gs);
    }
  }

  // ---------------------------------------------------------------- commands

  /** The `<command>` children of every `<commands>` child of the root. */
  function CommandElements(root: Element): seq<Element> {
    ElementsNamedAll(ElementsNamed(root, "commands"), "command")
  }

  /** One `<param>`: its type, then the text of its required `name` child. */
  function ParameterOf(p: Element): (r: Result<FunctionParameter>)
    ensures r.Ok? <==> FirstElement(p, "name").Some?
    ensures r.Ok? ==> r.value.paramType == ParseType(p).value && r.value.name == Value(FirstElement(p, "name").value)
  {
    match ParseType(p)
    case Err(err) => Err(err)
    case Ok(paramType) =>
      match RequiredElement(p, "name")
      case Err(err) => Err(err)
      case Ok(nameElement) => Ok(FunctionParameter(Value(nameElement), paramType))
  }

  /** One `<command>`: the name and type from its required `<proto>`, and its
      `<param>`s in document order. */
  function CommandDefinition(c: Element): Result<FunctionDefinition> {
    match RequiredElement(c, "proto")
    case Err(err) => Err(err)
    case Ok(proto) =>
      match RequiredElement(proto, "name")
      case Err(err) => Err(err)
      case Ok(nameElement) =>
        match ParseType(proto)
        case Err(err) => Err(err)
        case Ok(returnType) =>
          match MapAll(ParameterOf, ElementsNamed(c, "param"))
          case Err(err) => Err(err)
          case Ok(parameters) => Ok(FunctionDefinition(Value(nameElement), returnType, parameters))
  }

  /** The key of a command: its name. The command is read in full before it
      is added. */
  function FunctionName(f: FunctionDefinition): string {
    f.name
  }

  function FunctionsOf(root: Element): Result<map<string, FunctionDefinition>> {
    AddAll(KeyedAll(CommandDefinition, FunctionName, CommandElements(root)))
  }

  /** The inner loop of `ParseFunctions`: the `<param>` children of one
      command, in document order. */
  method ParseParameters(command: Element) returns (r: Result<seq<FunctionParameter>>)
    ensures r == MapAll(ParameterOf, ElementsNamed(command, "param"))
  {
    var params := ElementsNamed(command, "param");
    var parameters: seq<FunctionParameter> := [];
    var k := 0;
    while k < |params|
      invariant 0 <= k <= |params|
      invariant MapAll(ParameterOf, params[..k]) == Ok(parameters)
    {
      FoldNext((acc, x) => Append(ParameterOf, acc, x), [], params, k, parameters);
      var param := params[k];
      k := k + 1;
      var paramType := ParseType(param);
      if paramType.Err? {
        FoldFailureStays((acc, x) => Append(ParameterOf, acc, x), [], params, k);
        return Err(paramType.error);
      }
      var paramName := RequiredElement(param, "name");
      assert paramName.Ok?;  // `ParseType` found it
      parameters := parameters + [FunctionParameter(Value(paramName.value), paramType.value)];
    }
    assert params[..k] == params;
    return Ok(parameters);
  }

  /** `ParseFunctions`. */
  method ParseFunctions(root: Element) returns (r: Result<map<string, FunctionDefinition>>)
    ensures r == FunctionsOf(root)
  {
    var commands := CommandElements(root);
    var entries := KeyedAll(CommandDefinition, FunctionName, commands);
    var dictionary: map<string, FunctionDefinition> := map[];
    var n := 0;
    while n < |commands|
      invariant 0 <= n <= |commands|
      invariant AddAll(entries[..n]) == Ok(dictionary)
    {
      var command := commands[n];
      FoldNext(Add, map[], entries, n, dictionary);
      n := n + 1;
      var proto := RequiredElement(command, "proto");
      if proto.Err? {
        FoldFailureStays(Add, map[], entries, n);
        return Err(proto.error);
      }
      var functionName := RequiredElement(proto.value, "name");
      if functionName.Err? {
        FoldFailureStays(Add, map[], entries, n);
        return Err(functionName.error);
      }
      var returnType := ParseType(proto.value);
      assert returnType.Ok?;  // the `name` child was just found
      var parameters := ParseParameters(command);
      if parameters.Err? {
        FoldFailureStays(Add, map[], entries, n);
        return Err(parameters.error);
      }
      var definition := FunctionDefinition(Value(functionName.value), returnType.value, parameters.value);
      if definition.name in dictionary {
        FoldFailureStays(Add, map[], entries, n);
        return Err(DuplicateKey);
      }
      dictionary := dictionary[definition.name := definition];
    }
    assert entries[..n] == entries;
    return Ok(dictionary);
  }

  /** The parameters are read exactly when every `<param>` has a `name` child,
      one per element and in document order. */
  lemma ParametersInOrder(ps: seq<Element>)
    ensures MapAll(ParameterOf, ps).Ok? <==> forall i :: 0 <= i < |ps| ==> FirstElement(ps[i], "name").Some?
    ensures MapAll(ParameterOf, ps).Ok? ==>
              |MapAll(ParameterOf, ps).value| == |ps|
              && forall i :: 0 <= i < |ps| ==> MapAll(ParameterOf, ps).value[i] == ParameterOf(ps[i]).value
  {
    MapAllCharacterization(ParameterOf, ps);
  }

  /** Every command's definition is stored under the command's own name;
      reading fails exactly when a command is malformed or two commands share
      a name. */
  lemma FunctionsKeyedByName(root: Element)
    ensures FunctionsOf(root).Ok? <==>
              (forall i :: 0 <= i < |CommandElements(root)| ==> CommandDefinition(CommandElements(root)[i]).Ok?)
              && CommandNamesDistinct(CommandElements(root))
    ensures FunctionsOf(root).Ok? ==> forall k :: k in FunctionsOf(root).value ==> FunctionsOf(root).value[k].name == k
    ensures FunctionsOf(root).Ok? ==> forall i :: 0 <= i < |CommandElements(root)| ==>
              var f := CommandDefinition(CommandElements(root)[i]).value;
              f.name in FunctionsOf(root).value && FunctionsOf(root).value[f.name] == f
  {
    KeyedAllCharacterization(CommandDefinition, FunctionName, CommandElements(root));
  }

  /** No two commands that read well share a name. */
  predicate CommandNamesDistinct(cs: seq<Element>) {
    ReadKeysDistinct(CommandDefinition, FunctionName, cs)
  }

  // ---------------------------------------------------------------- features

  /** `blocks.Where(e => ApiProfileMatch(settings, e)).Elements()`: the child
      elements of the matching blocks, block by block. */
  function MatchingChildren(settings: GeneratorSettings, blocks: seq<Element>): (r: seq<Element>)
    ensures forall c :: c in r <==> exists b :: b in blocks && ApiProfileMatch(settings, b) && Child(c) in b.content
  {
    if blocks == [] then []
    else
      var init := blocks[..|blocks| - 1];
      var last := blocks[|blocks| - 1];
      assert blocks == init + [last];
      MatchingChildren(settings, init) + (if ApiProfileMatch(settings, last) then Elements(last) else [])
  }

  /** One child of a `<require>` or `<remove>` block: its `name` attribute is
      read first; a `<type>` is skipped, an `<enum>` or a `<command>` becomes a
      reference, and any other element is invalid data. */
  function FeatureReference(c: Element): Result<Option<FeatureElement>> {
    match RequiredAttribute(c, "name")
    case Err(err) => Err(err)
    case Ok(name) =>
      if c.name == "type" then Ok(None)
      else if c.name == "enum" then Ok(Some(FeatureElement(name, Enum)))
      else if c.name == "command" then Ok(Some(FeatureElement(name, Function)))
      else Err(InvalidData)
  }

  /** `ProcessFeatureList(settings, blocks).ToList()`. */
  function FeatureList(settings: GeneratorSettings, blocks: seq<Element>): Result<seq<FeatureElement>> {
    CollectAll(FeatureReference, MatchingChildren(settings, blocks))
  }

  /** A child the feature lists accept: named, and a type, an enum or a command. */
  predicate Referable(c: Element) {
    HasName(c) && (c.name == "type" || c.name == "enum" || c.name == "command")
  }

  /** What one child reads as: a missing name is reported before an unknown
      element kind; a type reads as nothing; an enum or a command as a
      reference of that kind under its `name` attribute. */
  lemma FeatureReferenceMeaning(c: Element)
    ensures FeatureReference(c).Ok? <==> Referable(c)
    ensures !HasName(c) ==> FeatureReference(c) == Err(MissingAttribute("name"))
    ensures HasName(c) && !Referable(c) ==> FeatureReference(c) == Err(InvalidData)
    ensures Referable(c) ==> (FeatureReference(c).value.None? <==> c.name == "type")
    ensures Referable(c) && c.name != "type" ==>
              FeatureReference(c).value.value.name == NameOf(c)
              && (FeatureReference(c).value.value.elementType == Enum <==> c.name == "enum")
  {
  }

  /** The list is read exactly when every child of a matching block is
      referable; it then holds one reference per enum or command child, in
      document order, and nothing for the types. */
  lemma FeatureListCharacterization(settings: GeneratorSettings, blocks: seq<Element>)
    ensures FeatureList(settings, blocks).Ok? <==>
              forall c :: c in MatchingChildren(settings, blocks) ==> Referable(c)
    ensures FeatureList(settings, blocks).Ok? ==>
              (forall i :: 0 <= i < |MatchingChildren(settings, blocks)| ==> FeatureReference(MatchingChildren(settings, blocks)[i]).Ok?)
              && FeatureList(settings, blocks).value == Present(Outcomes(FeatureReference, MatchingChildren(settings, blocks)))
  {
    var cs := MatchingChildren(settings, blocks);
    CollectAllCharacterization(FeatureReference, cs);
    forall i | 0 <= i < |cs| ensures FeatureReference(cs[i]).Ok? <==> Referable(cs[i]) {
      FeatureReferenceMeaning(cs[i]);
    }
  }

  /** `ProcessFeatureList`: the children of the matching blocks, in order. */
  method ProcessFeatureList(settings: GeneratorSettings, blocks: seq<Element>) returns (r: Result<seq<FeatureElement>>)
    ensures r == FeatureList(settings, blocks)
  {
    var children := MatchingChildren(settings, blocks);
    ghost var step := (acc, x) => Collect(FeatureReference, acc, x);
    var list: seq<FeatureElement> := [];
    var n := 0;
    while n < |children|
      invariant 0 <= n <= |children|
      invariant Fold(step, [], children[..n]) == Ok(list)
    {
      FoldNext(step, [], children, n, list);
      var addition := children[n];
      n := n + 1;
      var name := RequiredAttribute(addition, "name");
      if name.Err? {
        FoldFailureStays(step, [], children, n);
        return Err(name.error);
      }
      if addition.name == "type" {
        continue;
      }
      var elementType;
      if addition.name == "enum" {
        elementType := Enum;
      } else if addition.name == "command" {
        elementType := Function;
      } else {
        FoldFailureStays(step, [], children, n);
        return Err(InvalidData);
      }
      list := list + [FeatureElement(name.value, elementType)];
    }
    assert children[..n] == children;
    return Ok(list);
  }

  /** One `<feature>`: its required `api` attribute is compared with the
      setting first, and a feature of another API reads as nothing; then the
      required `number` is read as a version, then the `<require>` blocks as
      additions and the `<remove>` blocks as removals. */
  function FeatureOf(settings: GeneratorSettings, f: Element): Result<Option<FeatureDefinition>> {
    match RequiredAttribute(f, "api")
    case Err(err) => Err(err)
    case Ok(api) =>
      if api != settings.apiName then Ok(None)
      else
        match RequiredAttribute(f, "number")
        case Err(err) => Err(err)
        case Ok(number) =>
          match ParseVersion(number)
          case Err(err) => Err(err)
          case Ok(version) =>
            match FeatureList(settings, ElementsNamed(f, "require"))
            case Err(err) => Err(err)
            case Ok(additions) =>
              match FeatureList(settings, ElementsNamed(f, "remove"))
              case Err(err) => Err(err)
              case Ok(removals) => Ok(Some(FeatureDefinition(version, additions, removals)))
  }

  /** `ParseFeatures`: the features of the configured API, in document order. */
  function FeaturesOf(settings: GeneratorSettings, root: Element): Result<seq<FeatureDefinition>> {
    CollectAll(f => FeatureOf(settings, f), ElementsNamed(root, "feature"))
  }

  /** A feature is kept exactly when its `api` is the configured one, and a
      kept feature has a well-formed version and the lists of its blocks. */
  lemma FeatureOfMeaning(settings: GeneratorSettings, f: Element)
    ensures !("api" in f.attributes) ==> FeatureOf(settings, f) == Err(MissingAttribute("api"))
    ensures "api" in f.attributes && f.attributes["api"] != settings.apiName ==> FeatureOf(settings, f) == Ok(None)
    ensures FeatureOf(settings, f).Ok? && FeatureOf(settings, f).value.Some? ==>
              var d := FeatureOf(settings, f).value.value;
              f.attributes["api"] == settings.apiName
              && ParseVersion(f.attributes["number"]) == Ok(d.version) && d.version.Valid()
              && FeatureList(settings, ElementsNamed(f, "require")) == Ok(d.additions)
              && FeatureList(settings, ElementsNamed(f, "remove")) == Ok(d.removals)
  {
  }

  /** The features are read exactly when every `<feature>` reads well; they
      are then the features of the configured API, in document order, and
      each has a well-formed version. */
  lemma FeaturesCharacterization(settings: GeneratorSettings, root: Element)
    ensures FeaturesOf(settings, root).Ok? <==>
              forall i :: 0 <= i < |ElementsNamed(root, "feature")| ==> FeatureOf(settings, ElementsNamed(root, "feature")[i]).Ok?
    ensures FeaturesOf(settings, root).Ok? ==>
              FeaturesOf(settings, root).value == Present(Outcomes(f => FeatureOf(settings, f), ElementsNamed(root, "feature")))
    ensures FeaturesOf(settings, root).Ok? ==>
              forall k :: 0 <= k < |FeaturesOf(settings, root).value| ==> FeaturesOf(settings, root).value[k].version.Valid()
  {
    var fs := ElementsNamed(root, "feature");
    var read := f => FeatureOf(settings, f);
    CollectAllCharacterization(read, fs);
    if FeaturesOf(settings, root).Ok? {
      var ds := FeaturesOf(settings, root).value;
      var os := Outcomes(read, fs);
      forall k | 0 <= k < |ds| ensures ds[k].version.Valid() {
        var i :| 0 <= i < |os| && os[i] == Some(ds[k]);
        FeatureOfMeaning(settings, fs[i]);
      }
    }
  }

  /** `ParseFeatures`. */
  method ParseFeatures(settings: GeneratorSettings, root: Element) returns (r: Result<seq<FeatureDefinition>>)
    ensures r == FeaturesOf(settings, root)
  {
    var elements := ElementsNamed(root, "feature");
    ghost var step := (acc, x) => Collect(f => FeatureOf(settings, f), acc, x);
    var features: seq<FeatureDefinition> := [];
    var n := 0;
    while n < |elements|
      invariant 0 <= n <= |elements|
      invariant Fold(step, [], elements[..n]) == Ok(features)
    {
      FoldNext(step, [], elements, n, features);
      var feature := elements[n];
      n := n + 1;
      var api := RequiredAttribute(feature, "api");
      if api.Err? {
        FoldFailureStays(step, [], elements, n);
        return Err(api.error);
      }
      if api.value != settings.apiName {
        continue;
      }
      var number := RequiredAttribute(feature, "number");
      if number.Err? {
        FoldFailureStays(step, [], elements, n);
        return Err(number.error);
      }
      var version := ParseVersion(number.value);
      if version.Err? {
        FoldFailureStays(step, [], elements, n);
        return Err(version.error);
      }
      var additions := ProcessFeatureList(settings, ElementsNamed(feature, "require"));
      if additions.Err? {
        FoldFailureStays(step, [], elements, n);
        return Err(additions.error);
      }
      var removals := ProcessFeatureList(settings, ElementsNamed(feature, "remove"));
      if removals.Err? {
        FoldFailureStays(step, [], elements, n);
        return Err(removals.error);
      }
      features := features + [FeatureDefinition(version.value, additions.value, removals.value)];
    }
    assert elements[..n] == elements;
    return Ok(features);
  }

  // ---------------------------------------------------------------- registry

  /** The registry read from a loaded document: enums, then groups, then
      commands, then features; the first failure is the result. */
  function RegistryOf(settings: GeneratorSettings, root: Element): Result<Definitions> {
    match EnumValuesOf(root)
    case Err(err) => Err(err)
    case Ok(enumValues) =>
      match GroupsOf(root)
      case Err(err) => Err(err)
      case Ok(groups) =>
        match FunctionsOf(root)
        case Err(err) => Err(err)
        case Ok(functions) =>
          match FeaturesOf(settings, root)
          case Err(err) => Err(err)
          case Ok(features) => Ok(Definitions(enumValues, groups, functions, features))
  }

  /** `ParseXmlRegistry`. The document is `None` when the signature file does
      not exist. */
  method ParseXmlRegistry(settings: GeneratorSettings, document: Option<Element>) returns (r: Result<Definitions>)
    ensures document.None? ==> r == Err(FileNotFound)
    ensures document.Some? ==> r == RegistryOf(settings, document.value)
  {
    if document.None? {
      return Err(FileNotFound);
    }
    var root := document.value;
    var enumValues := ParseEnumValues(root);
    if enumValues.Err? {
      return Err(enumValues.error);
    }
    var groups := ParseGroups(root);
    if groups.Err? {
      return Err(groups.error);
    }
    var functions := ParseFunctions(root);
    if functions.Err? {
      return Err(functions.error);
    }
    var features := ParseFeatures(settings, root);
    if features.Err? {
      return Err(features.error);
    }
    return Ok(Definitions(enumValues.value, groups.value, functions.value, features.value));
  }

  /** A registry that reads well has one enum per declared name, one group
      per `<group>` holding its members' names, every command under its own
      name, and only features of the configured API, each with a well-formed
      version. */
  lemma RegistryCharacterization(settings: GeneratorSettings, root: Element)
    ensures RegistryOf(settings, root).Ok? <==>
              AllAccepted(EnumDeclarations(root))
              && GroupsWellFormed(GroupElements(root)) && DistinctNames(GroupElements(root))
              && FunctionsOf(root).Ok? && FeaturesOf(settings, root).Ok?
    ensures RegistryOf(settings, root).Ok? ==>
              var d := RegistryOf(settings, root).value;
              d.enumValues.Keys == Names(EnumDeclarations(root))
              && d.groups.Keys == Names(GroupElements(root))
              && (forall k :: k in d.functions ==> d.functions[k].name == k)
              && (forall k :: 0 <= k < |d.features| ==> d.features[k].version.Valid())
  {
    RegistryParts(settings, root);
    EnumTableCharacterization(EnumDeclarations(root));
    GroupsCharacterization(root);
    FunctionsKeyedByName(root);
    FeaturesCharacterization(settings, root);
  }

  /** The registry is read when each of its four tables is. */
  lemma RegistryParts(settings: GeneratorSettings, root: Element)
    ensures RegistryOf(settings, root).Ok? <==>
              EnumValuesOf(root).Ok? && GroupsOf(root).Ok? && FunctionsOf(root).Ok? && FeaturesOf(settings, root).Ok?
    ensures RegistryOf(settings, root).Ok? ==>
              RegistryOf(settings, root).value ==
                Definitions(EnumValuesOf(root).value, GroupsOf(root).value, FunctionsOf(root).value, FeaturesOf(settings, root).value)
  {
  }
}

=== FILE: map_low_types.dfy ===
/** `MapLowTypes`: rewrites the parsed types of every function through the
    type table read by `ParsedTypemapReader`. */
module MapLowTypes {
  import opened Wrappers
  import opened ParsedTypes

  /** `MapType(ParsedType)`: a type whose base name has an entry becomes the
      entry's base name, with the entry's pointer levels added to its own; any
      other type passes through unchanged. */
  function MapType(table: map<string, ParsedType>, t: ParsedType): (r: ParsedType)
    ensures t.typeName !in table ==> r == t
    ensures t.typeName in table ==>
              r.typeName == table[t.typeName].typeName
              && r.pointerLevels - t.pointerLevels == table[t.typeName].pointerLevels
  {
    if t.typeName !in table then t
    else
      var mapped := table[t.typeName];
      ParsedType(mapped.typeName, mapped.pointerLevels + t.pointerLevels)
  }

  /** `MapType(ParsedGroupedType)`: maps the inner type, keeps the group. */
  function MapGroupedType(table: map<string, ParsedType>, g: ParsedGroupedType): (r: ParsedGroupedType)
    ensures r.parsedType == MapType(table, g.parsedType)
    ensures r.groupName == g.groupName
  {
    var (t, group) := g.Deconstruct();
    ParsedGroupedType(MapType(table, t), group)
  }

  /** The parameter selector of `Map`: name and flow kept, type mapped. */
  function MapParameter(table: map<string, ParsedType>, p: ParsedFunctionParameter): (r: ParsedFunctionParameter)
    ensures r.name == p.name && r.flow == p.flow
    ensures r.paramType == MapGroupedType(table, p.paramType)
  {
    ParsedFunctionParameter(p.name, MapGroupedType(table, p.paramType), p.flow)
  }

  function MapParameters(table: map<string, ParsedType>, ps: seq<ParsedFunctionParameter>): (r: seq<ParsedFunctionParameter>)
    ensures |r| == |ps|
    ensures forall i :: 0 <= i < |ps| ==> r[i] == MapParameter(table, ps[i])
  {
    if ps == [] then [] else [MapParameter(table, ps[0])] + MapParameters(table, ps[1..])
  }

  /** The function selector of `Map`. */
  function MapFunction(table: map<string, ParsedType>, f: ParsedFunctionDefinition): (r: ParsedFunctionDefinition)
    ensures r.name == f.name
    ensures r.returnType == MapGroupedType(table, f.returnType)
    ensures |r.parameters| == |f.parameters|
    ensures forall i :: 0 <= i < |f.parameters| ==>
              r.parameters[i].name == f.parameters[i].name
              && r.parameters[i].flow == f.parameters[i].flow
              && r.parameters[i].paramType == MapGroupedType(table, f.parameters[i].paramType)
  {
    ParsedFunctionDefinition(f.name, MapGroupedType(table, f.returnType), MapParameters(table, f.parameters))
  }

  /** `Map`: one output per input function, in input order. */
  function Map(table: map<string, ParsedType>, fs: seq<ParsedFunctionDefinition>): (r: seq<ParsedFunctionDefinition>)
    ensures |r| == |fs|
    ensures forall i :: 0 <= i < |fs| ==> r[i] == MapFunction(table, fs[i])
  {
    if fs == [] then [] else [MapFunction(table, fs[0])] + Map(table, fs[1..])
  }

  /** Pointer levels compose additively: adding `n` levels before mapping is
      the same as adding them after, and the base name does not depend on them. */
  lemma MapTypeAddsLevels(table: map<string, ParsedType>, name: string, levels: int, n: int)
    ensures MapType(table, ParsedType(name, levels + n)).typeName == MapType(table, ParsedType(name, levels)).typeName
    ensures MapType(table, ParsedType(name, levels + n)).pointerLevels == MapType(table, ParsedType(name, levels)).pointerLevels + n
  {
  }

  /** No return or parameter type of `g` has a lower pointer level than the
      same type of `f`. */
  predicate LevelsNotLowered(g: ParsedFunctionDefinition, f: ParsedFunctionDefinition) {
    |g.parameters| == |f.parameters|
    && g.returnType.parsedType.pointerLevels >= f.returnType.parsedType.pointerLevels
    && forall j :: 0 <= j < |f.parameters| ==>
         g.parameters[j].paramType.parsedType.pointerLevels >= f.parameters[j].paramType.parsedType.pointerLevels
  }

  /** The pointer levels of `g`'s return and parameter types equal those of
      `f`'s: only base names may differ. */
  predicate SameLevels(g: ParsedFunctionDefinition, f: ParsedFunctionDefinition) {
    |g.parameters| == |f.parameters|
    && g.returnType.parsedType.pointerLevels == f.returnType.parsedType.pointerLevels
    && forall j :: 0 <= j < |f.parameters| ==>
         g.parameters[j].paramType.parsedType.pointerLevels == f.parameters[j].paramType.parsedType.pointerLevels
  }

  /** With a table whose entries have no negative levels, mapping never lowers
      the pointer level of any return or parameter type, so a non-negative
      level stays non-negative. */
  lemma MapNeverLowersLevels(table: map<string, ParsedType>, fs: seq<ParsedFunctionDefinition>)
    requires forall k :: k in table ==> table[k].pointerLevels >= 0
    ensures forall i :: 0 <= i < |fs| ==> LevelsNotLowered(Map(table, fs)[i], fs[i])
  {
  }

  /** With a table whose entries have no pointer levels, mapping only renames
      types: every return and parameter type keeps its pointer level. */
  lemma ZeroLevelTableKeepsLevels(table: map<string, ParsedType>, fs: seq<ParsedFunctionDefinition>)
    requires forall k :: k in table ==> table[k].pointerLevels == 0
    ensures forall i :: 0 <= i < |fs| ==> SameLevels(Map(table, fs)[i], fs[i])
  {
  }

  /** The empty table maps every function to itself. */
  lemma {:induction false} EmptyTableIsIdentity(fs: seq<ParsedFunctionDefinition>)
    ensures Map(map[], fs) == fs
  {
    forall i | 0 <= i < |fs| ensures MapFunction(map[], fs[i]) == fs[i] {
      var f := fs[i];
      var g := MapFunction(map[], f);
      assert g.parameters == f.parameters by {
        forall j | 0 <= j < |f.parameters| ensures g.parameters[j] == f.parameters[j] {
          assert MapGroupedType(map[], f.parameters[j].paramType) == f.parameters[j].paramType;
        }
      }
      assert MapGroupedType(map[], f.returnType) == f.returnType;
    }
  }
}

=== FILE: numbers.dfy ===
/** `long.Parse` in its two uses by the registry reader (decimal with
    `NumberStyles.Integer`, hexadecimal with `NumberStyles.HexNumber`, both under
    the invariant culture) and the decimal formatting of `long.ToString`. */
module Numbers {
  import opened Wrappers
  import opened Text

  const MinLong: int := -0x8000_0000_0000_0000
  const MaxLong: int := 0x7FFF_FFFF_FFFF_FFFF
  /** 2^64: the number of distinct 64-bit patterns. */
  const LongModulus: int := 0x1_0000_0000_0000_0000

  /** A C# `long`: a 64-bit signed integer. */
  type Long = x: int | MinLong <= x <= MaxLong

  predicate IsDigit(c: char) { '0' <= c <= '9' }

  predicate IsHexDigit(c: char) { IsDigit(c) || ('a' <= c <= 'f') || ('A' <= c <= 'F') }

  predicate AllDigits(ds: string) { forall k :: 0 <= k < |ds| ==> IsDigit(ds[k]) }

  predicate AllHexDigits(ds: string) { forall k :: 0 <= k < |ds| ==> IsHexDigit(ds[k]) }

  function DigitValue(c: char): (d: nat)
    requires IsDigit(c)
    ensures d < 10
  {
    (c as int) - ('0' as int)
  }

  function HexDigitValue(c: char): (d: nat)
    requires IsHexDigit(c)
    ensures d < 16
    ensures IsDigit(c) ==> d == DigitValue(c)
  {
    if IsDigit(c) then DigitValue(c)
    else if 'a' <= c <= 'f' then (c as int) - ('a' as int) + 10
    else (c as int) - ('A' as int) + 10
  }

  /** The number a string of decimal digits denotes, most significant first. */
  function DecimalValue(ds: string): nat
    requires AllDigits(ds)
  {
    if ds == [] then 0 else DecimalValue(ds[..|ds| - 1]) * 10 + DigitValue(ds[|ds| - 1])
  }

  /** The number a string of hexadecimal digits denotes, most significant first. */
  function HexValue(ds: string): nat
    requires AllHexDigits(ds)
  {
    if ds == [] then 0 else HexValue(ds[..|ds| - 1]) * 16 + HexDigitValue(ds[|ds| - 1])
  }

  /** Parsing with `NumberStyles.Integer` into an integer type whose range is
      `min..max`: surrounding white space, an optional sign, then at least one
      decimal digit; a value outside the range overflows. */
  function ParseInteger(s: string, min: int, max: int): (r: Result<int>)
    ensures r.Ok? ==> min <= r.value <= max
    ensures r.Err? ==> r.error == Format || r.error == Overflow
  {
    var t := Trim(s);
    var negative := t != [] && t[0] == '-';
    var ds := if t != [] && (t[0] == '-' || t[0] == '+') then t[1..] else t;
    if ds == [] || !AllDigits(ds) then Err(Format)
    else
      var v: int := if negative then -(DecimalValue(ds) as int) else DecimalValue(ds);
      if min <= v <= max then Ok(v) else Err(Overflow)
  }

  /** `long.Parse(s, CultureInfo.InvariantCulture)`. */
  function ParseLong(s: string): (r: Result<Long>)
    ensures r.Err? ==> r.error == Format || r.error == Overflow
  {
    match ParseInteger(s, MinLong, MaxLong)
    case Err(e) => Err(e)
    case Ok(v) => Ok(v)
  }

  /** `long.Parse(s, NumberStyles.HexNumber, CultureInfo.InvariantCulture)`:
      surrounding white space, then at least one hexadecimal digit and no sign.
      The digits give a 64-bit pattern read as two's complement, so a pattern
      with its top bit set is negative; more than 64 significant bits overflow. */
  function ParseHexLong(s: string): (r: Result<Long>)
  {
    var t := Trim(s);
    if t == [] || !AllHexDigits(t) then Err(Format)
    else
      var v := HexValue(t);
      if v >= LongModulus then Err(Overflow)
      else if v <= MaxLong then Ok(v)
      else Ok(v - LongModulus)
  }

  /** The decimal digits of a natural number, without leading zeros. */
  function FormatNat(n: nat): (ds: string)
    ensures ds != [] && AllDigits(ds)
    ensures DecimalValue(ds) == n
    decreases n
  {
    if n < 10 then [('0' as int + n) as char]
    else
      var ds := FormatNat(n / 10) + [('0' as int + n % 10) as char];
      assert ds[..|ds| - 1] == FormatNat(n / 10);
      ds
  }

  /** The hexadecimal digits of a natural number, without leading zeros, in
      upper case (`ToString("X")`). */
  function FormatHexNat(n: nat): (ds: string)
    ensures ds != [] && AllHexDigits(ds)
    ensures HexValue(ds) == n
    decreases n
  {
    var last := n % 16;
    var c := if last < 10 then ('0' as int + last) as char else ('A' as int + last - 10) as char;
    if n < 16 then [c]
    else
      var ds := FormatHexNat(n / 16) + [c];
      assert ds[..|ds| - 1] == FormatHexNat(n / 16);
      ds
  }

  /** `long.ToString()` under the invariant culture. */
  function FormatLong(v: Long): string {
    if v < 0 then "-" + FormatNat(-(v as int)) else FormatNat(v)
  }

  /** A string that neither starts nor ends with white space is its own trim. */
  lemma TrimmedAlready(s: string)
    requires s != [] && !IsWhiteSpace(s[0]) && !IsWhiteSpace(s[|s| - 1])
    ensures Trim(s) == s
  {
    assert TrimStart(s) == s;
    assert TrimEnd(s) == s;
  }

  lemma DigitsAreNotWhiteSpace(ds: string)
    requires ds != [] && AllHexDigits(ds)
    ensures Trim(ds) == ds
  {
    assert IsHexDigit(ds[0]) && IsHexDigit(ds[|ds| - 1]);
    TrimmedAlready(ds);
  }

  /** Formatting a `long` in decimal and parsing it back gives the same value. */
  lemma ParseFormatLong(v: Long)
    ensures ParseLong(FormatLong(v)) == Ok(v)
  {
    if v < 0 {
      ParseNegativeDigits(FormatNat(-(v as int)));
    } else {
      ParseDigits(FormatNat(v));
    }
  }

  /** Plain decimal digits read as the number they denote. */
  lemma ParseDigits(ds: string)
    requires ds != [] && AllDigits(ds) && DecimalValue(ds) <= MaxLong
    ensures ParseLong(ds) == Ok(DecimalValue(ds))
  {
    ParseIntegerDigits(ds, MinLong, MaxLong);
  }

  /** A minus sign and decimal digits read as the negated number. */
  lemma ParseNegativeDigits(ds: string)
    requires ds != [] && AllDigits(ds) && DecimalValue(ds) <= -MinLong
    ensures ParseLong("-" + ds) == Ok(-(DecimalValue(ds) as int))
  {
    ParseIntegerSigned(ds, '-', MinLong, MaxLong);
  }

  /** Decimal digits within the range read as the number they denote. */
  lemma ParseIntegerDigits(ds: string, min: int, max: int)
    requires ds != [] && AllDigits(ds) && min <= DecimalValue(ds) <= max
    ensures ParseInteger(ds, min, max) == Ok(DecimalValue(ds))
  {
    assert IsDigit(ds[0]) && IsDigit(ds[|ds| - 1]);
    TrimmedAlready(ds);
  }

  /** A sign and decimal digits read as the number with that sign. */
  lemma ParseIntegerSigned(ds: string, sign: char, min: int, max: int)
    requires ds != [] && AllDigits(ds) && (sign == '-' || sign == '+')
    requires var v: int := if sign == '-' then -(DecimalValue(ds) as int) else DecimalValue(ds); min <= v <= max
    ensures ParseInteger([sign] + ds, min, max) == Ok(if sign == '-' then -(DecimalValue(ds) as int) else DecimalValue(ds))
  {
    var s := [sign] + ds;
    assert IsDigit(ds[|ds| - 1]);
    assert s[|s| - 1] == ds[|ds| - 1];
    TrimmedAlready(s);
    assert s[0] == sign && s[1..] == ds;
    if sign == '-' {
      assert ParseInteger(s, min, max) == Ok(-(DecimalValue(ds) as int));
    } else {
      assert ParseInteger(s, min, max) == Ok(DecimalValue(ds));
    }
  }

  /** The hexadecimal and the decimal spelling of the same non-negative 64-bit
      value parse to that value. */
  lemma HexAndDecimalAgree(n: nat)
    requires n <= MaxLong
    ensures ParseHexLong(FormatHexNat(n)) == Ok(n)
    ensures ParseLong(FormatNat(n)) == Ok(n)
  {
    DigitsAreNotWhiteSpace(FormatHexNat(n));
    ParseFormatLong(n);
  }

  /** The 64-bit two's complement pattern of a `long`, as an unsigned number. */
  function BitPattern(v: Long): (p: nat)
    ensures p < LongModulus
    ensures v >= 0 <==> p <= MaxLong
  {
    if v < 0 then v + LongModulus else v
  }

  /** Every `long`, written as its 64-bit pattern in hexadecimal, reads back as
      itself: the hexadecimal form reaches the negative values too. */
  lemma ParseHexTwosComplement(v: Long)
    ensures ParseHexLong(FormatHexNat(BitPattern(v))) == Ok(v)
  {
    var ds := FormatHexNat(BitPattern(v));
    DigitsAreNotWhiteSpace(ds);
  }
}

=== FILE: parse_function_types.dfy ===
/** `ParseFunctionTypes`: projects the registry's type text of every command
    into parsed types (base name and pointer levels) and guesses each
    parameter's flow direction from its type text. */
module ParseFunctionTypes {
  import opened Wrappers
  import opened Text
  import opened GLXmlDefinitions
  import opened ParsedTypes

  /** What the C type-signature parser reports about a type text: the base
      name, whether an array suffix is present, and the number of `*`s. The
      parser itself is not part of this model, so every operation below takes
      it as the parameter `sig`. */
  datatype TypeSignature = TypeSignature(name: string, isArray: bool, indirectionLevel: int)

  /** `\wconst\w` matches at position `i`: a word character, the letters of
      `const`, and another word character. */
  predicate ConstSpecifierAt(s: string, i: int) {
    0 <= i && i + 7 <= |s| && IsWordChar(s[i]) && s[i + 1..i + 6] == "const" && IsWordChar(s[i + 6])
  }

  /** `Regex.IsMatch(s)` for the pattern `\wconst\w`: is there a match at or
      after position `i`? */
  function ConstSpecifierFrom(s: string, i: nat): (b: bool)
    ensures b <==> exists k :: i <= k && ConstSpecifierAt(s, k)
    decreases |s| - i
  {
    if i + 7 > |s| then false
    else ConstSpecifierAt(s, i) || ConstSpecifierFrom(s, i + 1)
  }

  function ConstSpecifierMatch(s: string): (b: bool)
    ensures b <==> exists k :: ConstSpecifierAt(s, k)
  {
    ConstSpecifierFrom(s, 0)
  }

  /** `ParseType(string)`: the signature's name, and its indirection level with
      one more level when it is an array. */
  function ParseType(sig: string -> TypeSignature, t: string): (r: ParsedType)
    ensures r.typeName == sig(t).name
    ensures r.pointerLevels - sig(t).indirectionLevel == (if sig(t).isArray then 1 else 0)
    ensures sig(t).indirectionLevel >= 0 ==> r.pointerLevels >= 0
  {
    var signature := sig(t);
    var pointerLevel := if signature.isArray then 1 else 0;
    ParsedType(signature.name, pointerLevel + signature.indirectionLevel)
  }

  /** `ParseType(GroupedType)`: parses the type text and keeps the group. */
  function ParseGroupedType(sig: string -> TypeSignature, g: GroupedType): (r: ParsedGroupedType)
    ensures r.parsedType == ParseType(sig, g.typeName)
    ensures r.groupName == g.groupName
  {
    var (t, groupName) := g.Deconstruct();
    ParsedGroupedType(ParseType(sig, t), groupName)
  }

  /** `ParseParameter`: the name is kept, the type parsed, and the flow is
      `Out` exactly when the raw type text matches `\wconst\w`. */
  function ParseParameter(sig: string -> TypeSignature, p: FunctionParameter): (r: ParsedFunctionParameter)
    ensures r.name == p.name
    ensures r.paramType == ParseGroupedType(sig, p.paramType)
    ensures r.flow == Out <==> exists k :: ConstSpecifierAt(p.paramType.typeName, k)
  {
    var (groupedType, name) := p.Deconstruct();
    var parsedType := ParseGroupedType(sig, groupedType);
    var flow := if ConstSpecifierMatch(groupedType.typeName) then Out else In;
    ParsedFunctionParameter(name, parsedType, flow)
  }

  /** Parses every parameter, keeping their order. */
  function ParseParameters(sig: string -> TypeSignature, ps: seq<FunctionParameter>): (r: seq<ParsedFunctionParameter>)
    ensures |r| == |ps|
    ensures forall i :: 0 <= i < |ps| ==> r[i] == ParseParameter(sig, ps[i])
  {
    if ps == [] then [] else [ParseParameter(sig, ps[0])] + ParseParameters(sig, ps[1..])
  }

  /** The projection of one command (the value selector of `Parse`). */
  function ParseFunction(sig: string -> TypeSignature, f: FunctionDefinition): (r: ParsedFunctionDefinition)
    ensures r.name == f.name
    ensures r.returnType == ParseGroupedType(sig, f.returnType)
    ensures |r.parameters| == |f.parameters|
    ensures forall i :: 0 <= i < |f.parameters| ==> r.parameters[i] == ParseParameter(sig, f.parameters[i])
  {
    ParsedFunctionDefinition(f.name, ParseGroupedType(sig, f.returnType), ParseParameters(sig, f.parameters))
  }

  /** No two entries of the table hold commands of the same name. */
  predicate DistinctNames(fs: map<string, FunctionDefinition>) {
    forall a, b :: a in fs && b in fs && a != b ==> fs[a].name != fs[b].name
  }

  /** The commands re-keyed by their own names, each one projected. */
  function Project(sig: string -> TypeSignature, fs: map<string, FunctionDefinition>): (r: map<string, ParsedFunctionDefinition>)
    requires DistinctNames(fs)
    ensures r.Keys == set k | k in fs :: fs[k].name
    ensures forall k :: k in fs ==> fs[k].name in r && r[fs[k].name] == ParseFunction(sig, fs[k])
  {
    map k | k in fs :: fs[k].name := ParseFunction(sig, fs[k])
  }

  /** `Parse`: `ToDictionary` over the commands, keyed by the command's own
      name; two commands with the same name make it fail. */
  function Parse(sig: string -> TypeSignature, data: Definitions): (r: Result<map<string, ParsedFunctionDefinition>>)
    ensures r.Ok? <==> DistinctNames(data.functions)
    ensures r.Err? ==> r.error == DuplicateKey
    ensures r.Ok? ==> r.value.Keys == set k | k in data.functions :: data.functions[k].name
    ensures r.Ok? ==> forall k :: k in data.functions ==>
              data.functions[k].name in r.value
              && r.value[data.functions[k].name] == ParseFunction(sig, data.functions[k])
  {
    if DistinctNames(data.functions) then Ok(Project(sig, data.functions)) else Err(DuplicateKey)
  }

  /** The registry reader keys every command by its own name; for such a table
      the projection succeeds and keeps the keys. */
  lemma ParseKeepsKeys(sig: string -> TypeSignature, data: Definitions)
    requires forall k :: k in data.functions ==> data.functions[k].name == k
    ensures Parse(sig, data).Ok?
    ensures Parse(sig, data).value.Keys == data.functions.Keys
    ensures forall k :: k in data.functions ==> Parse(sig, data).value[k].name == k
  {
    var r := Parse(sig, data);
    assert r.Ok?;
    assert r.value.Keys == data.functions.Keys by {
      forall k | k in data.functions ensures k in r.value { assert data.functions[k].name == k; }
    }
  }

  /** The regular expression needs a word character on both sides of `const`,
      so the C qualifier at the start of a type text does not match and such a
      parameter is classified `In`; `const` glued inside a word does match. */
  lemma FlowExamples(sig: string -> TypeSignature)
    ensures ParseParameter(sig, FunctionParameter("string", GroupedType("const GLubyte *", None))).flow == In
    ensures ParseParameter(sig, FunctionParameter("p", GroupedType("GLconstX", None))).flow == Out
  {
    var leading := "const GLubyte *";
    forall k | 0 <= k && k + 7 <= |leading| ensures !ConstSpecifierAt(leading, k) {
      var w := leading[k + 1..k + 6];
      assert w[0] == leading[k + 1] != 'c';
    }
    assert ConstSpecifierAt("GLconstX", 1);
  }
}

=== FILE: parsed_typemap_reader.dfy ===
/** `ParsedTypemapReader`: reads the two-column type table, one row per line
    (`source, target`), with `#` comments, into a map from the source's base
    name to the parsed target type. */
module ParsedTypemapReader {
  import opened Wrappers
  import opened Text
  import opened ParsedTypes
  import opened ParseFunctionTypes

  /** What one line of the table contributes. */
  datatype LineKind =
    | Ignored                                  // a comment line or a blank line
    | Malformed                                // not exactly two non-empty columns
    | SkippedRow                               // the source column is a pointer type
    | Row(source: string, target: ParsedType)  // an entry of the table

  /** The line without its comment: everything from the first `#` on is cut
      when that `#` is not the first character. */
  function Uncommented(line: string): (r: string)
    ensures '#' !in r || (line != [] && line[0] == '#')
    ensures r == line || (exists c :: r + c == line && c != [] && c[0] == '#')
  {
    var commentIndex := IndexOfChar(line, '#');
    if commentIndex > 0 then
      assert line[..commentIndex] + line[commentIndex..] == line;
      line[..commentIndex]
    else line
  }

  /** The classification of one line, step by step as the reader handles it:
      skip comments and blank lines, cut an inline comment, split on commas
      dropping empty pieces, require two columns, parse both trimmed, and skip
      a row whose source is a pointer type. */
  function ClassifyLine(sig: string -> TypeSignature, line: string): LineKind {
    if StartsWith(line, "#") || IsWhiteSpaceOnly(line) then Ignored
    else ClassifyColumns(sig, SplitNonEmpty(Uncommented(line), ','))
  }

  function ClassifyColumns(sig: string -> TypeSignature, parts: seq<string>): (k: LineKind)
    ensures k.Malformed? <==> |parts| != 2
    ensures !k.Ignored?
    ensures k.Row? ==> k.source == sig(Trim(parts[0])).name && k.target == ParseType(sig, Trim(parts[1]))
    ensures k.Row? || k.SkippedRow? ==> (k.Row? <==> ParseType(sig, Trim(parts[0])).pointerLevels == 0)
  {
    if |parts| != 2 then Malformed
    else
      var from := ParseType(sig, Trim(parts[0]));
      if from.pointerLevels != 0 then SkippedRow
      else Row(from.typeName, ParseType(sig, Trim(parts[1])))
  }

  /** Every line classified. */
  function Classify(sig: string -> TypeSignature, lines: seq<string>): (ks: seq<LineKind>)
    ensures |ks| == |lines|
    ensures forall i :: 0 <= i < |lines| ==> ks[i] == ClassifyLine(sig, lines[i])
  {
    seq(|lines|, i requires 0 <= i < |lines| => ClassifyLine(sig, lines[i]))
  }

  /** The table built from classified lines, one after the other: a malformed
      line fails, and so does a row whose source is already in the table. */
  function Build(ks: seq<LineKind>): Result<map<string, ParsedType>>
    decreases |ks|
  {
    if ks == [] then Ok(map[])
    else
      match Build(ks[..|ks| - 1])
      case Err(e) => Err(e)
      case Ok(m) =>
        match ks[|ks| - 1]
        case Ignored => Ok(m)
        case SkippedRow => Ok(m)
        case Malformed => Err(InvalidData)
        case Row(source, target) => if source in m then Err(DuplicateKey) else Ok(m[source := target])
  }

  /** `Parse`: the `while (true)` loop over the lines of the reader. */
  method Parse(sig: string -> TypeSignature, lines: seq<string>) returns (r: Result<map<string, ParsedType>>)
    ensures r == Build(Classify(sig, lines))
  {
    ghost var ks := Classify(sig, lines);
    var table: map<string, ParsedType> := map[];
    var n := 0;
    while n < |lines|
      invariant 0 <= n <= |lines|
      invariant Build(ks[..n]) == Ok(table)
    {
      var line := lines[n];
      ghost var before := ks[..n];
      ghost var k := ks[n];
      assert k == ClassifyLine(sig, line);
      PrefixGrows(ks, n);
      n := n + 1;
      if StartsWith(line, "#") || IsWhiteSpaceOnly(line) {
        StepKeeps(before, Ignored, table);
        continue;
      }
      var commentIndex := IndexOfChar(line, '#');
      if commentIndex > 0 {
        line := line[..commentIndex];
      }
      var parts := SplitNonEmpty(line, ',');
      if |parts| != 2 {
        StepFails(before, Malformed, table);
        BuildFailureStays(ks, n);
        return Err(InvalidData);
      }
      var from := ParseType(sig, Trim(parts[0]));
      if from.pointerLevels != 0 {
        StepKeeps(before, SkippedRow, table);
        continue;
      }
      var to := ParseType(sig, Trim(parts[1]));
      if from.typeName in table {
        StepFails(before, Row(from.typeName, to), table);
        BuildFailureStays(ks, n);
        return Err(DuplicateKey);
      }
      StepAdds(before, from.typeName, to, table);
      table := table[from.typeName := to];
    }
    assert ks[..n] == ks;
    return Ok(table);
  }

  /** The first `n + 1` lines are the first `n` and line `n`. */
  lemma PrefixGrows(ks: seq<LineKind>, n: nat)
    requires n < |ks|
    ensures ks[..n + 1] == ks[..n] + [ks[n]]
  {
  }

  /** A line that is ignored or skipped keeps the table. */
  lemma StepKeeps(ks: seq<LineKind>, k: LineKind, table: map<string, ParsedType>)
    requires Build(ks) == Ok(table) && (k.Ignored? || k.SkippedRow?)
    ensures Build(ks + [k]) == Ok(table)
  {
    BuildLast(ks, k);
  }

  /** A malformed line fails with `InvalidData`, a row whose source is
      already in the table with `DuplicateKey`. */
  lemma StepFails(ks: seq<LineKind>, k: LineKind, table: map<string, ParsedType>)
    requires Build(ks) == Ok(table) && (k.Malformed? || (k.Row? && k.source in table))
    ensures Build(ks + [k]) == Err(if k.Malformed? then InvalidData else DuplicateKey)
  {
    BuildLast(ks, k);
  }

  /** A row with a new source adds its entry. */
  lemma StepAdds(ks: seq<LineKind>, source: string, target: ParsedType, table: map<string, ParsedType>)
    requires Build(ks) == Ok(table) && source !in table
    ensures Build(ks + [Row(source, target)]) == Ok(table[source := target])
  {
    BuildLast(ks, Row(source, target));
  }

  /** Once reading has failed, the lines after do not matter. */
  lemma {:induction false} BuildFailureStays(ks: seq<LineKind>, n: nat)
    requires n <= |ks| && Build(ks[..n]).Err?
    ensures Build(ks) == Build(ks[..n])
    decreases |ks| - n
  {
    if n < |ks| {
      assert ks[..n + 1][..n] == ks[..n];
      BuildFailureStays(ks, n + 1);
    } else {
      assert ks[..n] == ks;
    }
  }

  /** No line is malformed. */
  predicate WellFormed(ks: seq<LineKind>) {
    forall i :: 0 <= i < |ks| ==> !ks[i].Malformed?
  }

  /** No two rows share a source name. */
  predicate DistinctSources(ks: seq<LineKind>) {
    forall i, j :: 0 <= i < j < |ks| && ks[i].Row? && ks[j].Row? ==> ks[i].source != ks[j].source
  }

  /** The source names of all rows. */
  function Sources(ks: seq<LineKind>): set<string> {
    set i | 0 <= i < |ks| && ks[i].Row? :: ks[i].source
  }

  /** Reading succeeds exactly when no line is malformed and no source name
      repeats (a later row never overwrites an earlier one); the table then
      has one entry per row, holding that row's target. */
  lemma {:induction false} BuildCharacterization(ks: seq<LineKind>)
    ensures Build(ks).Ok? <==> WellFormed(ks) && DistinctSources(ks)
    ensures Build(ks).Ok? ==> Build(ks).value.Keys == Sources(ks)
    ensures Build(ks).Ok? ==> forall i :: 0 <= i < |ks| && ks[i].Row? ==> Build(ks).value[ks[i].source] == ks[i].target
    decreases |ks|
  {
    if ks != [] {
      var init, k := ks[..|ks| - 1], ks[|ks| - 1];
      assert ks == init + [k];
      BuildCharacterization(init);
      if Build(init).Ok? {
        BuildOkStep(init, k);
      } else {
        BuildErrStep(init, k);
      }
    }
  }

  /** The table after one more line. */
  lemma BuildLast(init: seq<LineKind>, k: LineKind)
    ensures Build(init + [k]) ==
              match Build(init)
              case Err(e) => Err(e)
              case Ok(m) =>
                match k
                case Ignored => Ok(m)
                case SkippedRow => Ok(m)
                case Malformed => Err(InvalidData)
                case Row(source, target) => if source in m then Err(DuplicateKey) else Ok(m[source := target])
  {
    assert (init + [k])[..|init|] == init;
  }

  /** One more line read into a table built without failure. */
  lemma BuildOkStep(init: seq<LineKind>, k: LineKind)
    requires Build(init).Ok? && WellFormed(init) && DistinctSources(init)
    requires Build(init).value.Keys == Sources(init)
    requires forall i :: 0 <= i < |init| && init[i].Row? ==> Build(init).value[init[i].source] == init[i].target
    ensures Build(init + [k]).Ok? <==> WellFormed(init + [k]) && DistinctSources(init + [k])
    ensures Build(init + [k]).Ok? ==> Build(init + [k]).value.Keys == Sources(init + [k])
    ensures Build(init + [k]).Ok? ==> forall i :: 0 <= i < |init + [k]| && (init + [k])[i].Row? ==>
              Build(init + [k]).value[(init + [k])[i].source] == (init + [k])[i].target
  {
    BuildLast(init, k);
    var m := Build(init).value;
    var ks := init + [k];
    assert ks[|init|] == k;
    if k.Row? && k.source in m {
      var i :| 0 <= i < |init| && init[i].Row? && init[i].source == k.source;
      assert ks[i] == init[i];
    } else if k.Row? {
      RowOnce(init, k, m);
    } else if !k.Malformed? {
      NonRowKeeps(init, k, m);
    }
  }

  /** A row with a new source extends the table by itself. */
  lemma RowOnce(init: seq<LineKind>, k: LineKind, m: map<string, ParsedType>)
    requires WellFormed(init) && DistinctSources(init) && m.Keys == Sources(init)
    requires forall i :: 0 <= i < |init| && init[i].Row? ==> m[init[i].source] == init[i].target
    requires k.Row? && k.source !in m
    ensures WellFormed(init + [k]) && DistinctSources(init + [k])
    ensures m[k.source := k.target].Keys == Sources(init + [k])
    ensures forall i :: 0 <= i < |init + [k]| && (init + [k])[i].Row? ==>
              m[k.source := k.target][(init + [k])[i].source] == (init + [k])[i].target
  {
    var ks := init + [k];
    assert forall i :: 0 <= i < |init| ==> ks[i] == init[i];
    assert ks[|init|] == k;
    assert forall i :: 0 <= i < |init| && init[i].Row? ==> init[i].source in Sources(init);
    assert Sources(ks) == Sources(init) + {k.source};
  }

  /** An ignored or skipped line leaves the table as it is. */
  lemma NonRowKeeps(init: seq<LineKind>, k: LineKind, m: map<string, ParsedType>)
    requires WellFormed(init) && DistinctSources(init) && m.Keys == Sources(init)
    requires forall i :: 0 <= i < |init| && init[i].Row? ==> m[init[i].source] == init[i].target
    requires k.Ignored? || k.SkippedRow?
    ensures WellFormed(init + [k]) && DistinctSources(init + [k])
    ensures m.Keys == Sources(init + [k])
    ensures forall i :: 0 <= i < |init + [k]| && (init + [k])[i].Row? ==> m[(init + [k])[i].source] == (init + [k])[i].target
  {
    var ks := init + [k];
    assert forall i :: 0 <= i < |init| ==> ks[i] == init[i];
    assert ks[|init|] == k;
    assert Sources(ks) == Sources(init);
  }

  /** Once reading has failed, the lines so far already break the condition. */
  lemma BuildErrStep(init: seq<LineKind>, k: LineKind)
    requires Build(init).Err? && !(WellFormed(init) && DistinctSources(init))
    ensures Build(init + [k]).Err? && !(WellFormed(init + [k]) && DistinctSources(init + [k]))
  {
    BuildLast(init, k);
    var ks := init + [k];
    assert forall i :: 0 <= i < |init| ==> ks[i] == init[i];
    if !WellFormed(init) {
      var i :| 0 <= i < |init| && init[i].Malformed?;
      assert ks[i].Malformed?;
    } else {
      var i, j :| 0 <= i < j < |init| && init[i].Row? && init[j].Row? && init[i].source == init[j].source;
      assert ks[i] == init[i] && ks[j] == init[j];
    }
  }

  /** A comment after the columns changes nothing. */
  lemma TrailingCommentIgnored(sig: string -> TypeSignature, line: string, comment: string)
    requires line != [] && '#' !in line && !IsWhiteSpaceOnly(line)
    ensures ClassifyLine(sig, line + "#" + comment) == ClassifyLine(sig, line)
  {
    var full := line + "#" + comment;
    assert full[..|line|] == line;
    assert full[|line|] == '#';
    assert IndexOfChar(full, '#') == |line|;
    assert Uncommented(full) == line;
    assert !StartsWith(full, "#") by { assert full[0] == line[0]; }
    assert !IsWhiteSpaceOnly(full) by {
      var j :| 0 <= j < |line| && !IsWhiteSpace(line[j]);
      assert full[j] == line[j];
    }
  }

  /** A comment line or a blank line, wherever it stands among the lines,
      adds nothing to the table and causes no failure. */
  lemma CommentAndBlankLinesIgnored(sig: string -> TypeSignature, lines: seq<string>, i: nat, line: string)
    requires i <= |lines|
    requires StartsWith(line, "#") || IsWhiteSpaceOnly(line)
    ensures Build(Classify(sig, lines[..i] + [line] + lines[i..])) == Build(Classify(sig, lines))
  {
    var ks := Classify(sig, lines);
    assert ClassifyLine(sig, line) == Ignored;
    ClassifyInsert(sig, lines, i, line);
    BuildSkipsIgnored(ks, i);
  }

  /** Classifying is line by line: inserting a line inserts its class. */
  lemma ClassifyInsert(sig: string -> TypeSignature, lines: seq<string>, i: nat, line: string)
    requires i <= |lines|
    ensures Classify(sig, lines[..i] + [line] + lines[i..])
         == Classify(sig, lines)[..i] + [ClassifyLine(sig, line)] + Classify(sig, lines)[i..]
  {
    var ks := Classify(sig, lines);
    var longer := lines[..i] + [line] + lines[i..];
    var expected := ks[..i] + [ClassifyLine(sig, line)] + ks[i..];
    var got := Classify(sig, longer);
    forall k | 0 <= k < |longer| ensures got[k] == expected[k] {
      if k < i {
        assert longer[k] == lines[k];
      } else if k > i {
        assert longer[k] == lines[k - 1];
      }
    }
  }

  /** An `Ignored` entry at any position leaves the built table as it is. */
  lemma {:induction false} BuildSkipsIgnored(ks: seq<LineKind>, i: nat)
    requires i <= |ks|
    ensures Build(ks[..i] + [Ignored] + ks[i..]) == Build(ks)
    decreases |ks| - i
  {
    var longer := ks[..i] + [Ignored] + ks[i..];
    if i == |ks| {
      assert longer[..|longer| - 1] == ks;
    } else {
      var init := ks[..|ks| - 1];
      BuildSkipsIgnored(init, i);
      assert longer[..|longer| - 1] == init[..i] + [Ignored] + init[i..];
      assert longer[|longer| - 1] == ks[|ks| - 1];
    }
  }

  /** A line with no comment that starts with a visible character is
      classified by its columns alone. */
  lemma PlainLine(sig: string -> TypeSignature, line: string)
    requires line != [] && !IsWhiteSpace(line[0]) && '#' !in line
    ensures ClassifyLine(sig, line) == ClassifyColumns(sig, SplitNonEmpty(line, ','))
  {
    assert Uncommented(line) == line;
    assert line[..1] != "#";
  }

  /** A column text: not empty, and neither a comma nor a `#` in it. */
  predicate Column(c: string) {
    c != [] && ',' !in c && '#' !in c
  }

  /** Three columns are malformed. */
  lemma ThreeColumnsMalformed(sig: string -> TypeSignature, a: string, b: string, c: string)
    requires Column(a) && Column(b) && Column(c) && !IsWhiteSpace(a[0])
    ensures ClassifyLine(sig, a + "," + b + "," + c).Malformed?
  {
    var line := a + "," + b + "," + c;
    assert |SplitNonEmpty(line, ',')| == 3 by {
      SplitOnNone(c, ',');
      SplitOnFirst(b, c, ',');
      var tail := SplitOn(b + [','] + c, ',');
      assert tail == [b, c];
      assert line == a + [','] + (b + [','] + c);
      SplitOnFirst(a, b + [','] + c, ',');
      var parts := SplitOn(line, ',');
      assert parts == [a] + tail;
      assert RemoveEmpty(tail[1..]) == [c];
      assert RemoveEmpty(tail) == tail;
      assert RemoveEmpty(parts) == parts;
    }
    assert line[0] == a[0];
    PlainLine(sig, line);
  }

  lemma TwoColumnsSplit(a: string, b: string)
    requires Column(a) && Column(b)
    ensures SplitNonEmpty(a + "," + b, ',') == [a, b]
  {
    SplitOnNone(b, ',');
    assert a + "," + b == a + [','] + b;
    SplitOnFirst(a, b, ',');
    assert RemoveEmpty([a, b][1..]) == [b];
  }

  lemma DoubleCommaSplit(a: string, b: string)
    requires Column(a) && Column(b)
    ensures SplitNonEmpty(a + ",," + b, ',') == [a, b]
  {
    SplitOnNone(b, ',');
    SplitOnFirst([], b, ',');
    assert a + ",," + b == a + [','] + ([] + [','] + b);
    SplitOnFirst(a, [] + [','] + b, ',');
    var parts := SplitOn(a + ",," + b, ',');
    assert parts == [a, [], b];
    assert RemoveEmpty(parts[2..]) == [b];
    assert RemoveEmpty(parts[1..]) == [b];
  }

  /** An empty middle column is dropped, so two commas in a row read like one. */
  lemma EmptyColumnDropped(sig: string -> TypeSignature, a: string, b: string)
    requires Column(a) && Column(b) && !IsWhiteSpace(a[0])
    ensures ClassifyLine(sig, a + ",," + b) == ClassifyLine(sig, a + "," + b)
    ensures !ClassifyLine(sig, a + ",," + b).Malformed?
  {
    var line := a + ",," + b;
    var one := a + "," + b;
    DoubleCommaSplit(a, b);
    TwoColumnsSplit(a, b);
    assert line[0] == a[0] && one[0] == a[0];
    PlainLine(sig, line);
    PlainLine(sig, one);
  }
}

=== FILE: parsed_types.dfy ===
/** The values the type-projection and type-mapping stages exchange. */
module ParsedTypes {
  import opened Wrappers

  /** A base type name and the number of pointer levels on it (a C# `int`,
      which the type itself does not keep non-negative). */
  datatype ParsedType = ParsedType(typeName: string, pointerLevels: int)

  /** A parsed type with the group it is drawn from, if any. */
  datatype ParsedGroupedType = ParsedGroupedType(parsedType: ParsedType, groupName: Option<string>) {
    /** `Deconstruct(out type, out groupName)`: gives back both fields. */
    function Deconstruct(): (r: (ParsedType, Option<string>))
      ensures ParsedGroupedType(r.0, r.1) == this
    {
      (parsedType, groupName)
    }
  }

  /** Whether a parameter is read by the callee or written through. */
  datatype FlowDirection = In | Out

  datatype ParsedFunctionParameter = ParsedFunctionParameter(name: string, paramType: ParsedGroupedType, flow: FlowDirection)

  /** A function with its parameters in declaration order. */
  datatype ParsedFunctionDefinition = ParsedFunctionDefinition(name: string, returnType: ParsedGroupedType, parameters: seq<ParsedFunctionParameter>)
}

=== FILE: pipeline.dfy ===
/** The front of the binding generator: read the registry, resolve the
    features of the configured API, then prune the groups. */
module Pipeline {
  import opened Wrappers
  import opened Xml
  import opened GLXmlDefinitions
  import Reader = GLXmlReader
  import Features = PruneEnumsAndFunctions
  import Groups = PruneGroups

  /** The definitions the writer receives. */
  function Pruned(settings: Reader.GeneratorSettings, document: Option<Element>): Result<Definitions> {
    if document.None? then Err(FileNotFound)
    else
      match Reader.RegistryOf(settings, document.value)
      case Err(err) => Err(err)
      case Ok(data) =>
        match Features.PruneResult(data)
        case Err(err) => Err(err)
        case Ok(resolved) =>
          Ok(Definitions(resolved.enumValues, Groups.PrunedGroups(resolved.groups, resolved.enumValues),
                         resolved.functions, resolved.features))
  }

  /** `GenerateBindings` up to the writer. */
  method GenerateBindings(settings: Reader.GeneratorSettings, document: Option<Element>) returns (r: Result<Definitions>)
    ensures r == Pruned(settings, document)
  {
    var data := Reader.ParseXmlRegistry(settings, document);
    if data.Err? {
      return Err(data.error);
    }
    var resolved := Features.Prune(data.value);
    if resolved.Err? {
      return Err(resolved.error);
    }
    var pruned := Groups.Prune(resolved.value);
    return Ok(pruned);
  }

  /** What the writer can rely on: every group is non-empty and holds only
      enums that are defined, every enum and command is the one the registry
      declares under that name, every command sits under its own name, and
      every feature has a well-formed version. */
  lemma PrunedIntegrity(settings: Reader.GeneratorSettings, root: Element)
    requires Pruned(settings, Some(root)).Ok?
    ensures var data := Reader.RegistryOf(settings, root).value;
            var d := Pruned(settings, Some(root)).value;
            (forall g :: g in d.groups ==> d.groups[g].enums != {} && d.groups[g].enums <= d.enumValues.Keys)
            && (forall n :: n in d.enumValues ==> n in data.enumValues && d.enumValues[n] == data.enumValues[n])
            && (forall n :: n in d.functions ==> n in data.functions && d.functions[n] == data.functions[n])
            && (forall n :: n in d.functions ==> d.functions[n].name == n)
            && (forall k :: 0 <= k < |d.features| ==> d.features[k].version.Valid())
  {
    var data := Reader.RegistryOf(settings, root).value;
    Reader.RegistryCharacterization(settings, root);
    Features.PruneCharacterization(data);
    var resolved := Features.PruneResult(data).value;
    Groups.PrunedGroupsClosed(resolved.groups, resolved.enumValues);
  }
}

=== FILE: prune_enums_and_functions.dfy ===
/** `PruneEnumsAndFunctions`: resolves the features of one API, in version
    order, into the enums and commands that API exposes. */
module PruneEnumsAndFunctions {
  import opened Wrappers
  import opened Versions
  import opened Tables
  import opened GLXmlDefinitions

  // ---------------------------------------------------------------- order

  /** No feature comes after one with a greater version. */
  predicate Sorted(fs: seq<FeatureDefinition>) {
    forall i, j :: 0 <= i < j < |fs| ==> !Less(fs[j].version, fs[i].version)
  }

  /** The features with version `v`, in order. */
  function WithVersion(fs: seq<FeatureDefinition>, v: Version): seq<FeatureDefinition> {
    if fs == [] then []
    else (if fs[0].version == v then [fs[0]] else []) + WithVersion(fs[1..], v)
  }

  /** Places `x` after every feature whose version is not greater. */
  function Insert(x: FeatureDefinition, s: seq<FeatureDefinition>): (r: seq<FeatureDefinition>)
    ensures |r| == |s| + 1
    ensures multiset(r) == multiset(s) + multiset{x}
    ensures forall k :: 0 <= k < |r| ==> r[k] == x || r[k] in s
  {
    if s == [] then [x]
    else if Less(x.version, s[0].version) then [x] + s
    else
      assert s == [s[0]] + s[1..];
      [s[0]] + Insert(x, s[1..])
  }

  /** `features.OrderBy(f => f.Version)`: a stable sort by version. */
  function SortByVersion(fs: seq<FeatureDefinition>): (r: seq<FeatureDefinition>)
    ensures |r| == |fs|
  {
    if fs == [] then [] else Insert(fs[|fs| - 1], SortByVersion(fs[..|fs| - 1]))
  }

  lemma {:induction false} WithVersionAppend(s: seq<FeatureDefinition>, t: seq<FeatureDefinition>, v: Version)
    ensures WithVersion(s + t, v) == WithVersion(s, v) + WithVersion(t, v)
  {
    if s != [] {
      assert (s + t)[0] == s[0];
      assert (s + t)[1..] == s[1..] + t;
      WithVersionAppend(s[1..], t, v);
      var h := if s[0].version == v then [s[0]] else [];
      assert WithVersion(s, v) == h + WithVersion(s[1..], v);
      assert WithVersion(s + t, v) == h + WithVersion(s[1..] + t, v);
    } else {
      assert s + t == t;
    }
  }

  /** Features all greater than `v` have none of version `v`. */
  lemma {:induction false} NoneWithVersion(s: seq<FeatureDefinition>, v: Version)
    requires forall k :: 0 <= k < |s| ==> Less(v, s[k].version)
    ensures WithVersion(s, v) == []
  {
    if s != [] {
      LessIsStrictTotalOrder(v, v, v);
      NoneWithVersion(s[1..], v);
    }
  }

  /** Every feature of a sorted sequence is at least its first one. */
  lemma AboveFirst(x: FeatureDefinition, s: seq<FeatureDefinition>)
    requires Sorted(s) && s != [] && Less(x.version, s[0].version)
    ensures forall k :: 0 <= k < |s| ==> Less(x.version, s[k].version) && !Less(s[k].version, x.version)
  {
    forall k | 0 <= k < |s| ensures Less(x.version, s[k].version) && !Less(s[k].version, x.version) {
      LessIsStrictTotalOrder(x.version, s[0].version, s[k].version);
      LessIsStrictTotalOrder(x.version, s[k].version, x.version);
    }
  }

  /** Inserting keeps the sequence sorted. */
  lemma {:induction false} InsertSorted(x: FeatureDefinition, s: seq<FeatureDefinition>)
    requires Sorted(s)
    ensures Sorted(Insert(x, s))
  {
    if s == [] {
    } else if Less(x.version, s[0].version) {
      AboveFirst(x, s);
    } else {
      var t := s[1..];
      InsertSorted(x, t);
      var r := Insert(x, t);
      LessIsStrictTotalOrder(x.version, s[0].version, x.version);
      forall k | 0 <= k < |r| ensures !Less(r[k].version, s[0].version) {
        if r[k] != x {
          var j :| 0 <= j < |t| && t[j] == r[k];
          assert s[j + 1] == t[j];
        }
      }
      assert Insert(x, s) == [s[0]] + r;
    }
  }

  /** Inserting appends `x` to the features of its own version and leaves
      the other versions alone. */
  lemma {:induction false} InsertWithVersion(x: FeatureDefinition, s: seq<FeatureDefinition>, v: Version)
    requires Sorted(s)
    ensures WithVersion(Insert(x, s), v) == WithVersion(s, v) + (if x.version == v then [x] else [])
  {
    if s == [] {
    } else if Less(x.version, s[0].version) {
      InsertFirstWithVersion(x, s, v);
    } else {
      InsertWithVersion(x, s[1..], v);
      InsertLaterWithVersion(x, s, v);
    }
  }

  lemma InsertFirstWithVersion(x: FeatureDefinition, s: seq<FeatureDefinition>, v: Version)
    requires Sorted(s) && s != [] && Less(x.version, s[0].version)
    ensures WithVersion(Insert(x, s), v) == WithVersion(s, v) + (if x.version == v then [x] else [])
  {
    AboveFirst(x, s);
    if x.version == v {
      NoneWithVersion(s, v);
    }
    assert Insert(x, s) == [x] + s;
    assert ([x] + s)[1..] == s;
  }

  lemma InsertLaterWithVersion(x: FeatureDefinition, s: seq<FeatureDefinition>, v: Version)
    requires s != [] && !Less(x.version, s[0].version)
    requires WithVersion(Insert(x, s[1..]), v) == WithVersion(s[1..], v) + (if x.version == v then [x] else [])
    ensures WithVersion(Insert(x, s), v) == WithVersion(s, v) + (if x.version == v then [x] else [])
  {
    InsertLater(x, s);
    ConsWithVersion(s[0], Insert(x, s[1..]), s[1..], v, if x.version == v then [x] else []);
    assert s == [s[0]] + s[1..];
  }

  /** `x` goes after a first feature whose version is not greater. */
  lemma InsertLater(x: FeatureDefinition, s: seq<FeatureDefinition>)
    requires s != [] && !Less(x.version, s[0].version)
    ensures Insert(x, s) == [s[0]] + Insert(x, s[1..])
  {
  }

  /** Putting the same feature in front of two sequences keeps how their
      features of version `v` differ. */
  lemma ConsWithVersion(y: FeatureDefinition, r: seq<FeatureDefinition>, t: seq<FeatureDefinition>, v: Version, added: seq<FeatureDefinition>)
    requires WithVersion(r, v) == WithVersion(t, v) + added
    ensures WithVersion([y] + r, v) == WithVersion([y] + t, v) + added
  {
    var h := if y.version == v then [y] else [];
    assert ([y] + r)[1..] == r;
    assert ([y] + t)[1..] == t;
    assert h + (WithVersion(t, v) + added) == (h + WithVersion(t, v)) + added;
  }

  /** Features are applied in ascending version order, and features of the
      same version keep their document order: the sort is stable. */
  lemma {:induction false} SortByVersionCorrect(fs: seq<FeatureDefinition>)
    ensures Sorted(SortByVersion(fs))
    ensures multiset(SortByVersion(fs)) == multiset(fs)
    ensures forall v :: WithVersion(SortByVersion(fs), v) == WithVersion(fs, v)
  {
    if fs != [] {
      var init := fs[..|fs| - 1];
      var x := fs[|fs| - 1];
      assert fs == init + [x];
      SortByVersionCorrect(init);
      InsertSorted(x, SortByVersion(init));
      InsertKeepsVersions(x, init, SortByVersion(init));
    }
  }

  /** Inserting the next feature into the sorted features so far keeps, for
      every version, the features of that version in their original order. */
  lemma InsertKeepsVersions(x: FeatureDefinition, init: seq<FeatureDefinition>, sorted: seq<FeatureDefinition>)
    requires Sorted(sorted) && forall v :: WithVersion(sorted, v) == WithVersion(init, v)
    ensures forall v :: WithVersion(Insert(x, sorted), v) == WithVersion(init + [x], v)
  {
    forall v ensures WithVersion(Insert(x, sorted), v) == WithVersion(init + [x], v) {
      InsertWithVersion(x, sorted, v);
      WithVersionAppend(init, [x], v);
    }
  }

  // ---------------------------------------------------------------- resolution

  /** The enum and command tables being built. */
  datatype Resolved = Resolved(enums: map<string, EnumValueDefinition>, functions: map<string, FunctionDefinition>)

  /** The names one table holds. */
  function Keys(s: Resolved, t: FeatureElementType): set<string> {
    match t
    case Enum => s.enums.Keys
    case Function => s.functions.Keys
  }

  /** Every entry is the registry's own entry under that name. */
  predicate Drawn(data: Definitions, s: Resolved) {
    (forall n :: n in s.enums ==> n in data.enumValues && s.enums[n] == data.enumValues[n])
    && (forall n :: n in s.functions ==> n in data.functions && s.functions[n] == data.functions[n])
  }

  /** The names of the elements of kind `t`. */
  function Mentioned(es: seq<FeatureElement>, t: FeatureElementType): set<string> {
    if es == [] then {}
    else Mentioned(es[..|es| - 1], t) + (if es[|es| - 1].elementType == t then {es[|es| - 1].name} else {})
  }

  /** Every addition names an entry of the registry's table of its kind. */
  predicate Known(data: Definitions, es: seq<FeatureElement>) {
    forall e :: e in es ==>
      (e.elementType == Enum ==> e.name in data.enumValues)
      && (e.elementType == Function ==> e.name in data.functions)
  }

  /** One addition: a name already present is kept as it is; otherwise the
      registry's entry is looked up, and a missing one fails. */
  function Admit(data: Definitions, s: Resolved, e: FeatureElement): (r: Result<Resolved>)
    ensures r.Ok? <==> e.name in Keys(s, e.elementType) || Known(data, [e])
    ensures e.name in Keys(s, e.elementType) ==> r == Ok(s)
    ensures r.Err? ==> r.error == KeyNotFound(e.name)
    ensures r.Ok? ==> Keys(r.value, e.elementType) == Keys(s, e.elementType) + {e.name}
    ensures r.Ok? && e.elementType == Enum ==>
              r.value.functions == s.functions
              && (forall n :: n in s.enums ==> r.value.enums[n] == s.enums[n])
              && (e.name !in s.enums ==> r.value.enums[e.name] == data.enumValues[e.name])
    ensures r.Ok? && e.elementType == Function ==>
              r.value.enums == s.enums
              && (forall n :: n in s.functions ==> r.value.functions[n] == s.functions[n])
              && (e.name !in s.functions ==> r.value.functions[e.name] == data.functions[e.name])
  {
    match e.elementType
    case Enum =>
      if e.name in s.enums then Ok(s)
      else if e.name in data.enumValues then Ok(s.(enums := s.enums[e.name := data.enumValues[e.name]]))
      else Err(KeyNotFound(e.name))
    case Function =>
      if e.name in s.functions then Ok(s)
      else if e.name in data.functions then Ok(s.(functions := s.functions[e.name := data.functions[e.name]]))
      else Err(KeyNotFound(e.name))
  }

  /** One removal: the name leaves the table of its kind, if it is there. */
  function Withdraw(s: Resolved, e: FeatureElement): (r: Resolved)
    ensures Keys(r, e.elementType) == Keys(s, e.elementType) - {e.name}
    ensures e.name !in Keys(s, e.elementType) ==> r == s
    ensures e.elementType == Enum ==> r.functions == s.functions
    ensures e.elementType == Function ==> r.enums == s.enums
    ensures forall n :: n in r.enums ==> n in s.enums && r.enums[n] == s.enums[n]
    ensures forall n :: n in r.functions ==> n in s.functions && r.functions[n] == s.functions[n]
  {
    match e.elementType
    case Enum => s.(enums := s.enums - {e.name})
    case Function => s.(functions := s.functions - {e.name})
  }

  function ApplyAdditions(data: Definitions, s: Resolved, es: seq<FeatureElement>): Result<Resolved> {
    Fold((acc, e) => Admit(data, acc, e), s, es)
  }

  function ApplyRemovals(s: Resolved, es: seq<FeatureElement>): Resolved {
    if es == [] then s else Withdraw(ApplyRemovals(s, es[..|es| - 1]), es[|es| - 1])
  }

  /** One more removal. */
  lemma RemovalsNext(s: Resolved, es: seq<FeatureElement>, j: nat)
    requires j < |es|
    ensures ApplyRemovals(s, es[..j + 1]) == Withdraw(ApplyRemovals(s, es[..j]), es[j])
  {
    assert es[..j + 1][..j] == es[..j];
  }

  /** One feature: all its additions, then all its removals. */
  function ApplyFeature(data: Definitions, s: Resolved, f: FeatureDefinition): Result<Resolved> {
    match ApplyAdditions(data, s, f.additions)
    case Err(err) => Err(err)
    case Ok(t) => Ok(ApplyRemovals(t, f.removals))
  }

  /** The features applied in the given order, from empty tables. */
  function Resolve(data: Definitions, fs: seq<FeatureDefinition>): Result<Resolved> {
    Fold((s, f) => ApplyFeature(data, s, f), Resolved(map[], map[]), fs)
  }

  /** `Prune`'s result: the resolved tables, with the groups and the features
      passed through. */
  function PruneResult(data: Definitions): Result<Definitions> {
    match Resolve(data, SortByVersion(data.features))
    case Err(err) => Err(err)
    case Ok(s) => Ok(Definitions(s.enums, data.groups, s.functions, data.features))
  }

  /** `Prune`. */
  method Prune(data: Definitions) returns (r: Result<Definitions>)
    ensures r == PruneResult(data)
  {
    var features := SortByVersion(data.features);
    ghost var applyFeature := (s, f) => ApplyFeature(data, s, f);
    ghost var admit := (acc, e) => Admit(data, acc, e);
    var newEnumValues: map<string, EnumValueDefinition> := map[];
    var newFunctions: map<string, FunctionDefinition> := map[];
    var n := 0;
    while n < |features|
      invariant 0 <= n <= |features|
      invariant Resolve(data, features[..n]) == Ok(Resolved(newEnumValues, newFunctions))
    {
      FoldNext(applyFeature, Resolved(map[], map[]), features, n, Resolved(newEnumValues, newFunctions));
      var feature := features[n];
      n := n + 1;
      ghost var before := Resolved(newEnumValues, newFunctions);
      var additions := feature.additions;
      var k := 0;
      while k < |additions|
        invariant 0 <= k <= |additions|
        invariant ApplyAdditions(data, before, additions[..k]) == Ok(Resolved(newEnumValues, newFunctions))
      {
        FoldNext(admit, before, additions, k, Resolved(newEnumValues, newFunctions));
        var addition := additions[k];
        k := k + 1;
        match addition.elementType {
          case Enum =>
            if addition.name !in newEnumValues {
              if addition.name !in data.enumValues {
                FoldFailureStays(admit, before, additions, k);
                FoldFailureStays(applyFeature, Resolved(map[], map[]), features, n);
                return Err(KeyNotFound(addition.name));
              }
              newEnumValues := newEnumValues[addition.name := data.enumValues[addition.name]];
            }
          case Function =>
            if addition.name !in newFunctions {
              if addition.name !in data.functions {
                FoldFailureStays(admit, before, additions, k);
                FoldFailureStays(applyFeature, Resolved(map[], map[]), features, n);
                return Err(KeyNotFound(addition.name));
              }
              newFunctions := newFunctions[addition.name := data.functions[addition.name]];
            }
        }
      }
      assert additions[..k] == additions;
      ghost var added := Resolved(newEnumValues, newFunctions);
      var removals := feature.removals;
      var j := 0;
      while j < |removals|
        invariant 0 <= j <= |removals|
        invariant ApplyRemovals(added, removals[..j]) == Resolved(newEnumValues, newFunctions)
      {
        var removal := removals[j];
        RemovalsNext(added, removals, j);
        j := j + 1;
        match removal.elementType {
          case Enum =>
            newEnumValues := newEnumValues - {removal.name};
          case Function =>
            newFunctions := newFunctions - {removal.name};
        }
      }
      assert removals[..j] == removals;
    }
    assert features[..n] == features;
    return Ok(Definitions(newEnumValues, data.groups, newFunctions, data.features));
  }

  // ---------------------------------------------------------------- properties

  /** A name of kind `t` survives the features `fs`, applied in order, when
      some feature adds it and neither that feature nor a later one removes it. */
  predicate Survives(fs: seq<FeatureDefinition>, t: FeatureElementType, n: string) {
    exists i :: 0 <= i < |fs| && n in Mentioned(fs[i].additions, t)
      && forall j :: i <= j < |fs| ==> n !in Mentioned(fs[j].removals, t)
  }

  /** Every feature adds only names the registry defines. */
  predicate AllKnown(data: Definitions, fs: seq<FeatureDefinition>) {
    forall i :: 0 <= i < |fs| ==> Known(data, fs[i].additions)
  }

  lemma MentionedAppend(es: seq<FeatureElement>, e: FeatureElement, t: FeatureElementType)
    ensures Mentioned(es + [e], t) == Mentioned(es, t) + (if e.elementType == t then {e.name} else {})
  {
    assert (es + [e])[..|es|] == es;
  }

  lemma KnownAppend(data: Definitions, es: seq<FeatureElement>, e: FeatureElement)
    ensures Known(data, es + [e]) <==> Known(data, es) && Known(data, [e])
  {
  }

  /** One addition keeps the tables drawn from the registry and adds its name
      to the table of its kind. */
  lemma AdmitMeaning(data: Definitions, s: Resolved, e: FeatureElement)
    requires Drawn(data, s)
    ensures Admit(data, s, e).Ok? <==> Known(data, [e])
    ensures Admit(data, s, e).Ok? ==> Drawn(data, Admit(data, s, e).value)
    ensures Admit(data, s, e).Ok? ==> Admit(data, s, e).value.enums.Keys == s.enums.Keys + Mentioned([e], Enum)
    ensures Admit(data, s, e).Ok? ==> Admit(data, s, e).value.functions.Keys == s.functions.Keys + Mentioned([e], Function)
  {
    MentionedSingle(e, Enum);
    MentionedSingle(e, Function);
    if e.name in Keys(s, e.elementType) {
      assert e.name in Mentioned([e], e.elementType);
    } else if e.elementType == Enum {
      AdmitNewEnum(data, s, e);
    } else {
      AdmitNewFunction(data, s, e);
    }
  }

  lemma AdmitNewEnum(data: Definitions, s: Resolved, e: FeatureElement)
    requires Drawn(data, s) && e.elementType == Enum && e.name !in s.enums
    ensures Admit(data, s, e).Ok? <==> e.name in data.enumValues
    ensures Admit(data, s, e).Ok? ==> Admit(data, s, e).value == s.(enums := s.enums[e.name := data.enumValues[e.name]])
    ensures Admit(data, s, e).Ok? ==> Drawn(data, Admit(data, s, e).value)
  {
  }

  lemma AdmitNewFunction(data: Definitions, s: Resolved, e: FeatureElement)
    requires Drawn(data, s) && e.elementType == Function && e.name !in s.functions
    ensures Admit(data, s, e).Ok? <==> e.name in data.functions
    ensures Admit(data, s, e).Ok? ==> Admit(data, s, e).value == s.(functions := s.functions[e.name := data.functions[e.name]])
    ensures Admit(data, s, e).Ok? ==> Drawn(data, Admit(data, s, e).value)
  {
  }

  lemma MentionedSingle(e: FeatureElement, t: FeatureElementType)
    ensures Mentioned([e], t) == (if e.elementType == t then {e.name} else {})
  {
    MentionedAppend([], e, t);
    assert [] + [e] == [e];
  }

  /** One more addition after tables that hold the names added so far. */
  lemma AdmitExtends(data: Definitions, s: Resolved, init: seq<FeatureElement>, e: FeatureElement, r: Resolved)
    requires Drawn(data, r)
    requires r.enums.Keys == s.enums.Keys + Mentioned(init, Enum)
    requires r.functions.Keys == s.functions.Keys + Mentioned(init, Function)
    ensures Admit(data, r, e).Ok? <==> Known(data, [e])
    ensures Admit(data, r, e).Ok? ==> Drawn(data, Admit(data, r, e).value)
    ensures Admit(data, r, e).Ok? ==> Admit(data, r, e).value.enums.Keys == s.enums.Keys + Mentioned(init + [e], Enum)
    ensures Admit(data, r, e).Ok? ==> Admit(data, r, e).value.functions.Keys == s.functions.Keys + Mentioned(init + [e], Function)
  {
    AdmitMeaning(data, r, e);
    if Admit(data, r, e).Ok? {
      var a := Admit(data, r, e).value;
      MentionedAppend(init, e, Enum);
      MentionedSingle(e, Enum);
      UnionStep(a.enums.Keys, r.enums.Keys, s.enums.Keys, Mentioned(init, Enum), Mentioned([e], Enum), Mentioned(init + [e], Enum));
      MentionedAppend(init, e, Function);
      MentionedSingle(e, Function);
      UnionStep(a.functions.Keys, r.functions.Keys, s.functions.Keys, Mentioned(init, Function), Mentioned([e], Function), Mentioned(init + [e], Function));
    }
  }

  lemma UnionStep(a: set<string>, r: set<string>, s: set<string>, m: set<string>, x: set<string>, mx: set<string>)
    requires a == r + x && r == s + m && mx == m + x
    ensures a == s + mx
  {
  }

  /** The additions so far, then one more. */
  lemma AdditionsLast(data: Definitions, s: Resolved, init: seq<FeatureElement>, e: FeatureElement)
    ensures ApplyAdditions(data, s, init + [e]) ==
              match ApplyAdditions(data, s, init) case Err(err) => Err(err) case Ok(m) => Admit(data, m, e)
  {
    assert (init + [e])[..|init|] == init;
  }

  /** The additions of one feature succeed exactly when each names an entry
      the registry defines, and they add exactly the names they mention. */
  lemma {:induction false} AdditionsCharacterization(data: Definitions, s: Resolved, es: seq<FeatureElement>)
    requires Drawn(data, s)
    ensures ApplyAdditions(data, s, es).Ok? <==> Known(data, es)
    ensures ApplyAdditions(data, s, es).Ok? ==> Drawn(data, ApplyAdditions(data, s, es).value)
    ensures ApplyAdditions(data, s, es).Ok? ==> ApplyAdditions(data, s, es).value.enums.Keys == s.enums.Keys + Mentioned(es, Enum)
    ensures ApplyAdditions(data, s, es).Ok? ==> ApplyAdditions(data, s, es).value.functions.Keys == s.functions.Keys + Mentioned(es, Function)
    decreases |es|
  {
    if es != [] {
      var init := es[..|es| - 1];
      var e := es[|es| - 1];
      assert es == init + [e];
      AdditionsCharacterization(data, s, init);
      KnownAppend(data, init, e);
      AdditionsLast(data, s, init, e);
      if ApplyAdditions(data, s, init).Ok? {
        AdmitExtends(data, s, init, e, ApplyAdditions(data, s, init).value);
      }
    }
  }

  /** The removals of one feature take out exactly the names they mention. */
  lemma {:induction false} RemovalsCharacterization(data: Definitions, s: Resolved, es: seq<FeatureElement>)
    requires Drawn(data, s)
    ensures Drawn(data, ApplyRemovals(s, es))
    ensures ApplyRemovals(s, es).enums.Keys == s.enums.Keys - Mentioned(es, Enum)
    ensures ApplyRemovals(s, es).functions.Keys == s.functions.Keys - Mentioned(es, Function)
    decreases |es|
  {
    if es != [] {
      var init := es[..|es| - 1];
      RemovalsCharacterization(data, s, init);
    }
  }

  /** Appending a feature: a name survives when it survived before or the
      feature adds it, and the feature does not remove it. */
  lemma SurvivesAppend(fs: seq<FeatureDefinition>, f: FeatureDefinition, t: FeatureElementType, n: string)
    ensures Survives(fs + [f], t, n) <==>
              (Survives(fs, t, n) || n in Mentioned(f.additions, t)) && n !in Mentioned(f.removals, t)
  {
    SurvivesAppendOnly(fs, f, t, n);
    SurvivesAppendIf(fs, f, t, n);
  }

  lemma SurvivesAppendOnly(fs: seq<FeatureDefinition>, f: FeatureDefinition, t: FeatureElementType, n: string)
    ensures Survives(fs + [f], t, n) ==>
              (Survives(fs, t, n) || n in Mentioned(f.additions, t)) && n !in Mentioned(f.removals, t)
  {
    var gs := fs + [f];
    if Survives(gs, t, n) {
      var i :| 0 <= i < |gs| && n in Mentioned(gs[i].additions, t)
        && forall j :: i <= j < |gs| ==> n !in Mentioned(gs[j].removals, t);
      assert n !in Mentioned(gs[|fs|].removals, t);
      if i < |fs| {
        assert forall j :: i <= j < |fs| ==> gs[j] == fs[j];
      }
    }
  }

  lemma SurvivesAppendIf(fs: seq<FeatureDefinition>, f: FeatureDefinition, t: FeatureElementType, n: string)
    ensures (Survives(fs, t, n) || n in Mentioned(f.additions, t)) && n !in Mentioned(f.removals, t) ==>
              Survives(fs + [f], t, n)
  {
    var gs := fs + [f];
    if Survives(fs, t, n) && n !in Mentioned(f.removals, t) {
      var i :| 0 <= i < |fs| && n in Mentioned(fs[i].additions, t)
        && forall j :: i <= j < |fs| ==> n !in Mentioned(fs[j].removals, t);
      assert gs[i] == fs[i];
      assert forall j :: i <= j < |gs| ==> n !in Mentioned(gs[j].removals, t);
    }
    if n in Mentioned(f.additions, t) && n !in Mentioned(f.removals, t) {
      assert gs[|fs|] == f;
    }
  }

  /** Resolving succeeds exactly when every addition names an entry the
      registry defines; each table then holds the registry's entries for
      exactly the names that survive. */
  lemma {:induction false} ResolveCharacterization(data: Definitions, fs: seq<FeatureDefinition>)
    ensures Resolve(data, fs).Ok? <==> AllKnown(data, fs)
    ensures Resolve(data, fs).Ok? ==> Drawn(data, Resolve(data, fs).value)
    ensures Resolve(data, fs).Ok? ==> forall n :: n in Resolve(data, fs).value.enums <==> Survives(fs, Enum, n)
    ensures Resolve(data, fs).Ok? ==> forall n :: n in Resolve(data, fs).value.functions <==> Survives(fs, Function, n)
    decreases |fs|
  {
    if fs != [] {
      var init := fs[..|fs| - 1];
      var f := fs[|fs| - 1];
      assert fs == init + [f];
      ResolveCharacterization(data, init);
      assert forall i :: 0 <= i < |init| ==> init[i] == fs[i];
      assert Resolve(data, fs) ==
        match Resolve(data, init) case Err(err) => Err(err) case Ok(s) => ApplyFeature(data, s, f);
      if Resolve(data, init).Ok? {
        ResolveStep(data, init, f, Resolve(data, init).value);
      } else {
        var i :| 0 <= i < |init| && !Known(data, init[i].additions);
        assert !Known(data, fs[i].additions);
      }
    }
  }

  /** One more feature, applied to the tables resolved so far. */
  lemma ResolveStep(data: Definitions, fs: seq<FeatureDefinition>, f: FeatureDefinition, s: Resolved)
    requires Drawn(data, s)
    requires forall n :: n in s.enums <==> Survives(fs, Enum, n)
    requires forall n :: n in s.functions <==> Survives(fs, Function, n)
    ensures ApplyFeature(data, s, f).Ok? <==> Known(data, f.additions)
    ensures ApplyFeature(data, s, f).Ok? ==> Drawn(data, ApplyFeature(data, s, f).value)
    ensures ApplyFeature(data, s, f).Ok? ==> forall n :: n in ApplyFeature(data, s, f).value.enums <==> Survives(fs + [f], Enum, n)
    ensures ApplyFeature(data, s, f).Ok? ==> forall n :: n in ApplyFeature(data, s, f).value.functions <==> Survives(fs + [f], Function, n)
  {
    AdditionsCharacterization(data, s, f.additions);
    if ApplyAdditions(data, s, f.additions).Ok? {
      RemovalsCharacterization(data, ApplyAdditions(data, s, f.additions).value, f.removals);
      forall n ensures n in ApplyFeature(data, s, f).value.enums <==> Survives(fs + [f], Enum, n) {
        SurvivesAppend(fs, f, Enum, n);
      }
      forall n ensures n in ApplyFeature(data, s, f).value.functions <==> Survives(fs + [f], Function, n) {
        SurvivesAppend(fs, f, Function, n);
      }
    }
  }

  /** A failed addition reports the name it looked up, and that name is
      missing from the registry. */
  lemma {:induction false} AdditionsFailure(data: Definitions, s: Resolved, es: seq<FeatureElement>)
    requires ApplyAdditions(data, s, es).Err?
    ensures exists e :: e in es && !Known(data, [e]) && ApplyAdditions(data, s, es).error == KeyNotFound(e.name)
    decreases |es|
  {
    var init := es[..|es| - 1];
    var e := es[|es| - 1];
    assert es == init + [e];
    assert ApplyAdditions(data, s, es) ==
      match ApplyAdditions(data, s, init) case Err(err) => Err(err) case Ok(m) => Admit(data, m, e);
    if ApplyAdditions(data, s, init).Err? {
      AdditionsFailure(data, s, init);
      var d :| d in init && !Known(data, [d]) && ApplyAdditions(data, s, init).error == KeyNotFound(d.name);
      assert d in es;
    } else {
      assert !Known(data, [e]) by {
        var m := ApplyAdditions(data, s, init).value;
        assert Admit(data, m, e).Err?;
      }
    }
  }

  /** A failed resolution reports a name some feature adds and the registry
      does not define. */
  lemma {:induction false} ResolveFailure(data: Definitions, fs: seq<FeatureDefinition>)
    requires Resolve(data, fs).Err?
    ensures exists i, e :: 0 <= i < |fs| && e in fs[i].additions && !Known(data, [e])
                           && Resolve(data, fs).error == KeyNotFound(e.name)
    decreases |fs|
  {
    var init := fs[..|fs| - 1];
    var f := fs[|fs| - 1];
    assert fs == init + [f];
    assert Resolve(data, fs) ==
      match Resolve(data, init) case Err(err) => Err(err) case Ok(s) => ApplyFeature(data, s, f);
    if Resolve(data, init).Err? {
      ResolveFailure(data, init);
      var i, e :| 0 <= i < |init| && e in init[i].additions && !Known(data, [e])
                  && Resolve(data, init).error == KeyNotFound(e.name);
      assert fs[i] == init[i];
    } else {
      var s := Resolve(data, init).value;
      AdditionsFailure(data, s, f.additions);
      var e :| e in f.additions && !Known(data, [e]) && ApplyAdditions(data, s, f.additions).error == KeyNotFound(e.name);
      assert fs[|fs| - 1] == f;
    }
  }

  /** Sequences that are permutations of each other hold the same features. */
  lemma SameElements(fs: seq<FeatureDefinition>, gs: seq<FeatureDefinition>)
    requires multiset(fs) == multiset(gs)
    ensures forall f :: f in fs <==> f in gs
  {
    forall f ensures f in fs <==> f in gs {
      assert f in fs <==> f in multiset(fs);
      assert f in gs <==> f in multiset(gs);
    }
  }

  lemma AllKnownOfSameElements(data: Definitions, fs: seq<FeatureDefinition>)
    requires forall f :: f in fs <==> f in data.features
    ensures AllKnown(data, fs) <==> forall f :: f in data.features ==> Known(data, f.additions)
  {
  }

  /** `Prune` succeeds exactly when every feature adds only names the
      registry defines, and otherwise reports such a name. On success the
      groups and features pass through; every kept enum and command is the
      registry's own entry; and a name is kept exactly when, with the
      features in version order, some feature adds it and neither that
      feature nor a later one removes it. */
  lemma PruneCharacterization(data: Definitions)
    ensures PruneResult(data).Ok? <==> forall f :: f in data.features ==> Known(data, f.additions)
    ensures PruneResult(data).Err? ==>
              exists f, e :: f in data.features && e in f.additions && !Known(data, [e])
                             && PruneResult(data).error == KeyNotFound(e.name)
    ensures PruneResult(data).Ok? ==>
              var r := PruneResult(data).value;
              r.groups == data.groups && r.features == data.features
              && (forall n :: n in r.enumValues ==> n in data.enumValues && r.enumValues[n] == data.enumValues[n])
              && (forall n :: n in r.functions ==> n in data.functions && r.functions[n] == data.functions[n])
              && (forall n :: n in r.enumValues <==> Survives(SortByVersion(data.features), Enum, n))
              && (forall n :: n in r.functions <==> Survives(SortByVersion(data.features), Function, n))
  {
    var fs := SortByVersion(data.features);
    SortByVersionCorrect(data.features);
    SameElements(fs, data.features);
    AllKnownOfSameElements(data, fs);
    ResolveCharacterization(data, fs);
    if Resolve(data, fs).Err? {
      ResolveFailure(data, fs);
      var i, e :| 0 <= i < |fs| && e in fs[i].additions && !Known(data, [e]) && Resolve(data, fs).error == KeyNotFound(e.name);
      assert fs[i] in data.features;
    } else {
    }
  }

  /** A name that a feature removes is absent unless a later feature adds it
      again; in particular a name added and removed by the last feature to
      mention it is absent. */
  lemma RemovedUnlessReadded(data: Definitions, fs: seq<FeatureDefinition>, i: int, t: FeatureElementType, n: string)
    requires Resolve(data, fs).Ok?
    requires 0 <= i < |fs| && n in Mentioned(fs[i].removals, t)
    requires forall j :: i < j < |fs| ==> n !in Mentioned(fs[j].additions, t)
    ensures n !in Keys(Resolve(data, fs).value, t)
  {
    ResolveCharacterization(data, fs);
    forall k | 0 <= k < |fs| && n in Mentioned(fs[k].additions, t)
      ensures k <= i && n in Mentioned(fs[i].removals, t)
    {
    }
  }

  /** The elements of kind `t`, in order. */
  function OfKind(es: seq<FeatureElement>, t: FeatureElementType): (r: seq<FeatureElement>)
    ensures forall k :: 0 <= k < |r| ==> r[k] in es
  {
    if es == [] then []
    else OfKind(es[..|es| - 1], t) + (if es[|es| - 1].elementType == t then [es[|es| - 1]] else [])
  }

  /** The features with every element of another kind than `t` dropped. */
  function OnlyKind(fs: seq<FeatureDefinition>, t: FeatureElementType): (r: seq<FeatureDefinition>)
    ensures |r| == |fs|
    ensures forall i :: 0 <= i < |fs| ==>
              r[i] == FeatureDefinition(fs[i].version, OfKind(fs[i].additions, t), OfKind(fs[i].removals, t))
  {
    seq(|fs|, i requires 0 <= i < |fs| =>
      FeatureDefinition(fs[i].version, OfKind(fs[i].additions, t), OfKind(fs[i].removals, t)))
  }

  /** The enum and command tables are independent: the enums resolved from
      the features are those resolved from their enum elements alone, and
      likewise for the commands. */
  lemma KindsIndependent(data: Definitions, fs: seq<FeatureDefinition>, t: FeatureElementType)
    requires Resolve(data, fs).Ok?
    ensures Resolve(data, OnlyKind(fs, t)).Ok?
    ensures t == Enum ==> Resolve(data, OnlyKind(fs, t)).value.enums == Resolve(data, fs).value.enums
    ensures t == Function ==> Resolve(data, OnlyKind(fs, t)).value.functions == Resolve(data, fs).value.functions
  {
    var gs := OnlyKind(fs, t);
    ResolveCharacterization(data, fs);
    ResolveCharacterization(data, gs);
    OnlyKindKnown(data, fs, t);
    var a, b := Resolve(data, gs).value, Resolve(data, fs).value;
    if t == Enum {
      forall n ensures n in a.enums <==> n in b.enums {
        OnlyKindSurvives(fs, t, n);
      }
      SameNamesSameTables(data, a, b);
    } else {
      forall n ensures n in a.functions <==> n in b.functions {
        OnlyKindSurvives(fs, t, n);
      }
      SameNamesSameTables(data, a, b);
    }
  }

  /** Tables drawn from the registry are determined by their names. */
  lemma SameNamesSameTables(data: Definitions, a: Resolved, b: Resolved)
    requires Drawn(data, a) && Drawn(data, b)
    ensures a.enums.Keys == b.enums.Keys ==> a.enums == b.enums
    ensures a.functions.Keys == b.functions.Keys ==> a.functions == b.functions
  {
  }

  lemma OnlyKindKnown(data: Definitions, fs: seq<FeatureDefinition>, t: FeatureElementType)
    requires AllKnown(data, fs)
    ensures AllKnown(data, OnlyKind(fs, t))
  {
  }

  lemma {:induction false} OfKindMentions(es: seq<FeatureElement>, t: FeatureElementType)
    ensures Mentioned(OfKind(es, t), t) == Mentioned(es, t)
    decreases |es|
  {
    if es != [] {
      var init := es[..|es| - 1];
      var e := es[|es| - 1];
      OfKindMentions(init, t);
      if e.elementType == t {
        MentionedAppend(OfKind(init, t), e, t);
      } else {
        assert OfKind(es, t) == OfKind(init, t) + [];
        assert OfKind(init, t) + [] == OfKind(init, t);
      }
    }
  }

  lemma OnlyKindMentions(f: FeatureDefinition, t: FeatureElementType)
    ensures Mentioned(OfKind(f.additions, t), t) == Mentioned(f.additions, t)
    ensures Mentioned(OfKind(f.removals, t), t) == Mentioned(f.removals, t)
  {
    OfKindMentions(f.additions, t);
    OfKindMentions(f.removals, t);
  }

  lemma OnlyKindSurvives(fs: seq<FeatureDefinition>, t: FeatureElementType, n: string)
    ensures Survives(OnlyKind(fs, t), t, n) <==> Survives(fs, t, n)
  {
    var gs := OnlyKind(fs, t);
    forall i | 0 <= i < |fs|
      ensures SameMentions(gs[i], fs[i], t)
    {
      OnlyKindMentions(fs[i], t);
    }
    SameMentionsSurvive(fs, gs, t, n);
    SameMentionsSurvive(gs, fs, t, n);
  }

  /** Two features mention the same names of kind `t`. */
  predicate SameMentions(f: FeatureDefinition, g: FeatureDefinition, t: FeatureElementType) {
    Mentioned(f.additions, t) == Mentioned(g.additions, t) && Mentioned(f.removals, t) == Mentioned(g.removals, t)
  }

  /** Survival depends only on the names each feature mentions. */
  lemma SameMentionsSurvive(fs: seq<FeatureDefinition>, gs: seq<FeatureDefinition>, t: FeatureElementType, n: string)
    requires |fs| == |gs| && forall i :: 0 <= i < |fs| ==> SameMentions(fs[i], gs[i], t)
    ensures Survives(fs, t, n) ==> Survives(gs, t, n)
  {
    if Survives(fs, t, n) {
      var k :| 0 <= k < |fs| && n in Mentioned(fs[k].additions, t)
        && forall j :: k <= j < |fs| ==> n !in Mentioned(fs[j].removals, t);
      assert SameMentions(fs[k], gs[k], t);
      assert forall j :: k <= j < |gs| ==> n !in Mentioned(gs[j].removals, t) by {
        forall j | k <= j < |gs| ensures n !in Mentioned(gs[j].removals, t) {
          assert SameMentions(fs[j], gs[j], t);
        }
      }
    }
  }
}

=== FILE: prune_groups.dfy ===
/** `PruneGroups`: keeps in each group only the enums that are still
    defined, and drops the groups left empty. */
module PruneGroups {
  import opened GLXmlDefinitions

  /** The groups once pruned against the enum table: each group keeps the
      members the table defines, and a group with none left is dropped. */
  function PrunedGroups(groups: map<string, GroupDefinition>, enums: map<string, EnumValueDefinition>): (r: map<string, GroupDefinition>)
    ensures r.Keys <= groups.Keys
    ensures forall n :: n in groups ==> (n in r <==> groups[n].enums * enums.Keys != {})
    ensures forall n :: n in r ==> r[n].enums == groups[n].enums * enums.Keys
  {
    map n | n in groups && groups[n].enums * enums.Keys != {} :: GroupDefinition(groups[n].enums * enums.Keys)
  }

  /** Every member of a pruned group is a defined enum, and no pruned group
      is empty. */
  lemma PrunedGroupsClosed(groups: map<string, GroupDefinition>, enums: map<string, EnumValueDefinition>)
    ensures forall n :: n in PrunedGroups(groups, enums) ==>
              PrunedGroups(groups, enums)[n].enums != {} && PrunedGroups(groups, enums)[n].enums <= enums.Keys
  {
  }

  /** Pruning groups that are already pruned changes nothing. */
  lemma PrunedGroupsIdempotent(groups: map<string, GroupDefinition>, enums: map<string, EnumValueDefinition>)
    ensures PrunedGroups(PrunedGroups(groups, enums), enums) == PrunedGroups(groups, enums)
  {
    var once := PrunedGroups(groups, enums);
    var twice := PrunedGroups(once, enums);
    forall n | n in once ensures n in twice && twice[n] == once[n] {
      assert once[n].enums * enums.Keys == once[n].enums;
    }
    assert twice.Keys == once.Keys;
  }

  /** The inner loop of `Prune`: every member of the original group that is
      not a defined enum is removed from the group's copy. */
  method RemoveUndefined(copy: set<string>, original: set<string>, enums: map<string, EnumValueDefinition>) returns (kept: set<string>)
    requires copy == original
    ensures kept == original * enums.Keys
  {
    kept := copy;
    var members := original;
    while members != {}
      invariant forall x :: x in kept <==> x in original && (x in members || x in enums)
      decreases |members|
    {
      var e :| e in members;
      members := members - {e};
      if e !in enums {
        kept := kept - {e};
      }
    }
    assert kept == original * enums.Keys;
  }

  /** `Prune`. The groups are copied, then each group's copy loses the
      members that are not defined enums, and an emptied group is removed;
      the other tables pass through. */
  method Prune(data: Definitions) returns (r: Definitions)
    ensures r.groups == PrunedGroups(data.groups, data.enumValues)
    ensures r.enumValues == data.enumValues && r.functions == data.functions && r.features == data.features
  {
    var newGroups := map n | n in data.groups :: GroupDefinition(data.groups[n].enums);
    var todo := data.groups.Keys;
    while todo != {}
      invariant Progress(data, newGroups, todo)
      decreases |todo|
    {
      var groupName :| groupName in todo;
      ghost var before, pending := newGroups, todo;
      todo := todo - {groupName};
      var newGroup := RemoveUndefined(newGroups[groupName].enums, data.groups[groupName].enums, data.enumValues);
      if |newGroup| == 0 {
        newGroups := newGroups - {groupName};
        ProgressDrop(data, before, pending, groupName);
      } else {
        // the group's set was pruned in place
        newGroups := newGroups[groupName := GroupDefinition(newGroup)];
        ProgressKeep(data, before, pending, groupName, newGroup);
      }
    }
    ProgressDone(data, newGroups);
    return Definitions(data.enumValues, newGroups, data.functions, data.features);
  }

  /** The loop of `Prune` part way: the groups still to visit hold their
      copies, and every visited group is pruned or gone. */
  ghost predicate Progress(data: Definitions, newGroups: map<string, GroupDefinition>, todo: set<string>) {
    (forall n :: n in newGroups ==> n in data.groups)
    && (forall n :: n in todo ==> n in data.groups && n in newGroups && newGroups[n] == data.groups[n])
    && (forall n :: n in data.groups && n !in todo ==>
          (n in newGroups <==> data.groups[n].enums * data.enumValues.Keys != {}))
    && (forall n :: n in newGroups && n !in todo ==> newGroups[n].enums == data.groups[n].enums * data.enumValues.Keys)
  }

  /** A visited group that is left empty is removed. */
  lemma ProgressDrop(data: Definitions, newGroups: map<string, GroupDefinition>, todo: set<string>, g: string)
    requires Progress(data, newGroups, todo) && g in todo
    requires data.groups[g].enums * data.enumValues.Keys == {}
    ensures Progress(data, newGroups - {g}, todo - {g})
  {
  }

  /** A visited group that keeps members is replaced by its pruned copy. */
  lemma ProgressKeep(data: Definitions, newGroups: map<string, GroupDefinition>, todo: set<string>, g: string, kept: set<string>)
    requires Progress(data, newGroups, todo) && g in todo
    requires kept == data.groups[g].enums * data.enumValues.Keys && |kept| != 0
    ensures Progress(data, newGroups[g := GroupDefinition(kept)], todo - {g})
  {
  }

  lemma ProgressDone(data: Definitions, newGroups: map<string, GroupDefinition>)
    requires Progress(data, newGroups, {})
    ensures newGroups == PrunedGroups(data.groups, data.enumValues)
  {
    assert newGroups.Keys == PrunedGroups(data.groups, data.enumValues).Keys;
  }
}

=== FILE: tables.dfy ===
/** Filling a dictionary with `Dictionary.Add`, one keyed entry at a time: the
    shape the registry reader shares between groups and commands. */
module Tables {
  import opened Wrappers

  /** One item to add: either it failed before its key was known, or it has a
      key and a value that may itself have failed. The key is checked for a
      duplicate before the value's failure is reported. */
  datatype Entry<V> = Failed(error: Error) | Keyed(key: string, value: Result<V>)

  /** A `foreach` loop whose body may throw: the steps applied in order,
      stopping at the first failure. */
  function Fold<S, X>(step: (S, X) -> Result<S>, init: S, xs: seq<X>): Result<S>
    decreases |xs|
  {
    if xs == [] then Ok(init)
    else
      match Fold(step, init, xs[..|xs| - 1])
      case Err(e) => Err(e)
      case Ok(s) => step(s, xs[|xs| - 1])
  }

  /** Once the loop has failed, the items after do not matter. */
  lemma {:induction false} FoldFailureStays<S, X>(step: (S, X) -> Result<S>, init: S, xs: seq<X>, n: nat)
    requires n <= |xs| && Fold(step, init, xs[..n]).Err?
    ensures Fold(step, init, xs) == Fold(step, init, xs[..n])
    decreases |xs| - n
  {
    if n < |xs| {
      assert xs[..n + 1][..n] == xs[..n];
      FoldFailureStays(step, init, xs, n + 1);
    } else {
      assert xs[..n] == xs;
    }
  }

  /** One more iteration of the loop. */
  lemma FoldNext<S, X>(step: (S, X) -> Result<S>, init: S, xs: seq<X>, n: nat, s: S)
    requires n < |xs| && Fold(step, init, xs[..n]) == Ok(s)
    ensures Fold(step, init, xs[..n + 1]) == step(s, xs[n])
  {
    assert xs[..n + 1][..n] == xs[..n];
  }

  /** Adds the entries in order; a key already present fails with `DuplicateKey`. */
  function AddAll<V>(es: seq<Entry<V>>): Result<map<string, V>> {
    Fold(Add, map[], es)
  }

  /** `Dictionary.Add` of one entry. */
  function Add<V>(m: map<string, V>, e: Entry<V>): (r: Result<map<string, V>>)
    ensures r.Ok? <==> e.Keyed? && e.key !in m && e.value.Ok?
    ensures r.Ok? ==> r.value == m[e.key := e.value.value]
    ensures e.Keyed? && e.key in m ==> r == Err(DuplicateKey)
  {
    match e
    case Failed(err) => Err(err)
    case Keyed(k, v) =>
      if k in m then Err(DuplicateKey)
      else match v
        case Err(err) => Err(err)
        case Ok(x) => Ok(m[k := x])
  }

  /** Every entry has a key and a value. */
  predicate AllKeyed<V>(es: seq<Entry<V>>) {
    forall i :: 0 <= i < |es| ==> es[i].Keyed? && es[i].value.Ok?
  }

  /** No two entries share a key. */
  predicate DistinctKeys<V>(es: seq<Entry<V>>) {
    forall i, j :: 0 <= i < j < |es| && es[i].Keyed? && es[j].Keyed? ==> es[i].key != es[j].key
  }

  function Keys<V>(es: seq<Entry<V>>): set<string> {
    set i | 0 <= i < |es| && es[i].Keyed? :: es[i].key
  }

  /** Adding succeeds exactly when every entry has a key and a value and no
      key repeats; the table then holds every entry under its key. */
  lemma {:induction false} AddAllCharacterization<V>(es: seq<Entry<V>>)
    ensures AddAll(es).Ok? <==> AllKeyed(es) && DistinctKeys(es)
    ensures AddAll(es).Ok? ==> AddAll(es).value.Keys == Keys(es)
    ensures AddAll(es).Ok? ==> forall i :: 0 <= i < |es| ==> AddAll(es).value[es[i].key] == es[i].value.value
    decreases |es|
  {
    if es != [] {
      var init, e := es[..|es| - 1], es[|es| - 1];
      assert es == init + [e];
      AddAllCharacterization(init);
      if AddAll(init).Ok? {
        AddAllOkStep(init, e);
      } else {
        AddAllErrStep(init, e);
      }
    }
  }

  /** Adding one more entry after the ones before it. */
  lemma AddAllLast<V>(init: seq<Entry<V>>, e: Entry<V>)
    ensures AddAll(init + [e]) == match AddAll(init) case Err(err) => Err(err) case Ok(m) => Add(m, e)
  {
    assert (init + [e])[..|init|] == init;
  }

  /** One more entry added to a table that was filled without failure. */
  lemma AddAllOkStep<V>(init: seq<Entry<V>>, e: Entry<V>)
    requires AddAll(init).Ok? && AllKeyed(init) && DistinctKeys(init)
    requires AddAll(init).value.Keys == Keys(init)
    requires forall i :: 0 <= i < |init| ==> AddAll(init).value[init[i].key] == init[i].value.value
    ensures AddAll(init + [e]).Ok? <==> AllKeyed(init + [e]) && DistinctKeys(init + [e])
    ensures AddAll(init + [e]).Ok? ==> AddAll(init + [e]).value.Keys == Keys(init + [e])
    ensures AddAll(init + [e]).Ok? ==> forall i :: 0 <= i < |init + [e]| ==>
              AddAll(init + [e]).value[(init + [e])[i].key] == (init + [e])[i].value.value
  {
    AddAllLast(init, e);
    var m := AddAll(init).value;
    if e.Keyed? && e.key in m {
      AddedTwice(init, e);
    } else if e.Keyed? && e.value.Ok? {
      AddedOnce(init, e, m);
    } else {
      assert !AllKeyed(init + [e]) by { assert (init + [e])[|init|] == e; }
    }
  }

  /** An entry whose key is already in the table repeats a key. */
  lemma AddedTwice<V>(init: seq<Entry<V>>, e: Entry<V>)
    requires AddAll(init).Ok? && AddAll(init).value.Keys == Keys(init)
    requires e.Keyed? && e.key in AddAll(init).value
    ensures !DistinctKeys(init + [e])
  {
    var es := init + [e];
    var i :| 0 <= i < |init| && init[i].Keyed? && init[i].key == e.key;
    assert es[i] == init[i] && es[|init|] == e;
  }

  /** An entry with a new key and a value extends the table by itself. */
  lemma AddedOnce<V>(init: seq<Entry<V>>, e: Entry<V>, m: map<string, V>)
    requires AllKeyed(init) && DistinctKeys(init) && m.Keys == Keys(init)
    requires forall i :: 0 <= i < |init| ==> m[init[i].key] == init[i].value.value
    requires e.Keyed? && e.key !in m && e.value.Ok?
    ensures AllKeyed(init + [e]) && DistinctKeys(init + [e])
    ensures m[e.key := e.value.value].Keys == Keys(init + [e])
    ensures forall i :: 0 <= i < |init + [e]| ==> m[e.key := e.value.value][(init + [e])[i].key] == (init + [e])[i].value.value
  {
    var es := init + [e];
    assert forall i :: 0 <= i < |init| ==> es[i] == init[i];
    assert es[|init|] == e;
    assert forall i :: 0 <= i < |init| ==> init[i].key in Keys(init);
    assert Keys(es) == Keys(init) + {e.key};
  }

  /** Once adding has failed, the entries so far already break the condition. */
  lemma AddAllErrStep<V>(init: seq<Entry<V>>, e: Entry<V>)
    requires AddAll(init).Err? && !(AllKeyed(init) && DistinctKeys(init))
    ensures AddAll(init + [e]).Err? && !(AllKeyed(init + [e]) && DistinctKeys(init + [e]))
  {
    AddAllLast(init, e);
    var es := init + [e];
    assert forall i :: 0 <= i < |init| ==> es[i] == init[i];
    if !AllKeyed(init) {
      var i :| 0 <= i < |init| && !(init[i].Keyed? && init[i].value.Ok?);
      assert !(es[i].Keyed? && es[i].value.Ok?);
    } else {
      var i, j :| 0 <= i < j < |init| && init[i].Keyed? && init[j].Keyed? && init[i].key == init[j].key;
      assert es[i] == init[i] && es[j] == init[j];
    }
  }


  /** An item read in full and then keyed by a field of what was read: it
      fails when reading fails. */
  function KeyedBy<X, V>(read: X -> Result<V>, key: V -> string, x: X): Entry<V> {
    match read(x)
    case Err(e) => Failed(e)
    case Ok(v) => Keyed(key(v), Ok(v))
  }

  function KeyedAll<X, V>(read: X -> Result<V>, key: V -> string, xs: seq<X>): (es: seq<Entry<V>>)
    ensures |es| == |xs| && forall i :: 0 <= i < |xs| ==> es[i] == KeyedBy(read, key, xs[i])
  {
    seq(|xs|, i requires 0 <= i < |xs| => KeyedBy(read, key, xs[i]))
  }

  /** No two items that read well have the same key. */
  predicate ReadKeysDistinct<X, V>(read: X -> Result<V>, key: V -> string, xs: seq<X>) {
    forall i, j :: 0 <= i < j < |xs| && read(xs[i]).Ok? && read(xs[j]).Ok? ==>
      key(read(xs[i]).value) != key(read(xs[j]).value)
  }

  /** Adding items keyed by what was read succeeds exactly when every item
      reads well and no key repeats; every value then sits under its own key,
      and every item's value is in the table. */
  lemma KeyedAllCharacterization<X, V>(read: X -> Result<V>, key: V -> string, xs: seq<X>)
    ensures AddAll(KeyedAll(read, key, xs)).Ok? <==>
              (forall i :: 0 <= i < |xs| ==> read(xs[i]).Ok?) && ReadKeysDistinct(read, key, xs)
    ensures AddAll(KeyedAll(read, key, xs)).Ok? ==>
              forall k :: k in AddAll(KeyedAll(read, key, xs)).value ==> key(AddAll(KeyedAll(read, key, xs)).value[k]) == k
    ensures AddAll(KeyedAll(read, key, xs)).Ok? ==> forall i :: 0 <= i < |xs| ==>
              key(read(xs[i]).value) in AddAll(KeyedAll(read, key, xs)).value
              && AddAll(KeyedAll(read, key, xs)).value[key(read(xs[i]).value)] == read(xs[i]).value
  {
    var es := KeyedAll(read, key, xs);
    AddAllCharacterization(es);
    assert AllKeyed(es) <==> forall i :: 0 <= i < |xs| ==> read(xs[i]).Ok?;
    if AllKeyed(es) {
      assert DistinctKeys(es) <==> ReadKeysDistinct(read, key, xs);
    }
    if AddAll(es).Ok? {
      var m := AddAll(es).value;
      forall k | k in m ensures key(m[k]) == k {
        var i :| 0 <= i < |es| && es[i].Keyed? && es[i].key == k;
      }
      forall i | 0 <= i < |xs|
        ensures key(read(xs[i]).value) in m && m[key(read(xs[i]).value)] == read(xs[i]).value
      {
        assert es[i].key in Keys(es);
      }
    }
  }

  /** One step of a `Select` whose selector may throw. */
  function Append<X, Y>(f: X -> Result<Y>, acc: seq<Y>, x: X): Result<seq<Y>> {
    match f(x)
    case Err(e) => Err(e)
    case Ok(y) => Ok(acc + [y])
  }

  /** `xs.Select(f).ToList()` for a selector that may throw. */
  function MapAll<X, Y>(f: X -> Result<Y>, xs: seq<X>): Result<seq<Y>> {
    Fold((acc, x) => Append(f, acc, x), [], xs)
  }

  /** Selecting succeeds exactly when every item does; the results are then
      one per item, in order. */
  lemma {:induction false} MapAllCharacterization<X, Y>(f: X -> Result<Y>, xs: seq<X>)
    ensures MapAll(f, xs).Ok? <==> forall i :: 0 <= i < |xs| ==> f(xs[i]).Ok?
    ensures MapAll(f, xs).Ok? ==> |MapAll(f, xs).value| == |xs|
    ensures MapAll(f, xs).Ok? ==> forall i :: 0 <= i < |xs| ==> MapAll(f, xs).value[i] == f(xs[i]).value
    decreases |xs|
  {
    if xs != [] {
      var init := xs[..|xs| - 1];
      MapAllCharacterization(f, init);
      assert forall i :: 0 <= i < |init| ==> init[i] == xs[i];
      if MapAll(f, init).Err? {
        var i :| 0 <= i < |init| && f(init[i]).Err?;
        assert f(xs[i]).Err?;
      }
    }
  }

  /** One step of a loop that may throw, may skip the item (`continue`), or
      may keep what it read. */
  function Collect<X, Y>(f: X -> Result<Option<Y>>, acc: seq<Y>, x: X): Result<seq<Y>> {
    match f(x)
    case Err(e) => Err(e)
    case Ok(None) => Ok(acc)
    case Ok(Some(y)) => Ok(acc + [y])
  }

  /** The loop over all items, stopping at the first failure. */
  function CollectAll<X, Y>(f: X -> Result<Option<Y>>, xs: seq<X>): Result<seq<Y>> {
    Fold((acc, x) => Collect(f, acc, x), [], xs)
  }

  /** What each item reads as, for items that all read well. */
  function Outcomes<X, Y>(f: X -> Result<Option<Y>>, xs: seq<X>): (os: seq<Option<Y>>)
    requires forall i :: 0 <= i < |xs| ==> f(xs[i]).Ok?
    ensures |os| == |xs| && forall i :: 0 <= i < |xs| ==> os[i] == f(xs[i]).value
  {
    seq(|xs|, i requires 0 <= i < |xs| => f(xs[i]).value)
  }

  /** The present values, in order. */
  function Present<Y>(os: seq<Option<Y>>): (r: seq<Y>)
    ensures |r| <= |os|
    ensures forall k :: 0 <= k < |r| ==> Some(r[k]) in os
    ensures forall k :: 0 <= k < |os| && os[k].Some? ==> os[k].value in r
  {
    if os == [] then []
    else
      var init := os[..|os| - 1];
      assert os == init + [os[|os| - 1]];
      Present(init) + (if os[|os| - 1].Some? then [os[|os| - 1].value] else [])
  }

  /** The loop succeeds exactly when every item reads well, and then keeps
      the values read, in order, leaving out the skipped items. */
  lemma {:induction false} CollectAllCharacterization<X, Y>(f: X -> Result<Option<Y>>, xs: seq<X>)
    ensures CollectAll(f, xs).Ok? <==> forall i :: 0 <= i < |xs| ==> f(xs[i]).Ok?
    ensures CollectAll(f, xs).Ok? ==> CollectAll(f, xs).value == Present(Outcomes(f, xs))
    decreases |xs|
  {
    if xs != [] {
      var init := xs[..|xs| - 1];
      CollectAllCharacterization(f, init);
      assert forall i :: 0 <= i < |init| ==> init[i] == xs[i];
      if CollectAll(f, init).Err? {
        var i :| 0 <= i < |init| && f(init[i]).Err?;
        assert f(xs[i]).Err?;
      } else if f(xs[|xs| - 1]).Ok? {
        assert Outcomes(f, xs)[..|xs| - 1] == Outcomes(f, init);
      }
    }
  }
}

=== FILE: text.dfy ===
/** The string operations of the .NET base library that the registry compiler
    relies on, restricted to ASCII character classes. */
module Text {

  /** `char.IsWhiteSpace` on the ASCII range: space, tab, line feed, vertical
      tab, form feed and carriage return. */
  predicate IsWhiteSpace(c: char) {
    c == ' ' || c == '\t' || c == '\n' || c == '\r' || c == '\U{0B}' || c == '\U{0C}'
  }

  /** The regular-expression class `\w` on the ASCII range. */
  predicate IsWordChar(c: char) {
    ('a' <= c <= 'z') || ('A' <= c <= 'Z') || ('0' <= c <= '9') || c == '_'
  }

  /** `string.IsNullOrWhiteSpace` on a non-null string. */
  predicate IsWhiteSpaceOnly(s: string) {
    forall k :: 0 <= k < |s| ==> IsWhiteSpace(s[k])
  }

  /** Ordinal `string.StartsWith`. */
  predicate StartsWith(s: string, prefix: string) {
    |prefix| <= |s| && s[..|prefix|] == prefix
  }

  /** `pat` occurs in `s` at position `k`. */
  predicate OccursAt(s: string, pat: string, k: int) {
    0 <= k && k + |pat| <= |s| && s[k..k + |pat|] == pat
  }

  /** `string.TrimStart()`: drops the leading white space. */
  function TrimStart(s: string): (r: string)
    ensures |r| <= |s| && r == s[|s| - |r|..]
    ensures forall k :: 0 <= k < |s| - |r| ==> IsWhiteSpace(s[k])
    ensures r == [] || !IsWhiteSpace(r[0])
  {
    if s != [] && IsWhiteSpace(s[0]) then TrimStart(s[1..]) else s
  }

  /** `string.TrimEnd()`: drops the trailing white space. */
  function TrimEnd(s: string): (r: string)
    ensures |r| <= |s| && r == s[..|r|]
    ensures forall k :: |r| <= k < |s| ==> IsWhiteSpace(s[k])
    ensures r == [] || !IsWhiteSpace(r[|r| - 1])
  {
    if s != [] && IsWhiteSpace(s[|s| - 1]) then TrimEnd(s[..|s| - 1]) else s
  }

  /** `string.Trim()`: the result is a slice of the input with only white space
      cut off either side, and it neither starts nor ends with white space. */
  function Trim(s: string): (r: string)
    ensures exists i :: OccursAt(s, r, i) && IsWhiteSpaceOnly(s[..i]) && IsWhiteSpaceOnly(s[i + |r|..])
    ensures r == [] || (!IsWhiteSpace(r[0]) && !IsWhiteSpace(r[|r| - 1]))
    ensures IsWhiteSpaceOnly(s) <==> r == []
  {
    var t := TrimStart(s);
    var r := TrimEnd(t);
    TrimCuts(s, t, r);
    r
  }

  /** Where `Trim` cuts: `TrimStart` drops `|s| - |t|` characters, `TrimEnd`
      keeps `|r|` of the rest. */
  lemma TrimCuts(s: string, t: string, r: string)
    requires |t| <= |s| && t == s[|s| - |t|..] && forall k :: 0 <= k < |s| - |t| ==> IsWhiteSpace(s[k])
    requires |r| <= |t| && r == t[..|r|] && forall k :: |r| <= k < |t| ==> IsWhiteSpace(t[k])
    requires r == [] || !IsWhiteSpace(r[0])
    ensures OccursAt(s, r, |s| - |t|)
    ensures IsWhiteSpaceOnly(s[..|s| - |t|]) && IsWhiteSpaceOnly(s[|s| - |t| + |r|..])
    ensures IsWhiteSpaceOnly(s) <==> r == []
  {
    var i := |s| - |t|;
    assert s[i..i + |r|] == s[i..][..|r|];
    SliceWhiteSpace(s, 0, i);
    forall k | i + |r| <= k < |s| ensures IsWhiteSpace(s[k]) {
      assert s[k] == t[k - i];
    }
    SliceWhiteSpace(s, i + |r|, |s|);
    if r != [] {
      assert s[i] == r[0];
    } else {
      forall k | 0 <= k < |s| ensures IsWhiteSpace(s[k]) {
        if k >= i { assert s[k] == t[k - i]; }
      }
      SliceWhiteSpace(s, 0, |s|);
      assert s[0..|s|] == s;
    }
  }

  /** A slice of white-space characters is white space only. */
  lemma SliceWhiteSpace(s: string, lo: nat, hi: nat)
    requires lo <= hi <= |s| && forall k :: lo <= k < hi ==> IsWhiteSpace(s[k])
    ensures IsWhiteSpaceOnly(s[lo..hi])
  {
    assert forall k :: 0 <= k < hi - lo ==> s[lo..hi][k] == s[lo + k];
  }

  /** Trimming a string that is already trimmed changes nothing. */
  lemma TrimIdempotent(s: string)
    ensures Trim(Trim(s)) == Trim(s)
  {
    var r := Trim(s);
    assert r == [] || !IsWhiteSpace(r[0]);
    assert TrimStart(r) == r;
    assert r == [] || !IsWhiteSpace(r[|r| - 1]);
    assert TrimEnd(r) == r;
  }

  /** Ordinal `string.IndexOf(char)`: the first position of `c`, or -1. */
  function IndexOfChar(s: string, c: char): (r: int)
    ensures -1 <= r < |s|
    ensures r >= 0 ==> s[r] == c && c !in s[..r]
    ensures r == -1 <==> c !in s
  {
    if s == [] then -1
    else if s[0] == c then 0
    else
      var r := IndexOfChar(s[1..], c);
      if r == -1 then -1 else r + 1
  }

  /** Ordinal `string.LastIndexOf(string)`: the last position at which `pat`
      occurs in `s`, or -1 when it occurs nowhere. For an empty `pat` this is
      `|s|`. */
  function LastIndexOf(s: string, pat: string): (r: int)
    ensures -1 <= r
    ensures r >= 0 ==> OccursAt(s, pat, r) && forall k :: r < k ==> !OccursAt(s, pat, k)
    ensures r == -1 <==> forall k :: !OccursAt(s, pat, k)
  {
    if |pat| > |s| then -1 else LastIndexFrom(s, pat, |s| - |pat|)
  }

  /** The last occurrence of `pat` at a position no greater than `k`. */
  function LastIndexFrom(s: string, pat: string, k: nat): (r: int)
    requires k + |pat| <= |s|
    ensures -1 <= r <= k
    ensures r >= 0 ==> OccursAt(s, pat, r)
    ensures forall j :: r < j <= k ==> !OccursAt(s, pat, j)
    decreases k
  {
    if s[k..k + |pat|] == pat then k
    else if k == 0 then -1
    else LastIndexFrom(s, pat, k - 1)
  }

  /** `string.Split(sep)` with no options: every piece, empty ones included;
      joining the pieces with `sep` gives `s` back (lemma SplitJoin). */
  function SplitOn(s: string, sep: char): (r: seq<string>)
    ensures |r| >= 1
    ensures forall k :: 0 <= k < |r| ==> sep !in r[k]
    decreases |s|
  {
    var i := IndexOfChar(s, sep);
    if i == -1 then [s] else [s[..i]] + SplitOn(s[i + 1..], sep)
  }

  /** The pieces joined back with the separator between them. */
  function Join(pieces: seq<string>, sep: char): string {
    if pieces == [] then ""
    else if |pieces| == 1 then pieces[0]
    else pieces[0] + [sep] + Join(pieces[1..], sep)
  }

  lemma {:induction false} SplitJoin(s: string, sep: char)
    ensures Join(SplitOn(s, sep), sep) == s
    decreases |s|
  {
    var i := IndexOfChar(s, sep);
    if i != -1 {
      var rest := SplitOn(s[i + 1..], sep);
      SplitJoin(s[i + 1..], sep);
      assert SplitOn(s, sep) == [s[..i]] + rest;
      assert ([s[..i]] + rest)[1..] == rest;
      assert Join(SplitOn(s, sep), sep) == s[..i] + [sep] + Join(rest, sep);
      assert s == s[..i] + [sep] + s[i + 1..];
    }
  }

  lemma SplitOnNone(s: string, sep: char)
    requires sep !in s
    ensures SplitOn(s, sep) == [s]
  {
  }

  lemma SplitOnFirst(a: string, rest: string, sep: char)
    requires sep !in a
    ensures SplitOn(a + [sep] + rest, sep) == [a] + SplitOn(rest, sep)
  {
    var s := a + [sep] + rest;
    assert s[..|a|] == a;
    assert s[|a|] == sep;
    assert IndexOfChar(s, sep) == |a|;
    assert s[|a| + 1..] == rest;
  }

  /** Splitting pieces that do not contain the separator, once joined, gives
      the pieces back. */
  lemma {:induction false} JoinSplit(pieces: seq<string>, sep: char)
    requires |pieces| >= 1
    requires forall k :: 0 <= k < |pieces| ==> sep !in pieces[k]
    ensures SplitOn(Join(pieces, sep), sep) == pieces
  {
    if |pieces| == 1 {
      assert IndexOfChar(pieces[0], sep) == -1;
    } else {
      JoinSplit(pieces[1..], sep);
      SplitOnFirst(pieces[0], Join(pieces[1..], sep), sep);
      assert pieces == [pieces[0]] + pieces[1..];
    }
  }

  /** `StringSplitOptions.RemoveEmptyEntries`: keeps the non-empty pieces, in order. */
  function RemoveEmpty(pieces: seq<string>): (r: seq<string>)
    ensures forall k :: 0 <= k < |r| ==> r[k] != [] && r[k] in pieces
    ensures forall p :: p in pieces && p != [] ==> p in r
  {
    if pieces == [] then []
    else (if pieces[0] == [] then [] else [pieces[0]]) + RemoveEmpty(pieces[1..])
  }

  /** `s.Split(new[] { sep }, StringSplitOptions.RemoveEmptyEntries)`. */
  function SplitNonEmpty(s: string, sep: char): (r: seq<string>)
    ensures forall k :: 0 <= k < |r| ==> r[k] != [] && sep !in r[k]
  {
    RemoveEmpty(SplitOn(s, sep))
  }
}

=== FILE: versions.dfy ===
/** `System.Version` as the registry uses it: two to four non-negative
    components, with an absent build or revision held as -1. */
module Versions {
  import opened Wrappers
  import opened Text
  import opened Numbers

  const MaxInt32: int := 0x7FFF_FFFF

  datatype Version = Version(major: nat, minor: nat, build: int, revision: int) {
    /** The shapes `new Version(string)` can produce. */
    predicate Valid() {
      major <= MaxInt32 && minor <= MaxInt32 && -1 <= build <= MaxInt32 && -1 <= revision <= MaxInt32
      && (revision >= 0 ==> build >= 0)
    }

    /** The defined components: major and minor, then build and revision
        while they are present. */
    function Components(): (cs: seq<nat>)
      ensures 2 <= |cs| <= 4
    {
      [major, minor]
      + (if build >= 0 then [build as nat] else [])
      + (if build >= 0 && revision >= 0 then [revision as nat] else [])
    }

    /** `Version.ToString()`: the defined components joined with dots. */
    function ToString(): string {
      var cs := Components();
      Join(seq(|cs|, k requires 0 <= k < |cs| => FormatNat(cs[k])), '.')
    }
  }

  /** `Version.CompareTo` as a strict order: major, then minor, then build, then
      revision, with an absent component (-1) below every present one. */
  predicate Less(a: Version, b: Version) {
    a.major < b.major
    || (a.major == b.major && a.minor < b.minor)
    || (a.major == b.major && a.minor == b.minor && a.build < b.build)
    || (a.major == b.major && a.minor == b.minor && a.build == b.build && a.revision < b.revision)
  }

  /** `Less` is a strict total order: irreflexive, transitive, and any two
      different versions are ordered one way or the other. */
  lemma LessIsStrictTotalOrder(a: Version, b: Version, c: Version)
    ensures !Less(a, a)
    ensures Less(a, b) && Less(b, c) ==> Less(a, c)
    ensures a != b ==> Less(a, b) || Less(b, a)
    ensures !(Less(a, b) && Less(b, a))
  {
  }

  const MinInt32: int := -0x8000_0000

  /** The ways one component can fail. */
  predicate ComponentError(e: Error) {
    e == Format || e == Overflow || e == ArgumentOutOfRange
  }

  /** One component of a version string: `int.Parse` with `NumberStyles.Integer`,
      then a negative value is out of range. */
  function ParseComponent(s: string): (r: Result<nat>)
    ensures r.Ok? ==> r.value <= MaxInt32
    ensures r.Err? ==> ComponentError(r.error)
  {
    match ParseInteger(s, MinInt32, MaxInt32)
    case Err(e) => Err(e)
    case Ok(v) => if v < 0 then Err(ArgumentOutOfRange) else Ok(v)
  }

  /** The components in order; the first one that does not parse fails the whole. */
  function ParseComponents(parts: seq<string>): (r: Result<seq<nat>>)
    ensures r.Ok? ==> |r.value| == |parts| && forall k :: 0 <= k < |parts| ==> r.value[k] <= MaxInt32
    ensures r.Err? ==> ComponentError(r.error)
  {
    if parts == [] then Ok([])
    else
      match ParseComponent(parts[0])
      case Err(e) => Err(e)
      case Ok(c) =>
        match ParseComponents(parts[1..])
        case Err(e) => Err(e)
        case Ok(cs) => ConsBounded(c, cs); Ok([c] + cs)
  }

  lemma ConsBounded(c: nat, cs: seq<nat>)
    requires c <= MaxInt32 && forall k :: 0 <= k < |cs| ==> cs[k] <= MaxInt32
    ensures forall k :: 0 <= k < |[c] + cs| ==> ([c] + cs)[k] <= MaxInt32
  {
  }

  /** `new Version(string)`: two to four dot-separated components. */
  function ParseVersion(s: string): (r: Result<Version>)
    ensures r.Ok? ==> r.value.Valid()
    ensures r == Err(Argument) <==> |SplitOn(s, '.')| < 2 || |SplitOn(s, '.')| > 4
  {
    var parts := SplitOn(s, '.');
    if |parts| < 2 || |parts| > 4 then Err(Argument)
    else
      match ParseComponents(parts)
      case Err(e) => Err(e)
      case Ok(cs) =>
        Ok(Version(cs[0], cs[1], if |cs| > 2 then cs[2] else -1, if |cs| > 3 then cs[3] else -1))
  }

  lemma {:induction false} ParseComponentsOk(parts: seq<string>, cs: seq<nat>)
    requires |parts| == |cs|
    requires forall k :: 0 <= k < |parts| ==> ParseComponent(parts[k]) == Ok(cs[k])
    ensures ParseComponents(parts) == Ok(cs)
  {
    if parts != [] {
      ParseComponentsOk(parts[1..], cs[1..]);
      ParseComponentsCons(parts, cs[0], cs[1..]);
      HeadTail(cs);
    }
  }

  lemma ParseComponentsCons(parts: seq<string>, c: nat, rest: seq<nat>)
    requires parts != [] && ParseComponent(parts[0]) == Ok(c) && ParseComponents(parts[1..]) == Ok(rest)
    ensures ParseComponents(parts) == Ok([c] + rest)
  {
  }

  lemma HeadTail(cs: seq<nat>)
    requires cs != []
    ensures [cs[0]] + cs[1..] == cs
  {
  }

  lemma ComponentRoundTrip(n: nat)
    requires n <= MaxInt32
    ensures ParseComponent(FormatNat(n)) == Ok(n)
    ensures '.' !in FormatNat(n)
  {
    ParseIntegerDigits(FormatNat(n), MinInt32, MaxInt32);
  }

  /** A signed component: `+` changes nothing, `-0` is zero, and any other
      negative number within the 32-bit range is out of range. */
  lemma SignedComponent(ds: string)
    requires ds != [] && AllDigits(ds) && DecimalValue(ds) <= MaxInt32 + 1
    ensures ParseComponent("-" + ds) == if DecimalValue(ds) == 0 then Ok(0) else Err(ArgumentOutOfRange)
    ensures DecimalValue(ds) <= MaxInt32 ==> ParseComponent("+" + ds) == Ok(DecimalValue(ds))
  {
    ParseIntegerSigned(ds, '-', MinInt32, MaxInt32);
    if DecimalValue(ds) <= MaxInt32 {
      ParseIntegerSigned(ds, '+', MinInt32, MaxInt32);
    }
  }

  /** Writing a version and reading it back gives the same version. */
  lemma ParseToString(v: Version)
    requires v.Valid()
    ensures ParseVersion(v.ToString()) == Ok(v)
  {
    var cs := v.Components();
    var parts := seq(|cs|, k requires 0 <= k < |cs| => FormatNat(cs[k]));
    assert v.ToString() == Join(parts, '.');
    forall k | 0 <= k < |cs|
      ensures ParseComponent(parts[k]) == Ok(cs[k]) && '.' !in parts[k]
    {
      ComponentRoundTrip(cs[k]);
    }
    JoinSplit(parts, '.');
    ParseComponentsOk(parts, cs);
    ParseVersionOfParts(v.ToString(), parts, cs);
    FromComponents(v);
  }

  /** A string that splits into two to four components that all parse. */
  lemma ParseVersionOfParts(s: string, parts: seq<string>, cs: seq<nat>)
    requires SplitOn(s, '.') == parts && 2 <= |parts| <= 4 && ParseComponents(parts) == Ok(cs)
    ensures ParseVersion(s) == Ok(Version(cs[0], cs[1], if |cs| > 2 then cs[2] else -1, if |cs| > 3 then cs[3] else -1))
  {
  }

  lemma FromComponents(v: Version)
    requires v.Valid()
    ensures var cs := v.Components();
      Version(cs[0], cs[1], if |cs| > 2 then cs[2] else -1, if |cs| > 3 then cs[3] else -1) == v
  {
  }
}

=== FILE: wrappers.dfy ===
/** Option and Result values, and the exceptions of the .NET runtime that the
    registry compiler can raise, named after the exception class. */
module Wrappers {

  datatype Option<+T> = None | Some(value: T)

  /** The failure kinds the compiler stages can raise. */
  datatype Error =
    | FileNotFound                     // the signature file does not exist
    | MissingAttribute(attr: string)   // a required XML attribute is absent
    | MissingElement(element: string)  // a required XML child element is absent
    | DuplicateKey                     // Dictionary.Add or ToDictionary with a key already present
    | KeyNotFound(key: string)         // Dictionary indexer with an absent key
    | Argument                         // version text with fewer than two or more than four parts
    | ArgumentOutOfRange               // a negative version component
    | InvalidData                      // malformed registry or type table
    | Format                           // number or version component text that does not parse
    | Overflow                         // number text outside the range of its integer type

  datatype Result<+T> = Ok(value: T) | Err(error: Error)
}

=== FILE: xml.dfy ===
/** The part of `System.Xml.Linq` the registry reader uses, over an abstract
    element tree: an element has a local name, attributes and mixed content. */
module Xml {
  import opened Wrappers
  import opened Text

  datatype Element = Element(name: string, attributes: map<string, string>, content: seq<Node>)
  datatype Node = Text(text: string) | Child(element: Element)

  /** `XElement.Value`: the text of all descendant text nodes, in document order. */
  function Value(e: Element): string
    decreases e, |e.content| + 1
  {
    ValueFrom(e, 0)
  }

  /** The text of the content of `e` from position `i` on. */
  function ValueFrom(e: Element, i: nat): string
    decreases e, |e.content| - i
  {
    if i >= |e.content| then ""
    else NodeValue(e, i) + ValueFrom(e, i + 1)
  }

  function NodeValue(e: Element, i: nat): string
    requires i < |e.content|
    decreases e, 0
  {
    match e.content[i]
    case Text(s) => s
    case Child(c) => Value(c)
  }

  /** `XElement.Attribute(name)?.Value`. */
  function Attribute(e: Element, attr: string): Option<string> {
    if attr in e.attributes then Some(e.attributes[attr]) else None
  }

  /** `XElement.Elements()`: the child elements, in document order. */
  function Elements(e: Element): (r: seq<Element>)
    ensures forall c :: c in r <==> Child(c) in e.content
  {
    ElementsFrom(e.content)
  }

  function ElementsFrom(ns: seq<Node>): (r: seq<Element>)
    ensures forall c :: c in r <==> Child(c) in ns
  {
    if ns == [] then []
    else (if ns[0].Child? then [ns[0].element] else []) + ElementsFrom(ns[1..])
  }

  /** Keeps the elements whose local name is `name`, in order. */
  function Named(es: seq<Element>, name: string): (r: seq<Element>)
    ensures forall c :: c in r <==> c in es && c.name == name
  {
    if es == [] then []
    else (if es[0].name == name then [es[0]] else []) + Named(es[1..], name)
  }

  /** `XElement.Elements(name)`. */
  function ElementsNamed(e: Element, name: string): (r: seq<Element>)
    ensures forall c :: c in r <==> Child(c) in e.content && c.name == name
  {
    Named(Elements(e), name)
  }

  /** `IEnumerable<XElement>.Elements(name)`: the children named `name` of each
      element in turn, concatenated. */
  function ElementsNamedAll(es: seq<Element>, name: string): (r: seq<Element>)
    ensures forall c :: c in r <==> exists p :: p in es && Child(c) in p.content && c.name == name
  {
    if es == [] then []
    else ElementsNamed(es[0], name) + ElementsNamedAll(es[1..], name)
  }

  /** `XElement.Element(name)`: the first child element named `name`. */
  function FirstElement(e: Element, name: string): (r: Option<Element>)
    ensures r.Some? ==> r.value.name == name && Child(r.value) in e.content
    ensures r.None? ==> forall c :: Child(c) in e.content ==> c.name != name
  {
    var cs := ElementsNamed(e, name);
    if cs == [] then None else Some(cs[0])
  }

  /** A required attribute: its value, or a failure naming it. */
  function RequiredAttribute(e: Element, attr: string): (r: Result<string>)
    ensures r.Ok? <==> attr in e.attributes
    ensures r.Ok? ==> r.value == e.attributes[attr]
    ensures r.Err? ==> r.error == MissingAttribute(attr)
  {
    if attr in e.attributes then Ok(e.attributes[attr]) else Err(MissingAttribute(attr))
  }

  /** A required child element: the first one with that name, or a failure naming it. */
  function RequiredElement(e: Element, name: string): (r: Result<Element>)
    ensures r.Ok? <==> FirstElement(e, name).Some?
    ensures r.Ok? ==> r.value == FirstElement(e, name).value
    ensures r.Err? ==> r.error == MissingElement(name)
  {
    match FirstElement(e, name)
    case Some(c) => Ok(c)
    case None => Err(MissingElement(name))
  }

  /** The text of every child element occurs inside the text of its parent. */
  lemma ChildValueOccurs(e: Element, c: Element)
    requires Child(c) in e.content
    ensures exists k :: OccursAt(Value(e), Value(c), k)
  {
    var i :| 0 <= i < |e.content| && e.content[i] == Child(c);
    ValueFromOccurs(e, 0, i);
    assert NodeValue(e, i) == Value(c);
    assert OccursAt(Value(e), Value(c), ValueFromPrefix(e, 0, i));
  }

  lemma {:induction false} ValueFromOccurs(e: Element, j: nat, i: nat)
    requires j <= i < |e.content|
    ensures OccursAt(ValueFrom(e, j), NodeValue(e, i), ValueFromPrefix(e, j, i))
    decreases i - j
  {
    if j < i {
      ValueFromOccurs(e, j + 1, i);
      var pre := NodeValue(e, j);
      var rest := ValueFrom(e, j + 1);
      var k := ValueFromPrefix(e, j + 1, i);
      var v := NodeValue(e, i);
      assert rest[k..k + |v|] == v;
      assert ValueFrom(e, j) == pre + rest;
      assert (pre + rest)[|pre| + k..|pre| + k + |v|] == rest[k..k + |v|];
    }
  }

  /** The length of the text before node `i`, counted from node `j`. */
  function ValueFromPrefix(e: Element, j: nat, i: nat): nat
    requires j <= i < |e.content|
    decreases i - j
  {
    if j == i then 0 else |NodeValue(e, j)| + ValueFromPrefix(e, j + 1, i)
  }
}
